=== FILE: README.md ===
# SiteRay extension core in Dafny

SiteRay is a browser extension. It looks up a trust score for the site in the
active tab and shows it in three places:
- a toolbar badge;
- a popup;
- a coloured bar injected into the page.

This project models the extension's deterministic decisions and its byte-exact
icon serialiser as pure Dafny functions over immutable datatypes, and proves
their properties. Anything that would talk to the outside world is a parameter
instead:
- the browser (tabs, storage and messaging);
- the network;
- the clock;
- the URL parser;
- the zlib compressor.

One module per component:

| file | module | models |
|---|---|---|
| types.dfy | `Types` | the records of `src/common/types.ts`, `Option`, the parsed-URL oracle, JavaScript truthiness of optional strings |
| strings.dfy | `Strings` | prefixes, ASCII lower-casing, decimal rendering and parsing |
| storage.dfy | `Storage` | `browser.storage.local` as a map from key to stored value |
| auth.dfy | `Auth` | the three-key credential record (`src/common/auth.ts`) |
| settings.dfy | `Settings` | settings merged over the defaults (`src/common/settings.ts`) |
| domain_utils.dfy | `DomainUtils` | the shared local-host classifier (`src/common/domain-utils.ts`) |
| lookup_cache.dfy | `LookupCache` | the background's lookup cache with its five-minute TTL |
| canvas.dfy | `Canvas` | the RGBA pixel buffer and the opaque pixel write |
| bitmap_font.dfy | `BitmapFont` | the 6x7 digit font and `drawTextMaxSize` |
| badge.dfy | `Badge` | icon-set choice, `stopLoadingAnimation`, `setBadgeScore`, `clearBadge` and the spinner-interval lifecycle (`src/common/badge.ts`) |
| background.dfy | `Background` | the background service worker's decisions (`src/background/index.ts`) |
| crc32.dfy | `Crc32` | the CRC-32 table and loop of `build/generate-icons.js` (section 3.4 of RFC 2083) |
| png.dfy | `Png` | `createChunk` and `createPNG` (sections 3.2, 4.1.1 and 6 of RFC 2083), with a reader the round-trip lemmas are stated against |
| api_client.dfy | `ApiClient` | the 401, refresh and retry-once state machine and the error-message rules (`src/common/api-client.ts`) |
| popup_app.dfy | `PopupApp` | the popup's view state (`src/popup/components/App.tsx`) |
| score_view.dfy | `ScoreView` | the score screen's labels, flags and countdown (`src/popup/components/ScoreView.tsx`) |
| content_bar.dfy | `ContentBar` | the content script's trust bar (`src/content/index.ts`) |

Modelling conventions:
- **Asynchrony.** An `await` on a remote call becomes a parameter holding the
  answer. That parameter is an `Outcome` (value or thrown message), a status
  oracle `Server`, or a reply record.
- **Icon application.** `safeSetIcon` makes two browser calls, `setIcon` and
  then `setBadgeText`. What they did is a `Badge.IconCall`: both reached the
  tab (`Applied`), only the icon did (`IconOnly`), or `setIcon` threw
  (`Rejected`). The icon shows unless the call was `Rejected`; the wrapper
  returns true only for `Applied`. Every call has its own outcome: a loop over
  tabs takes one per tab (`Background.IconCalls`), and `updateTabBadge`'s
  spinner frame and final badge take one each.
- **Timers.** Interval ids come from a counter, so a fresh id is never in use.
- **CRC widths.** The PNG encoder's 32-bit unsigned values are `bv32`.
- **Byte arithmetic.** Bytes are `bv8`; lengths and pixel indices are
  unbounded integers with explicit `< 2^32` bounds.
- **Division.** Divisions in the source are on non-negative numbers or are
  written so that JavaScript's `Math.floor` and Dafny's Euclidean division agree.

Two places where two copies of the same rule differ, as written:
- **Local hosts.** The background file keeps an older `isLocalDomain` without
  the IPv6 checks. `Background.SharedClassifierIsSuperset` proves that the
  shared classifier accepts everything the old one accepts, and that `::1`
  and `[fe80::1]` separate them.
- **Poll stop rule.** The background poller stops on any answer whose scan is
  complete. The popup poller also requires `success`.
  `PopupApp.StopRulesAgree` and `PopupApp.StopRulesDifferOnUnsuccessfulAnswer`
  show where the two agree and the answer on which they part.

## Model

| member | source | states |
|---|---|---|
| DomainUtils.LoopbackLiteralsAreLocal | src/common/domain-utils.ts:1-14 | each of the five skip literals, and bare `::1`, is local |
| DomainUtils.PrivatePatternIsPrefixList | src/common/domain-utils.ts:12 | the character-class regex accepts exactly the hosts that start with `192.168.`, `10.` or `172.N.` for N from 16 to 31 |
| DomainUtils.PrivateRangesAreLocal | src/common/domain-utils.ts:12 | hosts in 172.16/12 at both ends, in 192.168/16 and in 10/8 are local |
| DomainUtils.OutsideRangeIsPublic | src/common/domain-utils.ts:12-19 | `172.15.0.1` and `172.32.0.1`, one step outside 172.16/12, are not local |
| DomainUtils.OnlyIPv4PatternApplies | src/common/domain-utils.ts:9-20 | a host that is not a literal, not bracketed and does not start with `f`/`F` is local exactly when the IPv4 pattern matches |
| DomainUtils.PublicAddressIsNotLocal | src/common/domain-utils.ts:19 | `8.8.8.8` matches no rule and is not local |
| DomainUtils.Ipv6PrefixesAreLocal | src/common/domain-utils.ts:16-18 | `fe80:` with or without brackets and in any case is local, so are `fc`/`fd` prefixes, including the DNS name `fdic.gov` |
| DomainUtils.StripBrackets | src/common/domain-utils.ts:16 | removing the brackets never lengthens the host |
| Background.SharedClassifierIsSuperset | src/background/index.ts:20-25 | the background copy implies the shared one; `::1` and `[fe80::1]` are local only for the shared one |
| DomainUtils.IsLocalDomain | src/common/domain-utils.ts:1-20 | the five skip literals, the private IPv4 prefix pattern, bare `::1`, and after stripping brackets a case-insensitive `fe80:`, `fc` or `fd` prefix; characterised by the lemmas below |
| Background.BackgroundIsLocalDomain | src/background/index.ts:12-25 | the background copy: the same skip literals and IPv4 pattern, without the IPv6 rules |
| Background.ExtractDomain | src/background/index.ts:27-36 | a domain is extracted exactly when the URL parses, its protocol starts with `http` and the host is not local; the domain is then the hostname |
| Background.ExtractedDomainIsRemote | src/background/index.ts:27-36 | no extracted domain is local by the background's rule, and each came from a parsed `http…` URL |
| LookupCache.Get | src/background/index.ts:38-46 | a read hits exactly when the entry exists and is at most `CACHE_TTL_MS` old; a hit returns the stored data with the cache unchanged; a miss removes the key |
| LookupCache.Put | src/background/index.ts:48-50 | the key gets the data with the current time; every other key keeps its entry |
| LookupCache.Invalidate | src/background/index.ts:144-146 | only the named domain is removed |
| LookupCache.Clear | src/background/index.ts:188 | after logout no domain has an entry, so a read of any domain at any time misses |
| LookupCache.PutThenGet | src/common/config.ts:6 | a stored response is served for exactly five minutes after it was stored, boundary included, then missed and evicted |
| LookupCache.TtlBoundary | src/background/index.ts:41-44 | one millisecond before, at and after the TTL boundary |
| LookupCache.OtherDomainsUnaffected | src/background/index.ts:48-50 | writing or invalidating one domain never changes a read of another |
| LookupCache.InvalidateThenGet | src/background/index.ts:144-146 | after INVALIDATE_CACHE the next read of that domain misses |
| Background.ChooseBadge | src/background/index.ts:81-90 | spinner exactly when a scan is running; otherwise the score exactly when score and risk level are both present; otherwise gray |
| Background.ZeroScoreIsShown | src/background/index.ts:84 | a trust score of 0 selects the score badge, not the gray one |
| Background.ApplyBadge | src/background/index.ts:81-90 | the tab gets the chosen icon set in the stored icon mode when `setIcon` got through and keeps its icons when it was rejected; other tabs keep theirs; a non-spinner choice stops the tab's animation |
| Background.BuildBarData | src/background/index.ts:318-327 | none exactly when the bar is disabled or the scan or its risk level is missing; otherwise enabled, with the scan's level and the settings' position and size |
| Background.UpdateTabBadge | src/background/index.ts:52-79 | no credentials: gray badge, no lookup, null; cache hit: no lookup, the cached response; miss: one lookup, gray and null when it throws, stored and returned when it answers; a spinner frame that got through stays when the final badge is rejected |
| Background.SecondUpdateUsesCache | src/background/index.ts:59-73 | a second update of the same domain within the TTL makes no request and returns the first answer |
| Background.OnTabUrl | src/background/index.ts:93-121 | a tab without a URL is left exactly as it was; a URL with no remote domain gets the gray badge and no lookup; otherwise the tab's badge is updated |
| Background.HandleLogin | src/background/index.ts:161-184 | a successful login stores the credentials and updates the active tab's badge when it has an id, URL and domain; a failed one changes nothing |
| Background.OnePollerPerDomain | src/background/index.ts:240-244 | in a valid state a domain has exactly one live poll interval when registered and none otherwise |
| Background.StartBackgroundPolling | src/background/index.ts:242-280 | registers one interval for the domain, does nothing when one exists, and keeps pollers valid |
| Background.StartPollingIdempotent | src/background/index.ts:244 | starting twice is starting once |
| Background.PollTick | src/background/index.ts:247-277 | the domain's entry is dropped then re-cached from the answer; the poller stops exactly on a complete scan, and then each matching tab, in `MatchingTabs` order, gets the answer's badge (when its own `setIcon` got through) and the bar data; otherwise no badge changes |
| Background.FinishPoll | src/background/index.ts:252-271 | the interval's domain loses its poller and nothing else does; store and cache are kept; each listed tab whose `setIcon` got through shows the answer's badge; one bar message per listed tab, in list order |
| Background.PollerStopsOnlyOnCompletion | src/background/index.ts:253-257 | the interval is cleared exactly when the answer shows a complete scan; failures and incomplete answers keep it |
| Background.MatchingTabs | src/background/index.ts:260-263 | a tab is listed exactly when it has a truthy id and URL whose extracted domain is the polled domain |
| Background.MatchingTabsSplit | src/background/index.ts:259-263 | matching keeps the listing's order: two listings end to end match the first one's tabs, then the second's |
| Background.ApplyToTabs | src/background/index.ts:261-264 | every listed tab whose `setIcon` got through gets the badge of the answer; unlisted and rejected tabs keep theirs |
| Background.InvalidateCacheMessage | src/background/index.ts:144-146 | the message drops only that domain from the cache and touches nothing else |
| Background.AsOutcome | src/background/index.ts:292-295 | a handler's `catch` sees exactly the API client's failures, carrying the error's message; a success passes its value through |
| Background.HandleTriggerScan | src/background/index.ts:282-296 | the store is the one the API client left behind; when the API answers, the domain's cache entry is dropped and a poller runs for it; a throw changes nothing else |
| Background.ExpiredTriggerLogsOut | src/common/api-client.ts:81-97 | a scan trigger that ends in 'Session expired' leaves the extension logged out with no new poller and the cache untouched |
| Background.HandleLogout | src/background/index.ts:186-204 | credentials and the whole cache go; each tab with an id stops animating, is badged gray when its own `setIcon` got through, and is sent a null bar; other tabs keep their icons; pollers stay |
| Background.TabIds | src/background/index.ts:191-193 | the listed ids are exactly the truthy tab ids |
| Background.ClearTabs | src/background/index.ts:191-194 | every listed tab stops animating and is gray when its `setIcon` got through; unlisted and rejected tabs keep their icons |
| Background.HandleLookup | src/background/index.ts:206-225 | a cache hit is returned with nothing else changed; a miss makes one lookup, keeps the store the API client left, and either stores the answer and badges the active tab in the icon mode stored after the call, or returns the error's message |
| Background.ExpiredLookupLogsOut | src/background/index.ts:206-225 | a popup lookup whose session expired answers 'Session expired', leaves the extension logged out and touches no badge |
| Background.HandleGetBarData | src/background/index.ts:329-348 | no credentials or a disabled bar: null and no lookup; otherwise the bar data of the cached or fetched response, null when the lookup throws; a lookup keeps the store the API client left |
| Background.SecondBarRequestUsesCache | src/background/index.ts:337-345 | a second bar request for the same domain within the TTL makes no lookup and returns the first answer's bar data |
| Background.TabDomain | src/background/index.ts:355-358 | a tab is addressed exactly when its id and URL are truthy and its extracted domain is non-empty |
| Background.CachedBar | src/background/index.ts:360-366 | a tab is sent bar data only with credentials and a fresh cache entry, and then exactly the entry's bar data |
| Background.Addressed | src/background/index.ts:355-358 | the addressed tabs are listing tabs with a truthy id, URL and remote domain, and every such tab is among them |
| Background.AddressedSplit | src/background/index.ts:354-358 | addressing keeps the listing's order: two listings end to end address the first one's tabs, then the second's |
| Background.PushBarToAllTabs | src/background/index.ts:350-374 | one `UPDATE_BAR` per addressed tab, in tab order: the i-th message goes to the i-th addressed tab with its domain's bar data |
| Background.LoggedOutPushClearsBars | src/background/index.ts:351-366 | without credentials every pushed message clears the bar |
| Background.RefreshCachedBadges | src/background/index.ts:388-397 | an addressed tab with a fresh cache entry whose `setIcon` got through gets that response's badge in the stored mode (the last listing of an id wins); a tab with no fresh entry for any listing, or whose call was rejected, keeps its icons |
| Background.HandleSetSettings | src/background/index.ts:381-403 | the settings read back as saved; credentials and cache are kept; without credentials nothing else happens, with them the bars are pushed |
| Badge.SymbolShapeRoundTrip | src/common/badge.ts:372-378 | each risk level has its own symbol and the symbol gives the level back |
| Badge.ScoreIcons | src/common/badge.ts:433-441 | the icon set covers the sizes 16, 32 and 48 |
| Badge.SymbolsIgnoreScore | src/common/badge.ts:436-438 | in symbols mode the icons depend only on the risk level |
| Badge.NumbersIconPixels | src/common/badge.ts:12-22 | in numbers mode each pixel of each size is the level's colour exactly where a digit of `String(score)` covers it, transparent elsewhere |
| Badge.AtMostOneInterval | src/common/badge.ts:405-414 | in a valid state a tab has one live spinner interval when mapped and none otherwise |
| Badge.InitValid | src/common/badge.ts:406 | the empty state is valid |
| Badge.Stop | src/common/badge.ts:408-414 | the tab has no interval afterwards; other tabs keep their intervals; validity is kept |
| Badge.SetBadgeScore | src/common/badge.ts:433-443 | the tab's animation stops; its icons are the score icons whenever `setIcon` got through, even if `setBadgeText` then threw, and are untouched otherwise |
| Badge.ClearBadge | src/common/badge.ts:471-478 | the tab's animation stops; it shows the gray icons whenever `setIcon` got through, and is untouched otherwise |
| Badge.TabRemoved | src/common/badge.ts:417-419 | closing a tab leaves it no interval |
| Badge.BeginLoading | src/common/badge.ts:446-466 | the tab's old interval is gone; the closure starts at frame 1 when `safeSetIcon` returned true and at frame 0 otherwise, including when the icon got through but the text call threw |
| Badge.CommitLoading | src/common/badge.ts:467-468 | as written: the new interval is registered under the tab; validity is kept only when the tab had none |
| Badge.SetBadgeLoading | src/common/badge.ts:445-469 | run alone, one live interval for the tab, starting at frame 1 or 0 by `safeSetIcon`'s return value; the spinner's first frame shows whenever `setIcon` got through |
| Badge.SequentialCommitAgrees | src/common/badge.ts:446-468 | run alone, the as-written commit and the fixed one produce the same state |
| Badge.Tick | src/common/badge.ts:451-467 | a firing shows the frame whenever `setIcon` got through; it advances the frame mod 12 when `safeSetIcon` returns true and otherwise stops the tab; a cleared interval never fires |
| Badge.InterleavedLoadingLeaks | src/common/badge.ts:445-469 | two interleaved calls for one tab leave interval 1 live but unregistered |
| Badge.LeakedIntervalOutlivesScore | src/common/badge.ts:433-443 | from there `setBadgeScore` leaves the leaked interval live and its next firing paints the spinner over the score |
| Badge.CommitLoadingFixed | src/common/badge.ts:446-468 | clearing first keeps the state valid in every interleaving |
| Badge.InterleavedLoadingFixed | src/common/badge.ts:445-469 | with the fixed commit, two interleaved calls leave exactly one live interval for the tab |
| BitmapFont.FontKeys | src/common/badge.ts:124-215 | the glyph table's keys are exactly the ten decimal digits |
| BitmapFont.GlyphPointsCover | src/common/badge.ts:245-251 | one glyph writes exactly the `pixelScale`-square blocks of its lit cells |
| BitmapFont.Placements | src/common/badge.ts:240-244 | one placement per drawable character |
| BitmapFont.PlacementsEvenlySpaced | src/common/badge.ts:264 | glyph j is drawn at `startX + 7 * pixelScale * j`, whatever was skipped before it |
| BitmapFont.GlyphlessCharDrawsNothing | src/common/badge.ts:242-243 | removing a character without a glyph changes no glyph position |
| BitmapFont.GlyphPosition | src/common/badge.ts:240-264 | a drawable character's glyph sits at the pen position counted by the glyphs before it |
| BitmapFont.StampsCover | src/common/badge.ts:240-265 | a point is written exactly when a lit cell of some placed glyph covers it |
| BitmapFont.PixelScale | src/common/badge.ts:225-233 | the scale is at least 1, the floored smaller fit of `0.92 * size` to width and height |
| BitmapFont.DrawTextMaxSize | src/common/badge.ts:220-266 | every in-bounds pixel ends in the colour with alpha 255 exactly when a glyph covers it; every other byte is untouched |
| BitmapFont.FittedTextWithin92Percent | src/common/badge.ts:231-236 | when the fit is at least 1, the text is at most 92% of the icon in each direction |
| BitmapFont.TextPointsInBox | src/common/badge.ts:225-264 | every write lies in the box `7 * glyphs - 1` cells wide and 7 tall at the pen |
| BitmapFont.FittedTextIsNotClipped | src/common/badge.ts:236-257 | when the fit is at least 1, no write of the text falls outside the canvas |
| BitmapFont.ScoreTextGlyphs | src/common/badge.ts:18 | a non-negative score draws every character; a negative one draws all but the `-` |
| BitmapFont.ScoreIconPixels | src/common/badge.ts:12-22 | the score icon is a full `size * size * 4` buffer |
| Canvas.Offset | src/common/badge.ts:253 | an in-bounds pixel's four bytes lie inside the buffer |
| Canvas.OffsetsDisjoint | src/common/badge.ts:253 | distinct pixels have disjoint byte groups |
| Canvas.EveryByteBelongsToAPixel | src/common/badge.ts:13 | every byte of the buffer is one channel of one in-bounds pixel |
| Canvas.PaintPixel | src/common/badge.ts:252-257 | an in-bounds point gets the colour with alpha 255; an out-of-bounds one changes nothing; no other pixel changes |
| Canvas.PaintAll | src/common/badge.ts:245-262 | after all writes a pixel has the colour exactly when it was among the points, in any order |
| Crc32.ComputeEntry | build/generate-icons.js:73-78 | eight conditional shift-xor rounds from n give the table entry |
| Crc32.BuildCrcTable | build/generate-icons.js:70-81 | 256 entries, entry n from n |
| Crc32.TableSamples | build/generate-icons.js:70-81 | entries 1, 0x03, 0x1D, 0x31 and 0xB6 have the published values |
| Crc32.TableLookup | build/generate-icons.js:65 | one table step equals eight bitwise rounds on the xored byte |
| Crc32.RegisterWithTable | build/generate-icons.js:62-68 | the table-driven register equals the bitwise reference register for every buffer |
| Crc32.Crc32Loop | build/generate-icons.js:62-68 | the loop computes the reference CRC-32 of the buffer |
| Crc32.EmptyCrc | build/generate-icons.js:63-67 | the CRC of the empty buffer is 0 |
| Crc32.IendCrc | build/generate-icons.js:47 | the CRC of `IEND` is `AE 42 60 82` |
| Png.Be32RoundTrip | build/generate-icons.js:54 | a 32-bit length written big-endian reads back |
| Png.TypeOf | build/generate-icons.js:55 | the four-byte type codes identify the chunk types |
| Png.CreateChunk | build/generate-icons.js:52-60 | defined exactly for data under 2^32 bytes, and then 12 bytes longer than the data |
| Png.ChunkRoundTrip | build/generate-icons.js:52-60 | a chunk followed by anything parses back to its type, data and the rest |
| Png.CorruptChunkRejected | build/generate-icons.js:56-58 | a chunk whose CRC does not match its type and data is rejected |
| Png.IendChunkBytes | build/generate-icons.js:47 | the IEND chunk is the twelve bytes `0 0 0 0 I E N D AE 42 60 82` |
| Png.IhdrData | build/generate-icons.js:18-26 | the IHDR payload is 13 bytes |
| Png.IhdrRoundTrip | build/generate-icons.js:18-26 | width and height read back, with depth 8, colour type 6 and zero method bytes |
| Png.Scanlines | build/generate-icons.js:29-40 | the raw buffer has `height * (1 + 4 * width)` bytes |
| Png.FilterBytesAreZero | build/generate-icons.js:31 | every row starts with filter byte 0 |
| Png.UnfilterScanlines | build/generate-icons.js:29-40 | dropping the filter bytes gives back the pixels |
| Png.BuildScanlines | build/generate-icons.js:29-40 | the loop builds the row-by-row scanline buffer |
| Png.CreatePng | build/generate-icons.js:13-50 | defined exactly when width, height and compressed length fit 32 bits; starts with the signature; its length is the sum of the four parts |
| Png.ImageDataRoundTrip | build/generate-icons.js:42-49 | an IDAT chunk followed by IEND reads back as the compressed payload |
| Png.PngRoundTrip | build/generate-icons.js:13-50 | the file parses as signature, IHDR, IDAT and IEND with the header and compressed payload it was made from |
| Png.PixelsRecoverable | build/generate-icons.js:13-50 | with an inverse of the compressor, reading the file gives back the header and the exact pixels |
| Auth.GetStoredAuth | src/common/auth.ts:10-26 | credentials are present exactly when all three keys are truthy, and then both tokens are non-empty |
| Auth.StoreAuth | src/common/auth.ts:28-34 | writes the three auth keys and nothing else |
| Auth.UpdateTokens | src/common/auth.ts:36-41 | writes the two token keys and nothing else |
| Auth.ClearAuth | src/common/auth.ts:43-49 | removes the three auth keys and nothing else |
| Auth.StoreThenGet | src/common/auth.ts:17-34 | stored credentials read back, unless a token is empty, when the record reads as absent |
| Auth.UpdateTokensKeepsUser | src/common/auth.ts:36-41 | new tokens keep the user |
| Auth.ClearThenGet | src/common/auth.ts:43-49 | after clearing no credentials are read |
| Settings.GetSettings | src/common/settings.ts:13-17 | with nothing stored, the defaults; with a stored object, each stored field wins and missing fields take their default |
| Settings.SaveSettings | src/common/settings.ts:19-21 | only the settings key is written |
| Settings.SaveThenGet | src/common/settings.ts:13-21 | saved settings read back unchanged |
| Settings.SettingsAndAuthIndependent | src/common/settings.ts:4 | saving settings keeps credentials, and clearing credentials keeps settings |
| ApiClient.DoRefresh | src/common/api-client.ts:30-59 | no credentials: no request, false; true exactly on an ok answer with `success`, which stores the new tokens for the same user; any other outcome clears credentials; other keys are kept |
| ApiClient.FirstRequest | src/common/api-client.ts:71-75 | bearer header from the stored token; JSON content type exactly when there is a body |
| ApiClient.AuthedFetch | src/common/api-client.ts:61-101 | no token: 401 `Not authenticated` and no request; a non-401 first answer is returned; on 401 one retry exactly when the refresh succeeded and credentials read back, with the new token; with credentials, the last answer is 401 exactly when the result is `Session expired`, which leaves no credentials; a retry that gets through keeps the refreshed store |
| ApiClient.EmptyTokensExpire | src/common/api-client.ts:81-97 | a refresh that reports success with an empty token sends no retry and ends in `Session expired` with no credentials |
| ApiClient.RetryUsesNewToken | src/common/api-client.ts:81-89 | after a successful refresh the retry carries the refreshed access token |
| ApiClient.FailedRefreshExpires | src/common/api-client.ts:90-97 | a failed refresh sends no retry, clears credentials and raises `Session expired` |
| ApiClient.ErrorMessage | src/common/api-client.ts:111-120 | `error` first, then `message`, then the default; a changed message always comes from the body |
| ApiClient.ErrorMessageDefault | src/common/api-client.ts:149-156 | a non-JSON body or one without usable fields gives the default |
| ApiClient.Login | src/common/api-client.ts:103-124 | succeeds exactly on an ok status; a failure carries the status and a non-empty message, `Login failed` for a non-JSON body |
| ApiClient.Finish | src/common/api-client.ts:128-136 | an ok answer gives the payload; a non-ok one raises its status with the call's message; an auth error passes through |
| ApiClient.Lookup | src/common/api-client.ts:126-137 | asks the lookup path; errors are `Not authenticated`, `Session expired` or `Lookup failed` |
| ApiClient.ScanUrl | src/common/api-client.ts:140 | a domain containing `://` is kept, any other gets `https://` in front; the result always contains `://` |
| ApiClient.ScanUrlIdempotent | src/common/api-client.ts:140 | normalising twice is normalising once, and the domain is a suffix of the result |
| ApiClient.TriggerScan | src/common/api-client.ts:139-161 | a POST to the scans path with the normalised URL as JSON body; a non-auth failure carries the body's message or `Scan trigger failed` |
| ApiClient.CheckRescanEligibility | src/common/api-client.ts:163-174 | asks the scan's eligibility path; a non-auth failure reads `Rescan check failed` |
| ApiClient.GetStreamToken | src/common/api-client.ts:176-180 | asks the scan's stream-token path; a non-auth failure reads `Stream token failed` |
| ApiClient.GetWebLoginUrl | src/common/api-client.ts:182-186 | asks the web-login-token path; a non-auth failure reads `Failed to get login token` |
| PopupApp.InitialSettingsAreDefaults | src/popup/components/App.tsx:15-25 | the popup starts with the default settings and a valid state |
| PopupApp.StartPolling | src/popup/components/App.tsx:102-130 | registers a fresh poll for the domain and changes nothing else |
| PopupApp.FetchLookup | src/popup/components/App.tsx:72-100 | `Session expired` shows login without credentials; another error shows not-scanned with it, `Lookup failed` by default; success shows progress and polls when a scan runs, else score or not-scanned |
| PopupApp.LoadSettings | src/popup/components/App.tsx:33-41 | the settings answer replaces the settings; no answer keeps them |
| PopupApp.Init | src/popup/components/App.tsx:31-70 | no credentials: login; no tab URL: not-scanned; a non-http URL: not-scanned with the hostname or `N/A`; otherwise the lookup of the hostname |
| PopupApp.HandleLogin | src/popup/components/App.tsx:132-165 | a failure shows the error or `Login failed`; a success looks up the active tab's host, or shows not-scanned without one |
| PopupApp.HandleLogout | src/popup/components/App.tsx:167-172 | always the login view with credentials and lookup cleared |
| PopupApp.ScanIdOf | src/popup/components/App.tsx:181 | the scan's id when truthy, else `scanId` |
| PopupApp.StartScan | src/popup/components/App.tsx:174-206 | progress with a queued scan and a poll exactly when the trigger succeeded with a truthy id; otherwise the error with its default |
| PopupApp.PollTick | src/popup/components/App.tsx:103-125 | unsuccessful answers change nothing; the poll stops and the score shows exactly on a complete scan; a running scan is updated |
| PopupApp.StartedScanEndsOnCompletion | src/popup/components/App.tsx:174-189 | a started scan's poll ends in the score view when a complete answer arrives |
| PopupApp.AsReply | src/background/index.ts:222-224 | a thrown message becomes an unsuccessful reply with that error |
| PopupApp.ExpiredSessionShowsLogin | src/popup/components/App.tsx:78-82 | a lookup rejected with `Session expired` shows the login view |
| PopupApp.StopRulesAgree | src/popup/components/App.tsx:115-120 | on successful or thrown answers the popup and background pollers stop together |
| PopupApp.StopRulesDifferOnUnsuccessfulAnswer | src/popup/components/App.tsx:115 | a complete answer flagged unsuccessful stops the background poller but not the popup's |
| ScoreView.RiskClass | src/popup/components/ScoreView.tsx:57 | the level's name, `green` without one |
| ScoreView.RiskLabel | src/popup/components/ScoreView.tsx:69-73 | a label exactly when there is a level: Trusted, Use Caution or High Risk |
| ScoreView.LabelsDistinguishLevels | src/popup/components/ScoreView.tsx:69-73 | distinct levels get distinct labels; a missing level looks green but has no label |
| ScoreView.ScoreText | src/popup/components/ScoreView.tsx:67 | `?` exactly when the score is missing; a non-negative score's digits read back as the score, so 0 shows 0 |
| ScoreView.SplitDuration | src/popup/components/ScoreView.tsx:46-47 | minutes below 60, and hours and minutes are the span truncated to the minute |
| ScoreView.FormatTimeRemaining | src/popup/components/ScoreView.tsx:43-50 | `now` for a non-positive span; `Hh Mm` with hours, `Mm` without; `NaNm` for an unparsable date |
| ScoreView.FormatTimeSamples | src/popup/components/ScoreView.tsx:43-50 | 91 minutes and seconds read `1h 31m`; 59 seconds read `0m` |
| ScoreView.ComputeFlags | src/popup/components/ScoreView.tsx:58-60 | disabled exactly when an answer says not eligible; cooldown exactly when disabled with a date; last scanned exactly when stale, enabled and completed; button disabled exactly when loading or disabled |
| ScoreView.FlagsConsistent | src/popup/components/ScoreView.tsx:58-107 | the cooldown hint and the last-scanned label never show together, the hint only on a disabled button, and no answer never disables |
| ScoreView.RescanButtonLabel | src/popup/components/ScoreView.tsx:102 | `Starting...` exactly while loading; the dated label exactly when last-scanned shows, with the completion date |
| ScoreView.ShowScan | src/popup/components/ScoreView.tsx:16-32 | a new scan id starts a new request generation and keeps the old answer |
| ScoreView.ReceiveEligibility | src/popup/components/ScoreView.tsx:26-28 | only a current-generation answer that did not throw is stored |
| ScoreView.StaleAnswerIgnored | src/popup/components/ScoreView.tsx:31 | an answer for the previous scan id is dropped |
| ScoreView.CheckRescanAnswer | src/background/index.ts:227-238 | a failed check answers eligible with no cooldown |
| ScoreView.FailedCheckAllowsRescan | src/background/index.ts:233-236 | so a failed check never disables the re-scan button |
| ContentBar.BarColor | src/content/index.ts:5-9 | the three colours, green and red each exactly for their level |
| ContentBar.StyleFor | src/content/index.ts:41-51 | the level's colour, `size` followed by `px`, pinned to the top or bottom edge |
| ContentBar.RemoveBar | src/content/index.ts:54-60 | no handle afterwards, and in a valid page no bar |
| ContentBar.UpdateBar | src/content/index.ts:29-52 | null or disabled data removes the bar; enabled data leaves exactly the held bar, styled from the data, reused while attached and created when detached |
| ContentBar.Detach | src/content/index.ts:35 | the page removing a host keeps the page valid |
| ContentBar.OnMessage | src/content/index.ts:63-68 | only `UPDATE_BAR` changes the page |
| ContentBar.OnLoad | src/content/index.ts:71-80 | a null or rejected answer leaves the page alone; data updates the bar |
| ContentBar.AtMostOneBar | src/content/index.ts:29-68 | after any run of messages and page removals there is at most one bar |
| ContentBar.OneHeldBar | src/content/index.ts:35-39 | a valid page has at most its held bar |
| ContentBar.BarFollowsLookup | src/background/index.ts:318-327 | the page shows a bar exactly when the bar is enabled and the scan has a level, in that level's colour and the configured size and edge |

## Left out

- Floating-point rasterisers are not modelled. This covers `drawRing`, `drawFilledCircle`, `drawLineSegment`, `blendPixel`, `drawFilledTriangle`, the octagon, the spinner arc and the gray icon in `src/common/badge.ts`, and `generateIcon` with its helpers in `build/generate-icons.js`. They use `sqrt`, `sin`, `cos` and rounded alpha blending. The icons they draw are named (`Symbol`, `GrayScanner`, `SpinnerFrame`), not rasterised.
- zlib `deflateSync` is a foreign library. `Png.CreatePng` takes the compressor as a parameter, and the pixel round trip assumes an inverse of it.
- The single-flight `refreshPromise` sharing in `src/common/api-client.ts` is left out. It only matters when concurrent promises interleave; each call is modelled as one `doRefresh`.
- Timer periods (120 ms, 3 s, 5 s), request timeouts and `setInterval` scheduling are left out. A firing is an explicit operation (`Badge.Tick`, `Background.PollTick`, `PopupApp.PollTick`).
- Browser APIs are parameters or explicit state, not modelled calls. This covers tabs, action, runtime messaging, `onInstalled` and the onboarding page. Failed `sendMessage` calls to tabs are ignored, as the source ignores them.
- `new URL` is the oracle `parse`.
- `encodeURIComponent`, `searchParams` and the API base URL are left out. Requests name their path as a datatype, not a string.
- `toLocaleDateString` (`formatDate`) is left out. The dated button label carries the raw completion date.
- `handleGetWebLoginUrl`, `handleBarSettingsChanged`, `GET_AUTH`, `GET_SETTINGS` and `GET_STREAM_TOKEN` are not modelled as message handlers. They forward to operations modelled elsewhere (`ApiClient.GetWebLoginUrl`, `Background.PushBarToAllTabs`, `Auth.GetStoredAuth`, `Settings.GetSettings`, `ApiClient.GetStreamToken`) and add only URL building.
- Some popup handlers are left out: `openWebPage`, `handleOpenAccount`, `handleViewScan`, `handleChangeIconMode` and `handleChangeTrustBar`. They only send messages or open pages. The settings-saving path is `Background.HandleSetSettings`.
- Rendering-only views and build glue are not modelled: the Preact markup, `SettingsView`, `LoginView`, `NotScannedView`, `FailedScanView`, `ProgressView`, `ErrorBoundary`, the onboarding app and `build/build.js`.
- Background.PushBarToAllTabs: reads the cache without threading the evictions of expired entries back into the state, because the source's later reads see the same answers either way.
- Background.RefreshCachedBadges: same as `PushBarToAllTabs`; expired entries are not evicted in the returned state.
- Background.UpdateTabBadge: takes the lookup's outcome as a parameter instead of threading `ApiClient.Lookup`'s storage effects (a refresh or a cleared session) into the background state. The message handlers `HandleLookup`, `HandleGetBarData` and `HandleTriggerScan` do thread them.
- Background.OnTabUrl: inherits the gap of `UpdateTabBadge`; the lookup's storage effects are not threaded.
- Background.HandleLogin: inherits the gap of `UpdateTabBadge` for the lookup made for the active tab.
- Background.PollTick: takes the poll lookup's outcome as a parameter; a refresh or cleared session during the poll is not threaded into the store.
- Background.HandleSetSettings: takes one tab list and one `now` for the whole message. The source lists the tabs twice (src/background/index.ts:388 and :353) and reads the clock at each cache read, so a tab opened or an entry expiring between those reads is not modelled.
- Background.IconCalls: gives one outcome per tab id, so a tab id listed twice in one loop gets the same outcome for both of its calls.
- Crc32.Crc32Loop: its reference `Crc` is the bytewise register built from the eight-round definition of the table. A proof against a fully bitwise, polynomial-division definition of CRC-32 is not included.
- Png.Be32RoundTrip: proves only that reading a written length gives it back, not the reverse (that writing a read value gives back the four bytes).
- ApiClient.ErrorMessage: error bodies whose `error` or `message` fields are not strings are not modelled; such a truthy non-string value would become the message in the source.
- ApiClient.AuthedFetch: a `fetch` that rejects outright (network down, DNS, CORS, the 15 s abort) is not modelled for the API requests at src/common/api-client.ts:75 and :87. The `Server` oracle always answers with a status. In the source that rejection is a plain error, not an `ApiError`: nothing is refreshed or cleared, and the background replies with its message (typically `Failed to fetch`). So the failure messages proved for `Lookup`, `TriggerScan` and the other endpoints, and `Failure ==> status == 401` here, hold only for requests that got an answer. A rejected refresh request is modelled (`RefreshThrew`).
- ApiClient.Login: the same gap for the login request at src/common/api-client.ts:104; a rejected `fetch` is not among its outcomes.
- BitmapFont.ScoreIconPixels: `trustScore` is an integer in the model (`Option<int>` in `Types.LookupResponse`), while src/common/types.ts:27 types it `number | null`. A fractional score such as 87.5 is not representable. Its `.` has no glyph but would still widen `rawWidth` in `drawTextMaxSize` (src/common/badge.ts:225-233) and so change the pixel scale.
- ScoreView.ScoreText: the same integer assumption; a fractional score would show as its decimal text.
- Popup error views for non-200 lookups are not modelled beyond the error text. The `FailedScanView` path and stream-token progress are outside the modelled state.

## Findings

| source | as written | input that shows it | evidently intended | confidence | as-written member | corrected member |
|---|---|---|---|---|---|---|
| src/common/badge.ts:445-469 | `setBadgeLoading` calls `stopLoadingAnimation`, then awaits the first frame, and only after that registers a new interval in `loadingAnimations` with `set`. That overwrites whatever id the map holds. | Two `setBadgeLoading` calls for the same tab whose awaits interleave (for example `onUpdated` and `onActivated` firing together on a cache miss). Both stop an empty entry and both register an interval; the first id is overwritten, stays live, and later `setBadgeScore` cannot clear it. The spinner then paints over the score every 120 ms. | At most one live spinner interval per tab. The entry is cleared again (or the old interval stopped) when the new interval is registered. | not executed | Badge.InterleavedLoadingLeaks | Badge.InterleavedLoadingFixed |

=== FILE: api_client.dfy ===
/** The API client (src/common/api-client.ts): requests carry the stored access
    token; a 401 triggers one token refresh and at most one retry; a failed
    call becomes an `ApiError` with a status and a message.

    The network is an oracle: `Server` answers each request with a status
    code, and the refresh endpoint's answer is a parameter. Response payloads
    (parsed JSON) are parameters too; the client passes them through. */
module ApiClient {
  import opened Types
  import opened Strings
  import opened Storage
  import Auth

  /** `res.ok`: a status in the 200 range. */
  predicate IsOk(status: nat) {
    200 <= status <= 299
  }

  /** The authenticated endpoints. Query and path parameters are kept apart
      from the path, so `encodeURIComponent` needs no model. */
  datatype Path =
    | LookupPath(domain: string)
    | ScansPath
    | RescanEligibilityPath(scanId: string)
    | StreamTokenPath(scanId: string)
    | WebLoginTokenPath

  /** The only request body sent through `authedFetch`: `JSON.stringify({url})`,
      which is never the empty string. */
  datatype Body = ScanRequest(url: string)

  /** The `RequestInit` a caller passes: an optional HTTP method and body. */
  datatype Options = Options(verb: Option<string>, body: Option<Body>)

  /** A request as it leaves the client: the caller's options plus the
      `Authorization` header and whether `Content-Type: application/json` was
      set. */
  datatype Sent = Sent(path: Path, verb: Option<string>, body: Option<Body>, authorization: string, jsonContent: bool)

  /** The status the API answers a request with. */
  type Server = Sent -> nat

  /** What the refresh endpoint did: answered with a status and a parsed
      `RefreshResponse`, or threw (network error, timeout, a body that is not
      JSON). */
  datatype RefreshReply =
    | Answered(status: nat, success: bool, tokens: Tokens)
    | RefreshThrew

  datatype ApiError = ApiError(status: nat, message: string)

  datatype Result<T> = Success(value: T) | Failure(error: ApiError)

  function Bearer(token: string): string {
    "Bearer " + token
  }

  /** The storage keys other than the credentials are left alone. */
  predicate OthersKept(before: Store, after: Store) {
    forall k | k in before && k !in Auth.AuthKeys :: k in after && after[k] == before[k]
  }

  // ---------------------------------------------------------------------
  // doRefresh
  // ---------------------------------------------------------------------

  /** The store after a refresh, whether it succeeded, and whether the
      refresh endpoint was called at all. */
  datatype Refreshed = Refreshed(store: Store, ok: bool, requested: bool)

  /** `doRefresh`: without credentials nothing is sent; any failure (status,
      `success: false`, exception) clears the credentials; success writes the
      new tokens and keeps the user. */
  function DoRefresh(store: Store, reply: RefreshReply): (r: Refreshed)
    ensures Auth.GetStoredAuth(store).None? ==> r == Refreshed(store, false, false)
    ensures Auth.GetStoredAuth(store).Some? ==> r.requested
    ensures r.ok <==> Auth.GetStoredAuth(store).Some? && reply.Answered? && IsOk(reply.status) && reply.success
    ensures r.ok ==>
              var t := reply.tokens;
              Auth.GetStoredAuth(r.store)
              == if t.accessToken != "" && t.refreshToken != ""
                 then Some(StoredAuth(t.accessToken, t.refreshToken, Auth.GetStoredAuth(store).value.user))
                 else None
    ensures r.requested && !r.ok ==> Auth.GetStoredAuth(r.store).None?
    ensures OthersKept(store, r.store)
  {
    match Auth.GetStoredAuth(store)
    case None => Refreshed(store, false, false)
    case Some(_) =>
      if reply.Answered? && IsOk(reply.status) && reply.success then
        Auth.UpdateTokensKeepsUser(store, reply.tokens.accessToken, reply.tokens.refreshToken);
        Refreshed(Auth.UpdateTokens(store, reply.tokens.accessToken, reply.tokens.refreshToken), true, true)
      else
        Auth.ClearThenGet(store);
        Refreshed(Auth.ClearAuth(store), false, true)
  }

  // ---------------------------------------------------------------------
  // authedFetch
  // ---------------------------------------------------------------------

  /** The store afterwards, the final status or the error raised, the
      requests sent to the endpoint in order, and whether a refresh was
      attempted. */
  datatype Fetched = Fetched(store: Store, result: Result<nat>, sent: seq<Sent>, refreshed: bool)

  /** The first request: the bearer header from the stored token, and the JSON
      content type exactly when there is a body. */
  function FirstRequest(auth: StoredAuth, path: Path, options: Options): (s: Sent)
    ensures s.path == path && s.verb == options.verb && s.body == options.body
    ensures s.authorization == "Bearer " + auth.accessToken
    ensures s.jsonContent <==> options.body.Some?
  {
    Sent(path, options.verb, options.body, Bearer(auth.accessToken), options.body.Some?)
  }

  /** `authedFetch`. The single-flight sharing of a refresh between concurrent
      callers is not modelled: each 401 runs `doRefresh` itself. */
  function AuthedFetch(store: Store, path: Path, options: Options, server: Server, refresh: RefreshReply): (r: Fetched)
    // No credentials: 401 'Not authenticated', nothing sent.
    ensures Auth.GetStoredAuth(store).None? ==>
              r == Fetched(store, Failure(ApiError(401, "Not authenticated")), [], false)
    ensures Auth.GetStoredAuth(store).Some? ==>
              && 1 <= |r.sent| <= 2
              && r.sent[0] == FirstRequest(Auth.GetStoredAuth(store).value, path, options)
    // A first answer other than 401 is returned as is.
    ensures Auth.GetStoredAuth(store).Some? && server(r.sent[0]) != 401 ==>
              r == Fetched(store, Success(server(r.sent[0])), [r.sent[0]], false)
    // A 401 refreshes; the retry happens iff the refresh succeeded and
    // credentials are readable afterwards, and it carries the new token.
    ensures Auth.GetStoredAuth(store).Some? && server(r.sent[0]) == 401 ==>
              var rf := DoRefresh(store, refresh);
              && r.refreshed
              && (|r.sent| == 2 <==> rf.ok && Auth.GetStoredAuth(rf.store).Some?)
              && (|r.sent| == 2 ==>
                    r.sent[1] == r.sent[0].(authorization := Bearer(Auth.GetStoredAuth(rf.store).value.accessToken)))
    // A 401 never reaches the caller: it becomes 'Session expired', with the
    // credentials cleared.
    ensures r.result != Success(401)
    ensures r.result.Success? ==> r.result.value == server(r.sent[|r.sent| - 1])
    ensures r.result == Failure(ApiError(401, "Session expired")) ==> Auth.GetStoredAuth(r.store).None?
    // With credentials the last answer decides: a 401 there is exactly what
    // becomes 'Session expired'.
    ensures Auth.GetStoredAuth(store).Some? ==>
              (server(r.sent[|r.sent| - 1]) == 401 <==> r.result == Failure(ApiError(401, "Session expired")))
    // A retry that gets through keeps the store the refresh left behind.
    ensures r.refreshed && r.result.Success? ==> r.store == DoRefresh(store, refresh).store
    ensures r.result.Failure? ==> r.result.error.status == 401
    ensures OthersKept(store, r.store)
  {
    match Auth.GetStoredAuth(store)
    case None => Fetched(store, Failure(ApiError(401, "Not authenticated")), [], false)
    case Some(auth) =>
      var first := FirstRequest(auth, path, options);
      if server(first) != 401 then
        Fetched(store, Success(server(first)), [first], false)
      else
        var rf := DoRefresh(store, refresh);
        var again := if rf.ok then Auth.GetStoredAuth(rf.store) else None;
        var sent := if again.Some? then [first, first.(authorization := Bearer(again.value.accessToken))] else [first];
        var status := server(sent[|sent| - 1]);
        if status == 401 then
          Auth.ClearThenGet(rf.store);
          Fetched(Auth.ClearAuth(rf.store), Failure(ApiError(401, "Session expired")), sent, true)
        else
          Fetched(rf.store, Success(status), sent, true)
  }

  /** A successful refresh with non-empty tokens leads to exactly one retry,
      carrying the new access token; its answer is what the caller sees
      (or 'Session expired' if it is 401 again). */
  lemma RetryUsesNewToken(store: Store, path: Path, options: Options, server: Server, tokens: Tokens, status: nat)
    requires Auth.GetStoredAuth(store).Some?
    requires server(FirstRequest(Auth.GetStoredAuth(store).value, path, options)) == 401
    requires IsOk(status) && tokens.accessToken != "" && tokens.refreshToken != ""
    ensures var r := AuthedFetch(store, path, options, server, Answered(status, true, tokens));
            && |r.sent| == 2
            && r.sent[1].authorization == "Bearer " + tokens.accessToken
            && r.sent[1].path == path && r.sent[1].body == options.body
            && (server(r.sent[1]) != 401 ==> r.result == Success(server(r.sent[1])))
            && (server(r.sent[1]) == 401 ==> r.result == Failure(ApiError(401, "Session expired")))
  {
    var auth := Auth.GetStoredAuth(store).value;
    var rf := DoRefresh(store, Answered(status, true, tokens));
    assert Auth.GetStoredAuth(rf.store) == Some(StoredAuth(tokens.accessToken, tokens.refreshToken, auth.user));
  }

  /** A refresh that fails in any way means no retry and a 'Session expired'
      error with no credentials left. */
  lemma FailedRefreshExpires(store: Store, path: Path, options: Options, server: Server, refresh: RefreshReply)
    requires Auth.GetStoredAuth(store).Some?
    requires server(FirstRequest(Auth.GetStoredAuth(store).value, path, options)) == 401
    requires !(refresh.Answered? && IsOk(refresh.status) && refresh.success)
    ensures var r := AuthedFetch(store, path, options, server, refresh);
            && |r.sent| == 1
            && r.result == Failure(ApiError(401, "Session expired"))
            && Auth.GetStoredAuth(r.store).None?
  {
  }

  /** `refreshTokens` can report success with tokens `getStoredAuth` then
      rejects (an empty token): no retry is sent, the original 401 stands, and
      the caller sees 'Session expired' with no credentials left. */
  lemma EmptyTokensExpire(store: Store, path: Path, options: Options, server: Server, status: nat, tokens: Tokens)
    requires Auth.GetStoredAuth(store).Some?
    requires server(FirstRequest(Auth.GetStoredAuth(store).value, path, options)) == 401
    requires IsOk(status) && (tokens.accessToken == "" || tokens.refreshToken == "")
    ensures var r := AuthedFetch(store, path, options, server, Answered(status, true, tokens));
            && r.refreshed && |r.sent| == 1
            && r.result == Failure(ApiError(401, "Session expired"))
            && Auth.GetStoredAuth(r.store).None?
  {
    var rf := DoRefresh(store, Answered(status, true, tokens));
    assert rf.ok && Auth.GetStoredAuth(rf.store).None?;
  }

  // ---------------------------------------------------------------------
  // Error messages and the endpoints
  // ---------------------------------------------------------------------

  /** The text of an error response: JSON with optional `error` and `message`
      strings, or something `JSON.parse` rejects. */
  datatype ErrorBody = NotJson | Json(error: Option<string>, message: Option<string>)

  /** `json.error || json.message || fallback`, with the fallback also when
      the body is not JSON. */
  function ErrorMessage(body: ErrorBody, fallback: string): (r: string)
    ensures body.Json? && Truthy(body.error) ==> r == body.error.value
    ensures body.Json? && !Truthy(body.error) && Truthy(body.message) ==> r == body.message.value
    ensures r != fallback ==> body.Json? && (Some(r) == body.error || Some(r) == body.message)
    ensures fallback != "" ==> r != ""
  {
    match body
    case NotJson => fallback
    case Json(error, message) =>
      if Truthy(error) then error.value
      else if Truthy(message) then message.value
      else fallback
  }

  /** Neither field usable, or not JSON: the default message. */
  lemma ErrorMessageDefault(body: ErrorBody, fallback: string)
    requires body.NotJson? || (!Truthy(body.error) && !Truthy(body.message))
    ensures ErrorMessage(body, fallback) == fallback
  {
  }

  /** `login`: no authentication; a non-ok status fails with the server's
      message or 'Login failed'. */
  function Login<T>(status: nat, errorBody: ErrorBody, payload: T): (r: Result<T>)
    ensures r.Success? <==> IsOk(status)
    ensures r.Success? ==> r.value == payload
    ensures r.Failure? ==> r.error.status == status && r.error.message != ""
    ensures r.Failure? && errorBody.NotJson? ==> r.error.message == "Login failed"
  {
    if IsOk(status) then Success(payload)
    else Failure(ApiError(status, ErrorMessage(errorBody, "Login failed")))
  }

  /** The result of an authenticated endpoint call. */
  datatype Called<T> = Called(store: Store, result: Result<T>, sent: seq<Sent>)

  /** The common tail of the authenticated endpoints: an error from
      `authedFetch` propagates; a non-ok status fails with `message`; an ok
      status yields the parsed body. */
  function Finish<T>(f: Fetched, message: string, payload: T): (r: Called<T>)
    ensures r.store == f.store && r.sent == f.sent
    ensures r.result.Success? <==> f.result.Success? && IsOk(f.result.value)
    ensures r.result.Success? ==> r.result.value == payload
    ensures f.result.Failure? ==> r.result == Failure(f.result.error)
    ensures f.result.Success? && !IsOk(f.result.value) ==> r.result == Failure(ApiError(f.result.value, message))
  {
    match f.result
    case Failure(e) => Called(f.store, Failure(e), f.sent)
    case Success(status) =>
      if IsOk(status) then Called(f.store, Success(payload), f.sent)
      else Called(f.store, Failure(ApiError(status, message)), f.sent)
  }

  /** `lookup`. */
  function Lookup<T>(store: Store, domain: string, server: Server, refresh: RefreshReply, payload: T): (r: Called<T>)
    ensures r.sent != [] ==> r.sent[0].path == LookupPath(domain) && r.sent[0].body.None?
    ensures r.result.Failure? ==> r.result.error.message in {"Not authenticated", "Session expired", "Lookup failed"}
    ensures r.result.Success? ==> r.sent != [] && IsOk(server(r.sent[|r.sent| - 1]))
  {
    Finish(AuthedFetch(store, LookupPath(domain), Options(None, None), server, refresh), "Lookup failed", payload)
  }

  /** The URL a scan is requested for: a string that already names a scheme
      is sent as is, a bare domain gets `https://`. */
  function ScanUrl(domain: string): (url: string)
    ensures Contains(url, "://")
    ensures Contains(domain, "://") ==> url == domain
    ensures !Contains(domain, "://") ==> url == "https://" + domain
  {
    if Contains(domain, "://") then domain
    else
      assert Contains("://" + domain, "://");
      ContainsAfterPrefix("https", "://" + domain, "://");
      assert "https" + ("://" + domain) == "https://" + domain;
      "https://" + domain
  }

  /** Normalising twice changes nothing, and the domain is always the tail of
      the URL. */
  lemma ScanUrlIdempotent(domain: string)
    ensures ScanUrl(ScanUrl(domain)) == ScanUrl(domain)
    ensures exists p :: p + domain == ScanUrl(domain)
  {
    if Contains(domain, "://") {
      assert [] + domain == domain;
    } else {
      assert "https://" + domain == ScanUrl(domain);
    }
  }

  /** `triggerScan`: a POST to /api/scans with the normalised URL; a failure
      carries the server's message or 'Scan trigger failed'. */
  function TriggerScan<T>(store: Store, domain: string, server: Server, refresh: RefreshReply,
                          errorBody: ErrorBody, payload: T): (r: Called<T>)
    ensures Auth.GetStoredAuth(store).Some? ==>
              && r.sent != []
              && r.sent[0].path == ScansPath
              && r.sent[0].verb == Some("POST")
              && r.sent[0].body == Some(ScanRequest(ScanUrl(domain)))
              && r.sent[0].jsonContent
    ensures r.result.Failure? ==> r.result.error.message != ""
    ensures r.result.Failure? && r.result.error.status != 401 ==>
              r.result.error.message == ErrorMessage(errorBody, "Scan trigger failed")
  {
    var options := Options(Some("POST"), Some(ScanRequest(ScanUrl(domain))));
    Finish(AuthedFetch(store, ScansPath, options, server, refresh), ErrorMessage(errorBody, "Scan trigger failed"), payload)
  }

  /** `checkRescanEligibility`, `getStreamToken` and `getWebLoginUrl`: GETs
      whose failure message is fixed. */
  function CheckRescanEligibility<T>(store: Store, scanId: string, server: Server, refresh: RefreshReply, payload: T): (r: Called<T>)
    ensures r.sent != [] ==> r.sent[0].path == RescanEligibilityPath(scanId)
    ensures r.result.Failure? && r.result.error.status != 401 ==> r.result.error.message == "Rescan check failed"
  {
    Finish(AuthedFetch(store, RescanEligibilityPath(scanId), Options(None, None), server, refresh), "Rescan check failed", payload)
  }

  function GetStreamToken<T>(store: Store, scanId: string, server: Server, refresh: RefreshReply, payload: T): (r: Called<T>)
    ensures r.sent != [] ==> r.sent[0].path == StreamTokenPath(scanId)
    ensures r.result.Failure? && r.result.error.status != 401 ==> r.result.error.message == "Stream token failed"
  {
    Finish(AuthedFetch(store, StreamTokenPath(scanId), Options(None, None), server, refresh), "Stream token failed", payload)
  }

  function GetWebLoginUrl<T>(store: Store, server: Server, refresh: RefreshReply, payload: T): (r: Called<T>)
    ensures r.sent != [] ==> r.sent[0].path == WebLoginTokenPath
    ensures r.result.Failure? && r.result.error.status != 401 ==> r.result.error.message == "Failed to get login token"
  {
    Finish(AuthedFetch(store, WebLoginTokenPath, Options(None, None), server, refresh), "Failed to get login token", payload)
  }
}

=== FILE: auth.dfy ===
/** Stored credentials (src/common/auth.ts): three storage keys that are read,
    written and removed together. */
module Auth {
  import opened Types
  import opened Storage

  const AccessTokenKey: string := "accessToken"
  const RefreshTokenKey: string := "refreshToken"
  const UserKey: string := "user"

  const AuthKeys: set<string> := {AccessTokenKey, RefreshTokenKey, UserKey}

  /** All three keys hold truthy values of the shapes `storeAuth` writes. */
  predicate HasAuth(store: Store) {
    && Present(store, AccessTokenKey) && store[AccessTokenKey].Text?
    && Present(store, RefreshTokenKey) && store[RefreshTokenKey].Text?
    && Present(store, UserKey) && store[UserKey].UserRecord?
  }

  /** `getStoredAuth`: all or nothing. */
  function GetStoredAuth(store: Store): (r: Option<StoredAuth>)
    ensures r.Some? <==> HasAuth(store)
    ensures r.Some? ==> r.value.accessToken != "" && r.value.refreshToken != ""
    ensures r.Some? ==>
              && store[AccessTokenKey] == Text(r.value.accessToken)
              && store[RefreshTokenKey] == Text(r.value.refreshToken)
              && store[UserKey] == UserRecord(r.value.user)
  {
    if HasAuth(store) then
      Some(StoredAuth(store[AccessTokenKey].text, store[RefreshTokenKey].text, store[UserKey].user))
    else
      None
  }

  /** `storeAuth`: writes the three keys in one `set`. */
  function StoreAuth(store: Store, auth: StoredAuth): (r: Store)
    ensures r.Keys == store.Keys + AuthKeys
    ensures forall k :: k in store && k !in AuthKeys ==> r[k] == store[k]
  {
    store[AccessTokenKey := Text(auth.accessToken)]
         [RefreshTokenKey := Text(auth.refreshToken)]
         [UserKey := UserRecord(auth.user)]
  }

  /** `updateTokens`: replaces both tokens, leaves the user record alone. */
  function UpdateTokens(store: Store, accessToken: string, refreshToken: string): (r: Store)
    ensures r.Keys == store.Keys + {AccessTokenKey, RefreshTokenKey}
    ensures forall k :: k in store && k != AccessTokenKey && k != RefreshTokenKey ==> r[k] == store[k]
  {
    store[AccessTokenKey := Text(accessToken)][RefreshTokenKey := Text(refreshToken)]
  }

  /** `clearAuth`: removes the three keys. */
  function ClearAuth(store: Store): (r: Store)
    ensures r.Keys == store.Keys - AuthKeys
    ensures forall k :: k in r ==> r[k] == store[k]
  {
    store - AuthKeys
  }

  /** Reading back stored credentials whose tokens are non-empty yields them;
      an empty token makes the whole record read as absent. */
  lemma StoreThenGet(store: Store, auth: StoredAuth)
    ensures auth.accessToken != "" && auth.refreshToken != "" ==>
              GetStoredAuth(StoreAuth(store, auth)) == Some(auth)
    ensures auth.accessToken == "" || auth.refreshToken == "" ==>
              GetStoredAuth(StoreAuth(store, auth)) == None
  {
  }

  /** Refreshing tokens keeps the user; when credentials were present and the
      new tokens are non-empty, the stored record carries exactly the new
      tokens and the old user. */
  lemma UpdateTokensKeepsUser(store: Store, accessToken: string, refreshToken: string)
    requires GetStoredAuth(store).Some?
    ensures var r := GetStoredAuth(UpdateTokens(store, accessToken, refreshToken));
            if accessToken != "" && refreshToken != "" then
              r == Some(StoredAuth(accessToken, refreshToken, GetStoredAuth(store).value.user))
            else
              r == None
  {
  }

  /** After `clearAuth` nothing reads as authenticated. */
  lemma ClearThenGet(store: Store)
    ensures GetStoredAuth(ClearAuth(store)) == None
  {
  }
}

=== FILE: background.dfy ===
/** The background service's decisions (src/background/index.ts): which URLs
    get a lookup, which badge a lookup response selects, the trust-bar data,
    the per-tab badge update, the per-domain scan poller, and the cache and
    badge effects of the messages it handles.

    The remote API, the clock, the browser's tab list and URL parser, and
    what the browser's icon calls did (`Badge.IconCall`) are parameters. */
module Background {
  import opened Types
  import opened Strings
  import opened Storage
  import DomainUtils
  import opened LookupCache
  import Auth
  import Settings
  import opened Badge
  import ApiClient

  // Host classification of this file: an older copy of the shared one.

  /** `isLocalDomain` of the background file: the skip set and the IPv4
      pattern only. */
  predicate BackgroundIsLocalDomain(h: string) {
    h in DomainUtils.SkipDomains || DomainUtils.PrivateIPv4Prefix(h)
  }

  /** The shared classifier accepts everything the background copy accepts,
      and strictly more: IPv6 loopback, link-local and unique-local hosts. */
  lemma SharedClassifierIsSuperset(h: string)
    ensures BackgroundIsLocalDomain(h) ==> DomainUtils.IsLocalDomain(h)
    ensures DomainUtils.IsLocalDomain("::1") && !BackgroundIsLocalDomain("::1")
    ensures DomainUtils.IsLocalDomain("[fe80::1]") && !BackgroundIsLocalDomain("[fe80::1]")
  {
    assert DomainUtils.StripBrackets("[fe80::1]") == "fe80::1";
    assert Strings.LowerAscii("fe80::1")[..5] == "fe80:";
    var a, c := "::1", "[fe80::1]";
    assert a !in DomainUtils.SkipDomains && c !in DomainUtils.SkipDomains;
    assert a[0] == ':' && c[0] == '[';
    assert a[0] != "10."[0] && a[0] != "172."[0] && a[0] != "192.168."[0];
    assert c[0] != "10."[0] && c[0] != "172."[0] && c[0] != "192.168."[0];
  }

  /** `extractDomain`: the hostname of an `http…` URL that is not local; None
      when the URL does not parse, the protocol does not start with `http`, or
      the host is local. */
  function ExtractDomain(parse: UrlParser, url: string): (r: Option<string>)
    ensures r.Some? <==>
              && parse(url).Some?
              && StartsWith(parse(url).value.protocol, "http")
              && !BackgroundIsLocalDomain(parse(url).value.hostname)
    ensures r.Some? ==> r.value == parse(url).value.hostname
  {
    match parse(url)
    case None => None
    case Some(u) =>
      if !StartsWith(u.protocol, "http") then None
      else if BackgroundIsLocalDomain(u.hostname) then None
      else Some(u.hostname)
  }

  /** No extracted domain is ever local by the background's rule, and none of
      the skip-set hosts is ever extracted. */
  lemma ExtractedDomainIsRemote(parse: UrlParser, url: string)
    ensures ExtractDomain(parse, url).Some? ==>
              && !BackgroundIsLocalDomain(ExtractDomain(parse, url).value)
              && ExtractDomain(parse, url).value !in DomainUtils.SkipDomains
  {
  }

  // Badge choice.

  datatype BadgeChoice = Loading | Score(score: int, level: RiskLevel) | Gray

  /** `applyBadge`'s decision: a running scan shows the spinner; otherwise a
      scan with a score (0 included) and a risk level shows the score;
      otherwise gray. */
  function ChooseBadge(data: LookupResponse): (r: BadgeChoice)
    ensures r == Loading <==> data.runningScan.Some?
    ensures r.Score? <==>
              && data.runningScan.None? && data.scan.Some?
              && data.scan.value.trustScore.Some? && data.scan.value.riskLevel.Some?
    ensures r.Score? ==> r.score == data.scan.value.trustScore.value && r.level == data.scan.value.riskLevel.value
  {
    if data.runningScan.Some? then Loading
    else if data.scan.Some? && data.scan.value.trustScore.Some? && data.scan.value.riskLevel.Some? then
      Score(data.scan.value.trustScore.value, data.scan.value.riskLevel.value)
    else Gray
  }

  /** A score of 0 is a score: it is not mistaken for a missing one. */
  lemma ZeroScoreIsShown(s: ScanSummary, level: RiskLevel)
    requires s.trustScore == Some(0) && s.riskLevel == Some(level)
    ensures ChooseBadge(LookupResponse(true, Some(s), None)) == Score(0, level)
  {
  }

  /** The icon set a choice puts on the tab. */
  function ChoiceIcons(c: BadgeChoice, mode: IconDisplayMode): IconSet {
    match c
    case Loading => SpinnerIcons(0)
    case Score(score, level) => ScoreIcons(score, level, mode)
    case Gray => GrayIcons()
  }

  /** What `safeSetIcon` did for each tab of a loop over tabs. Each tab's
      call succeeds or fails on its own: a tab closed halfway through a loop
      is rejected while the others are drawn. */
  type IconCalls = TabId -> IconCall

  /** `applyBadge`: the icon mode comes from the stored settings. */
  function ApplyBadge(b: Badges, store: Store, tab: TabId, data: LookupResponse, icon: IconCall): (r: Badges)
    ensures Valid(b) ==> Valid(r)
    ensures icon.Shown() ==> tab in r.shown && r.shown[tab] == ChoiceIcons(ChooseBadge(data), Settings.GetSettings(store).iconDisplayMode)
    ensures !icon.Shown() ==> r.shown == b.shown
    ensures forall other | other != tab && other in b.shown :: other in r.shown && r.shown[other] == b.shown[other]
    ensures forall other | other != tab && other in r.shown :: other in b.shown
    ensures ChooseBadge(data) != Loading ==> tab !in r.loading
  {
    match ChooseBadge(data)
    case Loading => SetBadgeLoading(b, tab, icon)
    case Score(score, level) => SetBadgeScore(b, tab, score, level, Settings.GetSettings(store).iconDisplayMode, icon)
    case Gray => ClearBadge(b, tab, icon)
  }

  // Trust-bar data.

  /** `buildBarData`: None when the bar is disabled or the scan has no risk
      level; otherwise the level with the bar position and size from the
      settings. */
  function BuildBarData(data: LookupResponse, settings: ExtensionSettings): (r: Option<TrustBarData>)
    ensures r.None? <==> !settings.trustBarEnabled || data.scan.None? || data.scan.value.riskLevel.None?
    ensures r.Some? ==>
              && r.value.enabled
              && r.value.riskLevel == data.scan.value.riskLevel.value
              && r.value.position == settings.trustBarPosition
              && r.value.size == settings.trustBarSize
  {
    if !settings.trustBarEnabled then None
    else if data.scan.None? || data.scan.value.riskLevel.None? then None
    else Some(TrustBarData(true, data.scan.value.riskLevel.value, settings.trustBarPosition, settings.trustBarSize))
  }

  // The background's state.

  /** The answer of a remote call as the caller sees it: a value, or an
      exception with its message. */
  datatype Outcome<T> = Ok(value: T) | Threw(message: string)

  datatype World = World(
    store: Store,
    cache: Cache,
    pollers: map<string, nat>,
    pollIntervals: map<nat, string>,
    nextPoll: nat,
    badges: Badges)

  /** `scanPollers` maps each domain to a live interval polling it, and every
      live poll interval is the one registered for its domain. */
  predicate PollersValid(w: World) {
    && (forall d | d in w.pollers :: w.pollers[d] in w.pollIntervals && w.pollIntervals[w.pollers[d]] == d)
    && (forall t | t in w.pollIntervals ::
          t < w.nextPoll && w.pollIntervals[t] in w.pollers && w.pollers[w.pollIntervals[t]] == t)
  }

  predicate WorldValid(w: World) {
    PollersValid(w) && Valid(w.badges)
  }

  /** The live poll intervals for a domain. */
  function PollsFor(w: World, domain: string): set<nat> {
    set t | t in w.pollIntervals && w.pollIntervals[t] == domain
  }

  /** At most one live poller per domain, and one exactly when it is
      registered. */
  lemma OnePollerPerDomain(w: World, domain: string)
    requires PollersValid(w)
    ensures domain in w.pollers ==> PollsFor(w, domain) == {w.pollers[domain]}
    ensures domain !in w.pollers ==> PollsFor(w, domain) == {}
  {
  }

  // updateTabBadge.

  datatype Updated = Updated(world: World, result: Option<LookupResponse>, lookups: nat)

  /** `updateTabBadge`. `reply` is what the lookup call would produce; it is
      used only when a lookup is made, which `lookups` counts. `spinner` is
      what the spinner's first frame did before the lookup, `icon` what the
      final badge did; the two calls succeed or fail independently. */
  function UpdateTabBadge(w: World, tab: TabId, domain: string, now: int, reply: Outcome<LookupResponse>,
                          spinner: IconCall, icon: IconCall): (r: Updated)
    ensures WorldValid(w) ==> WorldValid(r.world)
    ensures !spinner.Shown() && !icon.Shown() ==> r.world.badges.shown == w.badges.shown
    ensures r.world.store == w.store && r.world.pollers == w.pollers
    ensures Auth.GetStoredAuth(w.store).None? ==>
              && r.result.None? && r.lookups == 0 && r.world.cache == w.cache
              && (icon.Shown() ==> tab in r.world.badges.shown && r.world.badges.shown[tab] == GrayIcons())
    ensures Auth.GetStoredAuth(w.store).Some? && Get(w.cache, domain, now).data.Some? ==>
              && r.lookups == 0
              && r.result == Get(w.cache, domain, now).data
              && r.world.cache == w.cache
    ensures Auth.GetStoredAuth(w.store).Some? && Get(w.cache, domain, now).data.None? ==>
              && r.lookups == 1
              // The spinner stays when its frame got through but the final badge did not.
              && (spinner.Shown() && !icon.Shown() ==> tab in r.world.badges.shown && r.world.badges.shown[tab] == SpinnerIcons(0))
              && (reply.Threw? ==> r.result.None? && domain !in r.world.cache
                                   && (icon.Shown() ==> tab in r.world.badges.shown && r.world.badges.shown[tab] == GrayIcons()))
              && (reply.Ok? ==> r.result == Some(reply.value)
                                && Get(r.world.cache, domain, now).data == Some(reply.value))
  {
    if Auth.GetStoredAuth(w.store).None? then
      Updated(w.(badges := ClearBadge(w.badges, tab, icon)), None, 0)
    else
      var read := Get(w.cache, domain, now);
      if read.data.Some? then
        Updated(w.(badges := ApplyBadge(w.badges, w.store, tab, read.data.value, icon)), read.data, 0)
      else
        var b1 := SetBadgeLoading(w.badges, tab, spinner);
        match reply
        case Threw(_) =>
          Updated(w.(cache := read.cache, badges := ClearBadge(b1, tab, icon)), None, 1)
        case Ok(data) =>
          var cache := Put(read.cache, domain, data, now);
          Updated(w.(cache := cache, badges := ApplyBadge(b1, w.store, tab, data, icon)), Some(data), 1)
  }

  /** A successful lookup is reused: a second update of the same domain within
      the TTL makes no request and returns the same response. */
  lemma SecondUpdateUsesCache(w: World, tab1: TabId, tab2: TabId, domain: string, t1: int, t2: int,
                              data: LookupResponse, reply2: Outcome<LookupResponse>, spinner: IconCall, icon: IconCall)
    requires Auth.GetStoredAuth(w.store).Some? && Get(w.cache, domain, t1).data.None?
    requires t1 <= t2 <= t1 + CacheTtlMs
    ensures var first := UpdateTabBadge(w, tab1, domain, t1, Ok(data), spinner, icon);
            var second := UpdateTabBadge(first.world, tab2, domain, t2, reply2, spinner, icon);
            && first.lookups == 1 && first.result == Some(data)
            && second.lookups == 0 && second.result == Some(data)
  {
    var first := UpdateTabBadge(w, tab1, domain, t1, Ok(data), spinner, icon);
    PutThenGet(Get(w.cache, domain, t1).cache, domain, data, t1, t2);
    assert first.world.cache == Put(Get(w.cache, domain, t1).cache, domain, data, t1);
  }

  // Per-domain background polling.

  /** `startBackgroundPolling`: nothing when the domain already has a poller;
      otherwise a new interval registered for it. */
  function StartBackgroundPolling(w: World, domain: string): (r: World)
    ensures domain in r.pollers
    ensures domain in w.pollers ==> r == w
    ensures PollersValid(w) ==> PollersValid(r)
    ensures r.store == w.store && r.cache == w.cache && r.badges == w.badges
    ensures forall d | d != domain :: (d in r.pollers <==> d in w.pollers)
  {
    if domain in w.pollers then w
    else
      var t := w.nextPoll;
      var r := w.(pollers := w.pollers[domain := t], pollIntervals := w.pollIntervals[t := domain], nextPoll := t + 1);
      assert PollersValid(w) ==> PollersValid(r) by {
        if PollersValid(w) {
          assert t !in w.pollIntervals;
          forall u | u in r.pollIntervals
            ensures r.pollIntervals[u] in r.pollers && r.pollers[r.pollIntervals[u]] == u
          {
            if u != t {
              assert w.pollIntervals[u] != domain;
            }
          }
        }
      }
      r
  }

  /** Starting twice is starting once. */
  lemma StartPollingIdempotent(w: World, domain: string)
    ensures StartBackgroundPolling(StartBackgroundPolling(w, domain), domain) == StartBackgroundPolling(w, domain)
  {
  }

  /** A tab as `tabs.query` reports it; an id of 0 or an empty URL is falsy. */
  datatype Tab = Tab(id: int, url: string)

  /** An `UPDATE_BAR` message sent to a tab. */
  datatype BarMessage = BarMessage(tab: int, data: Option<TrustBarData>)

  /** The tabs whose URL's domain is `domain`. */
  function MatchingTabs(parse: UrlParser, tabs: seq<Tab>, domain: string): (r: seq<int>)
    ensures forall id :: id in r <==>
              exists i :: 0 <= i < |tabs| && tabs[i].id == id && id != 0 && tabs[i].url != ""
                          && ExtractDomain(parse, tabs[i].url) == Some(domain)
    decreases |tabs|
  {
    if |tabs| == 0 then []
    else
      var rest := MatchingTabs(parse, tabs[1..], domain);
      var t := tabs[0];
      assert forall i :: 1 <= i < |tabs| ==> tabs[i] == tabs[1..][i - 1];
      if t.id != 0 && t.url != "" && ExtractDomain(parse, t.url) == Some(domain) then [t.id] + rest else rest
  }

  /** Matching a listing made of two parts matches each part in turn, so the
      matching tabs come in tab order. */
  lemma {:induction false} MatchingTabsSplit(parse: UrlParser, a: seq<Tab>, b: seq<Tab>, domain: string)
    ensures MatchingTabs(parse, a + b, domain) == MatchingTabs(parse, a, domain) + MatchingTabs(parse, b, domain)
    decreases |a|
  {
    if |a| == 0 {
      assert a + b == b;
    } else {
      assert (a + b)[1..] == a[1..] + b;
      MatchingTabsSplit(parse, a[1..], b, domain);
    }
  }

  /** The completion broadcast: apply the badge to every listed tab, in order. */
  function ApplyToTabs(b: Badges, store: Store, ids: seq<int>, data: LookupResponse, icons: IconCalls): (r: Badges)
    ensures Valid(b) ==> Valid(r)
    ensures forall id | id in ids && icons(id).Shown() ::
              id in r.shown && r.shown[id] == ChoiceIcons(ChooseBadge(data), Settings.GetSettings(store).iconDisplayMode)
    ensures forall other | other in b.shown && (other !in ids || !icons(other).Shown()) ::
              other in r.shown && r.shown[other] == b.shown[other]
    decreases |ids|
  {
    if |ids| == 0 then b
    else
      var r := ApplyToTabs(ApplyBadge(b, store, ids[0], data, icons(ids[0])), store, ids[1..], data, icons);
      assert forall id | id in ids :: id == ids[0] || id in ids[1..];
      r
  }

  /** `clearInterval(t)` and `scanPollers.delete(domain)` for the domain
      interval `t` polls. */
  function StopPoller(w: World, t: nat): (r: World)
    requires t in w.pollIntervals
    ensures r == w.(pollers := r.pollers, pollIntervals := r.pollIntervals)
    ensures r.pollIntervals.Keys == w.pollIntervals.Keys - {t}
    ensures forall d :: d in r.pollers <==> d in w.pollers && d != w.pollIntervals[t]
    ensures PollersValid(w) ==> PollersValid(r)
  {
    var domain := w.pollIntervals[t];
    var r := w.(pollers := w.pollers - {domain}, pollIntervals := w.pollIntervals - {t});
    assert PollersValid(w) ==> PollersValid(r) by {
      if PollersValid(w) {
        assert w.pollers[domain] == t;
      }
    }
    r
  }

  datatype Polled = Polled(world: World, messages: seq<BarMessage>)

  /** One firing of poll interval `t`: drop the domain's cache entry, look it
      up, store the answer; when the scan is complete, clear the interval,
      badge every tab on that domain and send it the bar data. A failed lookup
      leaves the entry dropped and the poller running. A cleared interval
      never fires. */
  function PollTick(w: World, t: nat, now: int, reply: Outcome<LookupResponse>,
                    parse: UrlParser, tabs: seq<Tab>, icons: IconCalls): (r: Polled)
    requires t in w.pollIntervals
    ensures WorldValid(w) ==> WorldValid(r.world)
    ensures var domain := w.pollIntervals[t];
            && (domain in r.world.pollers <==> domain in w.pollers && !(reply.Ok? && ScanComplete(reply.value)))
            && (reply.Threw? ==> domain !in r.world.cache && r.messages == [])
            && (reply.Ok? ==> Get(r.world.cache, domain, now).data == Some(reply.value))
            && (reply.Ok? && !ScanComplete(reply.value) ==> r.messages == [])
            && (!(reply.Ok? && ScanComplete(reply.value)) ==> r.world.badges == w.badges)
            && (reply.Ok? && ScanComplete(reply.value) ==>
                  var settings := Settings.GetSettings(w.store);
                  && |r.messages| == |MatchingTabs(parse, tabs, domain)|
                  && forall i | 0 <= i < |r.messages| ::
                       r.messages[i] == BarMessage(MatchingTabs(parse, tabs, domain)[i], BuildBarData(reply.value, settings)))
    // A complete scan badges every matching tab with the answer, tab by tab.
    ensures reply.Ok? && ScanComplete(reply.value) ==>
              r.world.badges == ApplyToTabs(w.badges, w.store, MatchingTabs(parse, tabs, w.pollIntervals[t]), reply.value, icons)
    ensures forall d | d != w.pollIntervals[t] :: (d in r.world.pollers <==> d in w.pollers)
  {
    var domain := w.pollIntervals[t];
    var dropped := Invalidate(w.cache, domain);
    match reply
    case Threw(_) => Polled(w.(cache := dropped), [])
    case Ok(data) =>
      var cache := Put(dropped, domain, data, now);
      if !ScanComplete(data) then Polled(w.(cache := cache), [])
      else FinishPoll(w.(cache := cache), t, data, MatchingTabs(parse, tabs, domain), icons)
  }

  /** The complete-scan branch of a poll: stop the poller, badge the tabs,
      send each of them the bar data. */
  function FinishPoll(w: World, t: nat, data: LookupResponse, ids: seq<int>, icons: IconCalls): (r: Polled)
    requires t in w.pollIntervals
    ensures WorldValid(w) ==> WorldValid(r.world)
    ensures r.world.cache == w.cache && r.world.store == w.store
    ensures r.world.badges == ApplyToTabs(w.badges, w.store, ids, data, icons)
    ensures forall id | id in ids && icons(id).Shown() ::
              id in r.world.badges.shown
              && r.world.badges.shown[id] == ChoiceIcons(ChooseBadge(data), Settings.GetSettings(w.store).iconDisplayMode)
    ensures forall d :: d in r.world.pollers <==> d in w.pollers && d != w.pollIntervals[t]
    ensures |r.messages| == |ids|
    ensures forall i | 0 <= i < |ids| ::
              r.messages[i] == BarMessage(ids[i], BuildBarData(data, Settings.GetSettings(w.store)))
  {
    var settings := Settings.GetSettings(w.store);
    var stopped := StopPoller(w, t);
    Polled(stopped.(badges := ApplyToTabs(w.badges, w.store, ids, data, icons)),
           seq(|ids|, i requires 0 <= i < |ids| => BarMessage(ids[i], BuildBarData(data, settings))))
  }

  /** The poll interval is cleared exactly when the answer shows a complete
      scan (whatever its `success` flag says); it keeps running through any
      number of failed lookups and incomplete answers. */
  lemma PollerStopsOnlyOnCompletion(w: World, t: nat, now: int, reply: Outcome<LookupResponse>,
                                    parse: UrlParser, tabs: seq<Tab>, icons: IconCalls)
    requires WorldValid(w) && t in w.pollIntervals
    ensures var r := PollTick(w, t, now, reply, parse, tabs, icons);
            (t in r.world.pollIntervals) <==> !(reply.Ok? && ScanComplete(reply.value))
  {
    var domain := w.pollIntervals[t];
    var r := PollTick(w, t, now, reply, parse, tabs, icons);
    OnePollerPerDomain(w, domain);
    assert w.pollers[domain] == t;
    if reply.Ok? && ScanComplete(reply.value) {
      assert t !in r.world.pollIntervals;
    } else {
      assert r.world.pollIntervals == w.pollIntervals;
    }
  }

  // Message handlers.

  /** `INVALIDATE_CACHE`: only that domain's entry goes. */
  function InvalidateCacheMessage(w: World, domain: string): (r: World)
    ensures r.cache == Invalidate(w.cache, domain)
    ensures r.store == w.store && r.pollers == w.pollers && r.badges == w.badges
  {
    w.(cache := Invalidate(w.cache, domain))
  }

  /** A call to an authenticated endpoint, made with the store as it is when
      the call starts: the store the API client leaves behind (refreshed
      tokens, or credentials cleared on an expired session) and the result.
      `ApiClient.Lookup` and `ApiClient.TriggerScan` with everything but the
      store fixed are such calls. */
  type ApiCall<T> = Store -> ApiClient.Called<T>

  /** How a handler's `try` sees a call: the value, or the thrown error's
      message. */
  function AsOutcome<T>(result: ApiClient.Result<T>): (o: Outcome<T>)
    ensures o.Ok? <==> result.Success?
    ensures o.Ok? ==> o.value == result.value
    ensures o.Threw? ==> o.message == result.error.message
  {
    match result
    case Success(v) => Ok(v)
    case Failure(e) => Threw(e.message)
  }

  /** `handleTriggerScan`: the store is whatever the API client left; when
      the call returns, whatever its `success` field, the domain's cache entry
      is dropped and polling starts; when it throws, nothing else changes. */
  function HandleTriggerScan<R>(w: World, domain: string, call: ApiCall<R>): (r: World)
    ensures r.store == call(w.store).store
    ensures call(w.store).result.Failure? ==> r == w.(store := r.store)
    ensures call(w.store).result.Success? ==> domain !in r.cache && domain in r.pollers
    ensures PollersValid(w) ==> PollersValid(r)
  {
    var c := call(w.store);
    var w1 := w.(store := c.store);
    match c.result
    case Failure(_) => w1
    case Success(_) => StartBackgroundPolling(w1.(cache := Invalidate(w.cache, domain)), domain)
  }

  /** A scan trigger that ends in 'Session expired' leaves the extension
      logged out, and starts no poller. */
  lemma ExpiredTriggerLogsOut<R>(w: World, domain: string, server: ApiClient.Server,
                                 refresh: ApiClient.RefreshReply, errorBody: ApiClient.ErrorBody, payload: R)
    requires ApiClient.TriggerScan(w.store, domain, server, refresh, errorBody, payload).result
             == ApiClient.Failure(ApiClient.ApiError(401, "Session expired"))
    ensures var r := HandleTriggerScan(w, domain, s => ApiClient.TriggerScan(s, domain, server, refresh, errorBody, payload));
            && Auth.GetStoredAuth(r.store).None?
            && r.pollers == w.pollers && r.cache == w.cache
  {
    var options := ApiClient.Options(Some("POST"), Some(ApiClient.ScanRequest(ApiClient.ScanUrl(domain))));
    var f := ApiClient.AuthedFetch(w.store, ApiClient.ScansPath, options, server, refresh);
    assert f.result == ApiClient.Failure(ApiClient.ApiError(401, "Session expired"));
  }

  /** `handleLogin` once the API has answered: on success the credentials are
      stored and the active tab, when it has a truthy id, URL and domain, gets
      its badge updated; a failed or throwing login changes nothing. */
  function HandleLogin(w: World, success: bool, auth: StoredAuth, activeTab: Option<Tab>,
                       parse: UrlParser, now: int, reply: Outcome<LookupResponse>, spinner: IconCall, icon: IconCall): (r: Updated)
    ensures !success ==> r.world == w && r.lookups == 0
    ensures success ==> Auth.GetStoredAuth(r.world.store) == Auth.GetStoredAuth(Auth.StoreAuth(w.store, auth))
    ensures success && auth.accessToken != "" && auth.refreshToken != "" ==> Auth.GetStoredAuth(r.world.store) == Some(auth)
    ensures WorldValid(w) ==> WorldValid(r.world)
    ensures success && (activeTab.None? || TabDomain(parse, activeTab.value).None?) ==>
              r.lookups == 0 && r.world.badges == w.badges && r.world.cache == w.cache
    ensures success && activeTab.Some? && TabDomain(parse, activeTab.value).Some? ==>
              r == UpdateTabBadge(w.(store := Auth.StoreAuth(w.store, auth)), activeTab.value.id,
                                  TabDomain(parse, activeTab.value).value, now, reply, spinner, icon)
  {
    if !success then Updated(w, None, 0)
    else
      var w1 := w.(store := Auth.StoreAuth(w.store, auth));
      Auth.StoreThenGet(w.store, auth);
      if activeTab.None? then Updated(w1, None, 0)
      else
        var d := TabDomain(parse, activeTab.value);
        if d.None? then Updated(w1, None, 0)
        else UpdateTabBadge(w1, activeTab.value.id, d.value, now, reply, spinner, icon)
  }

  /** `handleLogout`: credentials and the whole cache go; every tab with an id
      gets the gray icon and a null bar. Pollers are not stopped. */
  function HandleLogout(w: World, tabs: seq<Tab>, icons: IconCalls): (r: Polled)
    ensures Auth.GetStoredAuth(r.world.store).None?
    ensures forall d, now :: Get(r.world.cache, d, now).data.None?
    ensures r.world.pollers == w.pollers && r.world.pollIntervals == w.pollIntervals
    ensures WorldValid(w) ==> WorldValid(r.world)
    ensures |r.messages| == |TabIds(tabs)|
    ensures forall i | 0 <= i < |r.messages| :: r.messages[i] == BarMessage(TabIds(tabs)[i], None)
    ensures forall id | id in TabIds(tabs) && icons(id).Shown() :: id in r.world.badges.shown && r.world.badges.shown[id] == GrayIcons()
    ensures forall id | id in TabIds(tabs) :: id !in r.world.badges.loading
    ensures forall other | other in w.badges.shown && (other !in TabIds(tabs) || !icons(other).Shown()) ::
              other in r.world.badges.shown && r.world.badges.shown[other] == w.badges.shown[other]
  {
    Auth.ClearThenGet(w.store);
    var ids := TabIds(tabs);
    Polled(w.(store := Auth.ClearAuth(w.store), cache := Clear(w.cache), badges := ClearTabs(w.badges, ids, icons)),
           seq(|ids|, i requires 0 <= i < |ids| => BarMessage(ids[i], None)))
  }

  /** The ids of the tabs whose id is truthy. */
  function TabIds(tabs: seq<Tab>): (r: seq<int>)
    ensures forall id :: id in r <==> id != 0 && exists i :: 0 <= i < |tabs| && tabs[i].id == id
    decreases |tabs|
  {
    if |tabs| == 0 then []
    else
      assert forall i :: 1 <= i < |tabs| ==> tabs[i] == tabs[1..][i - 1];
      (if tabs[0].id != 0 then [tabs[0].id] else []) + TabIds(tabs[1..])
  }

  function ClearTabs(b: Badges, ids: seq<int>, icons: IconCalls): (r: Badges)
    ensures Valid(b) ==> Valid(r)
    ensures forall id | id in ids && icons(id).Shown() :: id in r.shown && r.shown[id] == GrayIcons()
    ensures forall id | id in ids :: id !in r.loading
    ensures forall other | other in b.shown && (other !in ids || !icons(other).Shown()) ::
              other in r.shown && r.shown[other] == b.shown[other]
    ensures forall other | other !in ids && other in r.loading :: other in b.loading
    decreases |ids|
  {
    if |ids| == 0 then b
    else
      var r := ClearTabs(ClearBadge(b, ids[0], icons(ids[0])), ids[1..], icons);
      assert forall id | id in ids :: id == ids[0] || id in ids[1..];
      r
  }

  datatype BarReply = BarReply(world: World, data: Option<TrustBarData>, lookups: nat)

  /** `handleGetBarData`: nothing without credentials or with the bar
      disabled (and no lookup); otherwise the bar data of the cached or
      freshly looked-up response, None when the lookup throws. A lookup
      leaves the store as the API client left it. */
  function HandleGetBarData(w: World, domain: string, now: int, call: ApiCall<LookupResponse>): (r: BarReply)
    ensures var settings := Settings.GetSettings(w.store);
            && (Auth.GetStoredAuth(w.store).None? || !settings.trustBarEnabled ==> r.data.None? && r.lookups == 0 && r.world == w)
            && (Auth.GetStoredAuth(w.store).Some? && settings.trustBarEnabled ==>
                  var read := Get(w.cache, domain, now);
                  var c := call(w.store);
                  && (read.data.Some? ==> r.lookups == 0 && r.data == BuildBarData(read.data.value, settings))
                  && (read.data.None? && c.result.Failure? ==> r.lookups == 1 && r.data.None?)
                  && (read.data.None? && c.result.Success? ==>
                        && r.lookups == 1 && r.data == BuildBarData(c.result.value, settings)
                        && Get(r.world.cache, domain, now).data == Some(c.result.value)))
    ensures r.lookups == 0 ==> r.world.store == w.store
    ensures r.lookups == 1 ==> r.world.store == call(w.store).store
    ensures r.world.pollers == w.pollers && r.world.badges == w.badges
  {
    var settings := Settings.GetSettings(w.store);
    if Auth.GetStoredAuth(w.store).None? || !settings.trustBarEnabled then BarReply(w, None, 0)
    else
      var read := Get(w.cache, domain, now);
      if read.data.Some? then BarReply(w.(cache := read.cache), BuildBarData(read.data.value, settings), 0)
      else
        var c := call(w.store);
        match c.result
        case Failure(_) => BarReply(w.(store := c.store, cache := read.cache), None, 1)
        case Success(data) =>
          BarReply(w.(store := c.store, cache := Put(read.cache, domain, data, now)), BuildBarData(data, settings), 1)
  }

  /** A second request for the same domain within the TTL makes no lookup
      and returns the bar data of the first answer. */
  lemma SecondBarRequestUsesCache(w: World, domain: string, t1: int, t2: int,
                                  call1: ApiCall<LookupResponse>, call2: ApiCall<LookupResponse>)
    requires Auth.GetStoredAuth(w.store).Some? && Settings.GetSettings(w.store).trustBarEnabled
    requires Get(w.cache, domain, t1).data.None? && call1(w.store).result.Success?
    requires Auth.GetStoredAuth(call1(w.store).store).Some?
    requires Settings.GetSettings(call1(w.store).store) == Settings.GetSettings(w.store)
    requires t1 <= t2 <= t1 + CacheTtlMs
    ensures var first := HandleGetBarData(w, domain, t1, call1);
            var second := HandleGetBarData(first.world, domain, t2, call2);
            && first.lookups == 1 && second.lookups == 0
            && second.data == first.data == CachedBar(first.world, domain, t2)
  {
    var first := HandleGetBarData(w, domain, t1, call1);
    var data := call1(w.store).result.value;
    PutThenGet(Get(w.cache, domain, t1).cache, domain, data, t1, t2);
    assert first.world.cache == Put(Get(w.cache, domain, t1).cache, domain, data, t1);
  }

  datatype LookupAnswer = LookupAnswer(world: World, answer: Outcome<LookupResponse>, lookups: nat)

  /** `handleLookup` (the popup's `GET_LOOKUP`): a cached response is returned
      without touching any badge; otherwise the lookup is made, stored and its
      badge put on the active tab (when it has an id), in the icon mode stored
      after the call. A throwing lookup comes back as its message, with the
      badges unchanged. A lookup leaves the store as the API client left it. */
  function HandleLookup(w: World, domain: string, now: int, call: ApiCall<LookupResponse>,
                        activeTab: Option<int>, icon: IconCall): (r: LookupAnswer)
    ensures WorldValid(w) ==> WorldValid(r.world)
    ensures r.world.pollers == w.pollers
    ensures Get(w.cache, domain, now).data.Some? ==>
              r.lookups == 0 && r.answer == Ok(Get(w.cache, domain, now).data.value) && r.world == w
    ensures Get(w.cache, domain, now).data.None? ==>
              var c := call(w.store);
              && r.lookups == 1
              && r.world.store == c.store
              && r.answer == AsOutcome(c.result)
              && (c.result.Failure? ==> r.world.badges == w.badges && domain !in r.world.cache)
              && (c.result.Success? ==>
                    && Get(r.world.cache, domain, now).data == Some(c.result.value)
                    && (activeTab.Some? && activeTab.value != 0 && icon.Shown() ==>
                          && activeTab.value in r.world.badges.shown
                          && r.world.badges.shown[activeTab.value]
                             == ChoiceIcons(ChooseBadge(c.result.value), Settings.GetSettings(c.store).iconDisplayMode))
                    && (activeTab.None? || activeTab.value == 0 ==> r.world.badges == w.badges))
  {
    var read := Get(w.cache, domain, now);
    if read.data.Some? then LookupAnswer(w, Ok(read.data.value), 0)
    else
      var c := call(w.store);
      match c.result
      case Failure(_) => LookupAnswer(w.(store := c.store, cache := read.cache), AsOutcome(c.result), 1)
      case Success(data) =>
        var w1 := w.(store := c.store, cache := Put(read.cache, domain, data, now));
        if activeTab.Some? && activeTab.value != 0 then
          LookupAnswer(w1.(badges := ApplyBadge(w.badges, c.store, activeTab.value, data, icon)), AsOutcome(c.result), 1)
        else LookupAnswer(w1, AsOutcome(c.result), 1)
  }

  /** A popup lookup whose session has expired answers with that message and
      leaves the extension logged out, the badges untouched. */
  lemma ExpiredLookupLogsOut(w: World, domain: string, now: int, server: ApiClient.Server,
                             refresh: ApiClient.RefreshReply, payload: LookupResponse,
                             activeTab: Option<int>, icon: IconCall)
    requires Get(w.cache, domain, now).data.None?
    requires ApiClient.Lookup(w.store, domain, server, refresh, payload).result
             == ApiClient.Failure(ApiClient.ApiError(401, "Session expired"))
    ensures var r := HandleLookup(w, domain, now, s => ApiClient.Lookup(s, domain, server, refresh, payload), activeTab, icon);
            && r.answer == Threw("Session expired")
            && Auth.GetStoredAuth(r.world.store).None?
            && r.world.badges == w.badges
  {
    var f := ApiClient.AuthedFetch(w.store, ApiClient.LookupPath(domain), ApiClient.Options(None, None), server, refresh);
    assert f.result == ApiClient.Failure(ApiClient.ApiError(401, "Session expired"));
  }

  /** The domain of a listed tab the bar broadcasts address: a truthy id, a
      truthy URL and a non-empty extracted domain. */
  function TabDomain(parse: UrlParser, tab: Tab): (r: Option<string>)
    ensures r.Some? <==> tab.id != 0 && tab.url != "" && ExtractDomain(parse, tab.url).Some?
                         && ExtractDomain(parse, tab.url).value != ""
    ensures r.Some? ==> r == ExtractDomain(parse, tab.url)
  {
    if tab.id == 0 || tab.url == "" then None
    else
      var d := ExtractDomain(parse, tab.url);
      if d.None? || d.value == "" then None else d
  }

  /** The bar data one tab is sent: only with credentials, the bar enabled and
      a fresh cached response; never a lookup. */
  function CachedBar(w: World, domain: string, now: int): (r: Option<TrustBarData>)
    ensures r.Some? ==> Auth.GetStoredAuth(w.store).Some? && Get(w.cache, domain, now).data.Some?
    ensures Auth.GetStoredAuth(w.store).Some? && Get(w.cache, domain, now).data.Some? ==>
              r == BuildBarData(Get(w.cache, domain, now).data.value, Settings.GetSettings(w.store))
  {
    var settings := Settings.GetSettings(w.store);
    if Auth.GetStoredAuth(w.store).None? || !settings.trustBarEnabled then None
    else
      var read := Get(w.cache, domain, now);
      if read.data.Some? then BuildBarData(read.data.value, settings) else None
  }

  /** The listed tabs the bar broadcasts address, in tab order. */
  function Addressed(parse: UrlParser, tabs: seq<Tab>): (r: seq<Tab>)
    ensures |r| <= |tabs|
    ensures forall t | t in r :: t in tabs && TabDomain(parse, t).Some?
    ensures forall i | 0 <= i < |tabs| && TabDomain(parse, tabs[i]).Some? :: tabs[i] in r
    decreases |tabs|
  {
    if |tabs| == 0 then []
    else
      assert forall i :: 1 <= i < |tabs| ==> tabs[i] == tabs[1..][i - 1];
      (if TabDomain(parse, tabs[0]).Some? then [tabs[0]] else []) + Addressed(parse, tabs[1..])
  }

  /** Addressing keeps the order of the listing: the addressed tabs of two
      listings laid end to end are those of the first, then the second's. */
  lemma {:induction false} AddressedSplit(parse: UrlParser, a: seq<Tab>, b: seq<Tab>)
    ensures Addressed(parse, a + b) == Addressed(parse, a) + Addressed(parse, b)
    decreases |a|
  {
    if |a| == 0 {
      assert a + b == b;
    } else {
      assert (a + b)[1..] == a[1..] + b;
      AddressedSplit(parse, a[1..], b);
    }
  }

  /** `pushBarToAllTabs`: one `UPDATE_BAR` per addressed tab, in tab order,
      with the bar data of that tab's domain. */
  function PushBarToAllTabs(w: World, parse: UrlParser, tabs: seq<Tab>, now: int): (r: seq<BarMessage>)
    ensures |r| == |Addressed(parse, tabs)|
    ensures forall i | 0 <= i < |r| ::
              var t := Addressed(parse, tabs)[i];
              r[i] == BarMessage(t.id, CachedBar(w, TabDomain(parse, t).value, now))
    decreases |tabs|
  {
    if |tabs| == 0 then []
    else
      var rest := PushBarToAllTabs(w, parse, tabs[1..], now);
      match TabDomain(parse, tabs[0])
      case None => rest
      case Some(d) => [BarMessage(tabs[0].id, CachedBar(w, d, now))] + rest
  }

  /** Without credentials every bar message clears the bar. */
  lemma LoggedOutPushClearsBars(w: World, parse: UrlParser, tabs: seq<Tab>, now: int)
    requires Auth.GetStoredAuth(w.store).None?
    ensures forall m | m in PushBarToAllTabs(w, parse, tabs, now) :: m.data.None?
  {
  }

  /** The fresh cached response for a listed tab's domain, if it has one. */
  function CachedFor(cache: Cache, parse: UrlParser, tab: Tab, now: int): Option<LookupResponse> {
    match TabDomain(parse, tab)
    case None => None
    case Some(d) => Get(cache, d, now).data
  }

  /** No tab listed in `tabs` has a fresh cached response under `id`. */
  predicate NothingCachedFor(cache: Cache, parse: UrlParser, tabs: seq<Tab>, id: TabId, now: int) {
    forall i | 0 <= i < |tabs| && tabs[i].id == id :: CachedFor(cache, parse, tabs[i], now).None?
  }

  /** Every tab of `b` with nothing cached for any of its listings, or whose
      icon call was rejected, keeps its icons in `r`. */
  predicate KeepsUncached(b: Badges, r: Badges, cache: Cache, parse: UrlParser, tabs: seq<Tab>, now: int, icons: IconCalls) {
    forall other | other in b.shown && (NothingCachedFor(cache, parse, tabs, other, now) || !icons(other).Shown()) ::
      other in r.shown && r.shown[other] == b.shown[other]
  }

  /** The last listing of each tab id with a fresh cached response shows that
      response's badge, when that tab's icon call got through. */
  predicate ShowsCached(r: Badges, store: Store, cache: Cache, parse: UrlParser, tabs: seq<Tab>, now: int, icons: IconCalls) {
    forall i | 0 <= i < |tabs| && CachedFor(cache, parse, tabs[i], now).Some? && icons(tabs[i].id).Shown()
               && (forall j | i < j < |tabs| :: tabs[j].id != tabs[i].id) ::
      tabs[i].id in r.shown
      && r.shown[tabs[i].id] == ChoiceIcons(ChooseBadge(CachedFor(cache, parse, tabs[i], now).value),
                                            Settings.GetSettings(store).iconDisplayMode)
  }

  /** The badge refresh of `handleSetSettings`: every addressable tab whose
      domain has a fresh cached response gets that response's badge (the last
      listing of a tab id wins); no lookup is made, and a tab none of whose
      listings has a fresh cached response keeps its icons. */
  function RefreshCachedBadges(b: Badges, store: Store, cache: Cache, parse: UrlParser, tabs: seq<Tab>,
                               now: int, icons: IconCalls): (r: Badges)
    ensures Valid(b) ==> Valid(r)
    ensures KeepsUncached(b, r, cache, parse, tabs, now, icons)
    ensures ShowsCached(r, store, cache, parse, tabs, now, icons)
    decreases |tabs|
  {
    if |tabs| == 0 then b
    else
      var hit := CachedFor(cache, parse, tabs[0], now);
      var b1 := if hit.Some? then ApplyBadge(b, store, tabs[0].id, hit.value, icons(tabs[0].id)) else b;
      var r := RefreshCachedBadges(b1, store, cache, parse, tabs[1..], now, icons);
      KeepsUncachedStep(b, b1, r, store, cache, parse, tabs, now, icons);
      ShowsCachedStep(b1, r, store, cache, parse, tabs, now, icons);
      r
  }

  /** One step of the refresh keeps the icons of tabs with nothing cached. */
  lemma KeepsUncachedStep(b: Badges, b1: Badges, r: Badges, store: Store, cache: Cache, parse: UrlParser,
                          tabs: seq<Tab>, now: int, icons: IconCalls)
    requires |tabs| > 0
    requires b1 == (if CachedFor(cache, parse, tabs[0], now).Some?
                    then ApplyBadge(b, store, tabs[0].id, CachedFor(cache, parse, tabs[0], now).value, icons(tabs[0].id)) else b)
    requires KeepsUncached(b1, r, cache, parse, tabs[1..], now, icons)
    ensures KeepsUncached(b, r, cache, parse, tabs, now, icons)
  {
    forall other | other in b.shown && (NothingCachedFor(cache, parse, tabs, other, now) || !icons(other).Shown())
      ensures other in r.shown && r.shown[other] == b.shown[other]
    {
      assert other in b1.shown && b1.shown[other] == b.shown[other];
      if NothingCachedFor(cache, parse, tabs, other, now) {
        forall i | 0 <= i < |tabs[1..]| && tabs[1..][i].id == other
          ensures CachedFor(cache, parse, tabs[1..][i], now).None?
        {
          assert tabs[1..][i] == tabs[i + 1];
        }
      }
    }
  }

  /** One step of the refresh shows the cached badge of each last listing. */
  lemma ShowsCachedStep(b1: Badges, r: Badges, store: Store, cache: Cache, parse: UrlParser, tabs: seq<Tab>, now: int,
                        icons: IconCalls)
    requires |tabs| > 0
    requires CachedFor(cache, parse, tabs[0], now).Some? && icons(tabs[0].id).Shown() ==>
               tabs[0].id in b1.shown
               && b1.shown[tabs[0].id] == ChoiceIcons(ChooseBadge(CachedFor(cache, parse, tabs[0], now).value),
                                                      Settings.GetSettings(store).iconDisplayMode)
    requires KeepsUncached(b1, r, cache, parse, tabs[1..], now, icons)
    requires ShowsCached(r, store, cache, parse, tabs[1..], now, icons)
    ensures ShowsCached(r, store, cache, parse, tabs, now, icons)
  {
    forall i | 0 <= i < |tabs| && CachedFor(cache, parse, tabs[i], now).Some? && icons(tabs[i].id).Shown()
               && (forall j | i < j < |tabs| :: tabs[j].id != tabs[i].id)
      ensures tabs[i].id in r.shown
              && r.shown[tabs[i].id] == ChoiceIcons(ChooseBadge(CachedFor(cache, parse, tabs[i], now).value),
                                                    Settings.GetSettings(store).iconDisplayMode)
    {
      if i == 0 {
        assert forall k | 0 <= k < |tabs[1..]| :: tabs[1..][k] == tabs[k + 1];
        assert NothingCachedFor(cache, parse, tabs[1..], tabs[0].id, now);
      } else {
        assert tabs[1..][i - 1] == tabs[i];
        forall j | i - 1 < j < |tabs[1..]|
          ensures tabs[1..][j].id != tabs[1..][i - 1].id
        {
          assert tabs[1..][j] == tabs[j + 1];
        }
      }
    }
  }

  /** `handleSetSettings`: the settings are saved; with credentials, cached
      badges are redrawn in the new icon mode and the bars re-sent; without,
      nothing else happens. The source queries the tab list twice (once here,
      once inside `pushBarToAllTabs`) and reads the clock at each cache read;
      the model takes one tab list and one `now` for the whole message. */
  function HandleSetSettings(w: World, s: ExtensionSettings, parse: UrlParser, tabs: seq<Tab>,
                             now: int, icons: IconCalls): (r: Polled)
    ensures Settings.GetSettings(r.world.store) == s
    ensures Auth.GetStoredAuth(r.world.store) == Auth.GetStoredAuth(w.store)
    ensures r.world.cache == w.cache && r.world.pollers == w.pollers
    ensures WorldValid(w) ==> WorldValid(r.world)
    ensures Auth.GetStoredAuth(w.store).None? ==> r.messages == [] && r.world.badges == w.badges
    ensures Auth.GetStoredAuth(w.store).Some? ==> r.messages == PushBarToAllTabs(r.world, parse, tabs, now)
  {
    Settings.SaveThenGet(w.store, s);
    Settings.SettingsAndAuthIndependent(w.store, s);
    var store := Settings.SaveSettings(w.store, s);
    var w1 := w.(store := store);
    if Auth.GetStoredAuth(w.store).None? then Polled(w1, [])
    else
      var w2 := w1.(badges := RefreshCachedBadges(w.badges, store, w.cache, parse, tabs, now, icons));
      Polled(w2, PushBarToAllTabs(w2, parse, tabs, now))
  }

  /** The tab listeners (`onUpdated` once loaded, `onActivated`): a tab
      without a URL is left alone; a URL without a remote domain gets the
      gray icon and no lookup; otherwise the tab's badge is updated. */
  function OnTabUrl(w: World, tab: TabId, url: string, parse: UrlParser, now: int,
                    reply: Outcome<LookupResponse>, spinner: IconCall, icon: IconCall): (r: Updated)
    ensures WorldValid(w) ==> WorldValid(r.world)
    ensures url == "" ==> r == Updated(w, None, 0)
    ensures url != "" && (ExtractDomain(parse, url).None? || ExtractDomain(parse, url) == Some("")) ==>
              r.lookups == 0 && r.world.cache == w.cache && (icon.Shown() ==> tab in r.world.badges.shown && r.world.badges.shown[tab] == GrayIcons())
    ensures url != "" && ExtractDomain(parse, url).Some? && ExtractDomain(parse, url) != Some("") ==>
              r == UpdateTabBadge(w, tab, ExtractDomain(parse, url).value, now, reply, spinner, icon)
  {
    if url == "" then Updated(w, None, 0)
    else
      var d := ExtractDomain(parse, url);
      if d.None? || d.value == "" then Updated(w.(badges := ClearBadge(w.badges, tab, icon)), None, 0)
      else UpdateTabBadge(w, tab, d.value, now, reply, spinner, icon)
  }
}

=== FILE: badge.dfy ===
/** The toolbar badge (src/common/badge.ts): which icon set a tab gets for a
    score, a running scan or no data, and the per-tab spinner animations.

    Icons drawn with floating-point geometry (the symbols, the gray scanner and
    the spinner arc) are named, not rasterised; the score digits are the exact
    bitmap of `BitmapFont`. An interval is identified by the id `setInterval`
    returned; what `safeSetIcon`'s browser calls did (`IconCall`) is a
    parameter of each operation. */
module Badge {
  import opened Types
  import opened Strings
  import opened Canvas
  import opened BitmapFont

  type TabId = int

  /** `BADGE_COLORS`. */
  function BadgeColor(level: RiskLevel): Rgb {
    match level
    case Green => Rgb(34, 197, 94)
    case Yellow => Rgb(234, 179, 8)
    case Red => Rgb(239, 68, 68)
  }

  /** The three symbol icons of `generateSymbolIcon`. */
  datatype Shape = GreenTick | YellowWarning | RedStop

  datatype Icon =
    | Bitmap(pixels: Pixels)
    | Symbol(size: nat, shape: Shape)
    | GrayScanner(size: nat)
    | SpinnerFrame(size: nat, frame: nat)

  /** The sizes every icon set holds, keyed by `String(size)` in the source. */
  const IconSizes: set<nat> := {16, 32, 48}

  type IconSet = map<nat, Icon>

  /** `generateSymbolIcon`: one shape per risk level. */
  function SymbolShape(level: RiskLevel): Shape {
    match level
    case Green => GreenTick
    case Yellow => YellowWarning
    case Red => RedStop
  }

  function ShapeLevel(shape: Shape): RiskLevel {
    match shape
    case GreenTick => Green
    case YellowWarning => Yellow
    case RedStop => Red
  }

  /** The symbol dispatch is a bijection: each level has its own shape and the
      shape gives the level back. */
  lemma SymbolShapeRoundTrip(level: RiskLevel, shape: Shape)
    ensures ShapeLevel(SymbolShape(level)) == level
    ensures SymbolShape(ShapeLevel(shape)) == shape
  {
  }

  /** The icon set `setBadgeScore` builds: the symbol in symbols mode, otherwise
      `String(score)` drawn in the level's colour. */
  function ScoreIcons(score: int, level: RiskLevel, mode: IconDisplayMode): (r: IconSet)
    ensures r.Keys == IconSizes
  {
    map s | s in IconSizes ::
      if mode == Symbols then Symbol(s, SymbolShape(level))
      else Bitmap(ScoreIconPixels(s, score, BadgeColor(level)))
  }

  /** In symbols mode the icons depend on the risk level only. */
  lemma SymbolsIgnoreScore(score1: int, score2: int, level: RiskLevel)
    ensures ScoreIcons(score1, level, Symbols) == ScoreIcons(score2, level, Symbols)
  {
  }

  /** In numbers mode every pixel of every size is either untouched
      (transparent black) or the level's colour at full opacity, and it is the
      colour exactly when a digit of `String(score)` covers it. */
  lemma NumbersIconPixels(score: int, level: RiskLevel, size: nat)
    requires size in IconSizes
    ensures var icon := ScoreIcons(score, level, Numbers)[size];
            var l := TextLayout(size, |IntToString(score)|);
            var pl := Placements(FontGlyphs, IntToString(score), l.startX, l.pixelScale);
            && icon.Bitmap?
            && IsCanvas(icon.pixels, size)
            && forall q, k | InBounds(size, q) && 0 <= k < 4 ::
                 Px(icon.pixels, size, q, k) ==
                   if PlacedCovers(pl, l.startY, l.pixelScale, q) then Channel(BadgeColor(level), k) else 0
  {
  }

  function IconsFor(f: nat -> Icon): (r: IconSet)
    ensures r.Keys == IconSizes
    ensures forall s | s in IconSizes :: r[s] == f(s)
  {
    map s | s in IconSizes :: f(s)
  }

  function GrayIcons(): IconSet {
    IconsFor((s: nat) => GrayScanner(s))
  }

  function SpinnerIcons(frame: nat): IconSet {
    IconsFor((s: nat) => SpinnerFrame(s, frame))
  }

  const TotalFrames: nat := 12

  /** A live interval: the tab it animates and the frame its closure holds. */
  datatype Interval = Interval(tab: TabId, frame: nat)

  /** `loadingAnimations` (tab to interval id), the intervals not yet cleared,
      the icon set each tab shows, and the next interval id. */
  datatype Badges = Badges(
    loading: map<TabId, nat>,
    intervals: map<nat, Interval>,
    shown: map<TabId, IconSet>,
    nextTimer: nat)

  function Init(): Badges {
    Badges(map[], map[], map[], 1)
  }

  /** Every tab in the map points at a live interval of its own; every live
      interval is registered for its tab (none leaks); ids are positive and
      fresh ids are above all used ones; frames stay below 12. */
  predicate Valid(b: Badges) {
    && 0 < b.nextTimer
    && (forall tab | tab in b.loading :: b.loading[tab] in b.intervals && b.intervals[b.loading[tab]].tab == tab)
    && (forall t | t in b.intervals ::
          && 0 < t < b.nextTimer
          && b.intervals[t].frame < TotalFrames
          && b.intervals[t].tab in b.loading
          && b.loading[b.intervals[t].tab] == t)
  }

  /** The ids of the live intervals that animate `tab`. */
  function LiveFor(b: Badges, tab: TabId): set<nat> {
    set t | t in b.intervals && b.intervals[t].tab == tab
  }

  /** In a valid state a tab has a live interval exactly when it is in the map,
      and then exactly one. */
  lemma AtMostOneInterval(b: Badges, tab: TabId)
    requires Valid(b)
    ensures tab in b.loading ==> LiveFor(b, tab) == {b.loading[tab]}
    ensures tab !in b.loading ==> LiveFor(b, tab) == {}
  {
  }

  lemma InitValid()
    ensures Valid(Init())
  {
  }

  /** `stopLoadingAnimation`: clears the tab's interval, if any. */
  function Stop(b: Badges, tab: TabId): (r: Badges)
    ensures tab !in r.loading
    ensures forall other | other != tab :: (other in r.loading <==> other in b.loading)
    ensures forall other | other != tab && other in b.loading :: r.loading[other] == b.loading[other]
    ensures r.shown == b.shown && r.nextTimer == b.nextTimer
    ensures forall t | t in r.intervals :: t in b.intervals && r.intervals[t] == b.intervals[t]
    ensures Valid(b) ==> Valid(r) && LiveFor(r, tab) == {}
    ensures Valid(b) ==> forall t | t in b.intervals && b.intervals[t].tab != tab :: t in r.intervals
  {
    if tab in b.loading then
      Badges(b.loading - {tab}, b.intervals - {b.loading[tab]}, b.shown, b.nextTimer)
    else
      b
  }

  /** What `safeSetIcon`'s two browser calls did. `setIcon` runs first and
      `setBadgeText` only after it: both reached the tab (`Applied`, the
      wrapper returns true); the icon was set and the text call threw
      (`IconOnly`, the wrapper returns false with the new icon showing); or
      `setIcon` threw, as for a closed tab (`Rejected`, returns false). */
  datatype IconCall = Applied | IconOnly | Rejected {
    /** The new icons reached the tab. */
    predicate Shown() {
      !Rejected?
    }

    /** `safeSetIcon`'s return value. */
    predicate Returned() {
      Applied?
    }
  }

  /** `safeSetIcon`: the set replaces the tab's icons whenever `setIcon`
      reached the tab, whatever the wrapper then returns. */
  function Apply(b: Badges, tab: TabId, icons: IconSet, icon: IconCall): (r: Badges)
    ensures r.loading == b.loading && r.intervals == b.intervals && r.nextTimer == b.nextTimer
    ensures icon.Shown() ==> r.shown == b.shown[tab := icons]
    ensures !icon.Shown() ==> r.shown == b.shown
  {
    if icon.Shown() then b.(shown := b.shown[tab := icons]) else b
  }

  /** `setBadgeScore`. */
  function SetBadgeScore(b: Badges, tab: TabId, score: int, level: RiskLevel, mode: IconDisplayMode, icon: IconCall): (r: Badges)
    ensures r.loading == Stop(b, tab).loading && r.intervals == Stop(b, tab).intervals
    ensures Valid(b) ==> Valid(r) && LiveFor(r, tab) == {}
    ensures icon.Shown() ==> tab in r.shown && r.shown[tab] == ScoreIcons(score, level, mode)
    ensures icon.Shown() ==> r.shown == b.shown[tab := ScoreIcons(score, level, mode)]
    ensures !icon.Shown() ==> r.shown == b.shown
  {
    Apply(Stop(b, tab), tab, ScoreIcons(score, level, mode), icon)
  }

  /** `clearBadge`: the gray scanner icon. */
  function ClearBadge(b: Badges, tab: TabId, icon: IconCall): (r: Badges)
    ensures Valid(b) ==> Valid(r) && LiveFor(r, tab) == {}
    ensures r.loading == Stop(b, tab).loading && r.intervals == Stop(b, tab).intervals
    ensures tab !in r.loading
    ensures icon.Shown() ==> tab in r.shown && r.shown[tab] == GrayIcons()
    ensures icon.Shown() ==> r.shown == b.shown[tab := GrayIcons()]
    ensures !icon.Shown() ==> r.shown == b.shown
  {
    Apply(Stop(b, tab), tab, GrayIcons(), icon)
  }

  /** The tab-closed listener. */
  function TabRemoved(b: Badges, tab: TabId): (r: Badges)
    ensures Valid(b) ==> Valid(r) && LiveFor(r, tab) == {}
    ensures tab !in r.loading && r.shown == b.shown
  {
    Stop(b, tab)
  }

  /** `renderFrame`: show the frame; when `safeSetIcon` returns true advance
      the closure's frame, otherwise stop the tab's animation (even if the icon
      got through). Returns the state and the frame. */
  function RenderFrame(b: Badges, tab: TabId, frame: nat, icon: IconCall): (Badges, nat) {
    var b1 := Apply(b, tab, SpinnerIcons(frame), icon);
    if icon.Returned() then (b1, (frame + 1) % TotalFrames)
    else (Stop(b1, tab), frame)
  }

  /** The part of `setBadgeLoading` before its `await` returns: stop the tab's
      animation and render frame 0. The result carries the frame the interval's
      closure will start from. */
  function BeginLoading(b: Badges, tab: TabId, icon: IconCall): (r: (Badges, nat))
    ensures r.1 == (if icon.Returned() then 1 else 0)
    ensures tab !in r.0.loading
    ensures Valid(b) ==> Valid(r.0)
    ensures r.0.nextTimer == b.nextTimer
  {
    RenderFrame(Stop(b, tab), tab, 0, icon)
  }

  /** The part after the `await`, as written: allocate the interval and store
      it under the tab, overwriting whatever the map holds. */
  function CommitLoading(b: Badges, tab: TabId, frame: nat): (r: Badges)
    ensures tab in r.loading && r.loading[tab] in r.intervals && r.intervals[r.loading[tab]] == Interval(tab, frame)
    ensures Valid(b) && tab !in b.loading && frame < TotalFrames ==> Valid(r)
  {
    var t := b.nextTimer;
    var r := Badges(b.loading[tab := t], b.intervals[t := Interval(tab, frame)], b.shown, t + 1);
    assert Valid(b) && tab !in b.loading && frame < TotalFrames ==> Valid(r) by {
      if Valid(b) && tab !in b.loading && frame < TotalFrames {
        forall u | u in r.intervals
          ensures r.intervals[u].tab in r.loading && r.loading[r.intervals[u].tab] == u
        {
          if u != t {
            assert b.intervals[u].tab in b.loading;
          }
        }
      }
    }
    r
  }

  /** The same step with the tab's previous interval cleared first, as the
      `stopLoadingAnimation` at the top of `setBadgeLoading` intends. */
  function CommitLoadingFixed(b: Badges, tab: TabId, frame: nat): (r: Badges)
    requires frame < TotalFrames
    ensures Valid(b) ==> Valid(r)
    ensures tab in r.loading && r.loading[tab] in r.intervals && r.intervals[r.loading[tab]] == Interval(tab, frame)
    ensures r.shown == b.shown
  {
    CommitLoading(Stop(b, tab), tab, frame)
  }

  /** `setBadgeLoading` run to completion with nothing in between: one live
      interval for the tab, starting at frame 1 when the first frame was shown
      and at frame 0 (to be retried) when it was not. */
  function SetBadgeLoading(b: Badges, tab: TabId, icon: IconCall): (r: Badges)
    ensures tab in r.loading && r.loading[tab] in r.intervals
    ensures r.intervals[r.loading[tab]] == Interval(tab, if icon.Returned() then 1 else 0)
    ensures Valid(b) ==> Valid(r) && LiveFor(r, tab) == {r.loading[tab]}
    ensures icon.Shown() ==> tab in r.shown && r.shown[tab] == SpinnerIcons(0)
    ensures !icon.Shown() ==> r.shown == b.shown
  {
    var (b1, frame) := BeginLoading(b, tab, icon);
    var r := CommitLoadingFixed(b1, tab, frame);
    assert Valid(b) ==> LiveFor(r, tab) == {r.loading[tab]} by {
      if Valid(b) {
        AtMostOneInterval(r, tab);
      }
    }
    r
  }

  /** Run in sequence, the as-written commit and the fixed one agree, because
      the map entry was just cleared. */
  lemma SequentialCommitAgrees(b: Badges, tab: TabId, icon: IconCall)
    ensures var (b1, frame) := BeginLoading(b, tab, icon);
            CommitLoading(b1, tab, frame) == CommitLoadingFixed(b1, tab, frame)
  {
  }

  /** One firing of interval `t`: a cleared interval never fires; otherwise
      the closure renders its frame. */
  function Tick(b: Badges, t: nat, icon: IconCall): (r: Badges)
    ensures Valid(b) ==> Valid(r)
    ensures t in b.intervals && icon.Shown() ==>
              b.intervals[t].tab in r.shown && r.shown[b.intervals[t].tab] == SpinnerIcons(b.intervals[t].frame)
    ensures t in b.intervals && !icon.Shown() ==> r.shown == b.shown
    ensures t in b.intervals && icon.Returned() ==>
              t in r.intervals && r.intervals[t].frame == (b.intervals[t].frame + 1) % TotalFrames
    ensures t in b.intervals && !icon.Returned() ==> b.intervals[t].tab !in r.loading
    ensures t !in b.intervals ==> r == b
  {
    if t !in b.intervals then b
    else
      var iv := b.intervals[t];
      var (b1, frame) := RenderFrame(b, iv.tab, iv.frame, icon);
      if icon.Returned() then b1.(intervals := b1.intervals[t := Interval(iv.tab, frame)]) else b1
  }

  /** Two `setBadgeLoading` calls for one tab whose awaits interleave: both
      clear the (empty) map entry and render frame 0, then both register an
      interval. As written, the first interval is overwritten in the map: the
      state is no longer valid, and interval 1 is live but unregistered. */
  lemma InterleavedLoadingLeaks(tab: TabId)
    ensures var (b1, f1) := BeginLoading(Init(), tab, Applied);
            var (b2, f2) := BeginLoading(b1, tab, Applied);
            var b3 := CommitLoading(CommitLoading(b2, tab, f1), tab, f2);
            && !Valid(b3)
            && b3.loading == map[tab := 2]
            && b3.intervals == map[1 := Interval(tab, 1), 2 := Interval(tab, 1)]
  {
    var (b1, f1) := BeginLoading(Init(), tab, Applied);
    var (b2, f2) := BeginLoading(b1, tab, Applied);
    assert b2.loading == map[] && b2.intervals == map[] && b2.nextTimer == 1;
    var b3 := CommitLoading(CommitLoading(b2, tab, f1), tab, f2);
    assert b3.intervals == map[1 := Interval(tab, 1), 2 := Interval(tab, 1)];
    assert b3.loading == map[tab := 2];
    assert 1 in b3.intervals && b3.loading[b3.intervals[1].tab] != 1;
  }

  /** From that state, `setBadgeScore` clears only the registered interval:
      the leaked one stays live and its next firing draws the spinner over the
      score. */
  lemma LeakedIntervalOutlivesScore(b: Badges, tab: TabId, score: int, level: RiskLevel, mode: IconDisplayMode)
    requires b.loading == map[tab := 2]
    requires b.intervals == map[1 := Interval(tab, 1), 2 := Interval(tab, 1)]
    ensures var r := SetBadgeScore(b, tab, score, level, mode, Applied);
            && LiveFor(r, tab) == {1}
            && Tick(r, 1, Applied).shown[tab] == SpinnerIcons(1)
  {
    var r := SetBadgeScore(b, tab, score, level, mode, Applied);
    ScoreKeepsLeakedInterval(b, tab, score, level, mode);
    assert LiveFor(r, tab) == {1} by {
      assert 1 in LiveFor(r, tab);
    }
  }

  /** `setBadgeScore` on the leaked state clears only interval 2. */
  lemma ScoreKeepsLeakedInterval(b: Badges, tab: TabId, score: int, level: RiskLevel, mode: IconDisplayMode)
    requires b.loading == map[tab := 2]
    requires b.intervals == map[1 := Interval(tab, 1), 2 := Interval(tab, 1)]
    ensures SetBadgeScore(b, tab, score, level, mode, Applied).intervals == map[1 := Interval(tab, 1)]
  {
    assert Stop(b, tab).intervals == map[1 := Interval(tab, 1)];
  }

  /** With the fixed commit every interleaving of begins and commits keeps the
      state valid, so no interval is ever left unreachable. */
  lemma InterleavedLoadingFixed(b: Badges, tab: TabId, icon1: IconCall, icon2: IconCall)
    requires Valid(b)
    ensures var (b1, f1) := BeginLoading(b, tab, icon1);
            var (b2, f2) := BeginLoading(b1, tab, icon2);
            var b3 := CommitLoadingFixed(CommitLoadingFixed(b2, tab, f1), tab, f2);
            Valid(b3) && LiveFor(b3, tab) == {b3.loading[tab]}
  {
    var (b1, f1) := BeginLoading(b, tab, icon1);
    var (b2, f2) := BeginLoading(b1, tab, icon2);
    var b3 := CommitLoadingFixed(CommitLoadingFixed(b2, tab, f1), tab, f2);
    AtMostOneInterval(b3, tab);
  }
}

=== FILE: bitmap_font.dfy ===
/** The bitmap digit font and the "as large as fits" text renderer of the badge
    (src/common/badge.ts, `FONT_GLYPHS` and `drawTextMaxSize`). Glyphs are 6x7
    cells; text is scaled by an integer factor, centred, and written pixel by
    pixel with clipping at the canvas edge. */
module BitmapFont {
  import opened Types
  import opened Strings
  import opened Canvas

  // GLYPH_W = 6, GLYPH_H = 7 and the gap of one cell between glyphs are
  // written as literals below, which keeps the arithmetic linear where the
  // scale is a variable.

  /** A glyph: 42 cells, row-major, non-zero means lit. */
  type GlyphBits = s: seq<int> | |s| == 42 witness seq(42, _ => 0)

  const Digit0: GlyphBits := [
    0,1,1,1,1,0,
    1,1,0,0,1,1,
    1,1,0,0,1,1,
    1,1,0,0,1,1,
    1,1,0,0,1,1,
    1,1,0,0,1,1,
    0,1,1,1,1,0]

  const Digit1: GlyphBits := [
    0,0,1,1,0,0,
    0,1,1,1,0,0,
    1,1,1,1,0,0,
    0,0,1,1,0,0,
    0,0,1,1,0,0,
    0,0,1,1,0,0,
    1,1,1,1,1,1]

  const Digit2: GlyphBits := [
    0,1,1,1,1,0,
    1,1,0,0,1,1,
    0,0,0,0,1,1,
    0,0,0,1,1,0,
    0,0,1,1,0,0,
    0,1,1,0,0,0,
    1,1,1,1,1,1]

  const Digit3: GlyphBits := [
    0,1,1,1,1,0,
    1,1,0,0,1,1,
    0,0,0,0,1,1,
    0,0,1,1,1,0,
    0,0,0,0,1,1,
    1,1,0,0,1,1,
    0,1,1,1,1,0]

  const Digit4: GlyphBits := [
    0,0,0,1,1,0,
    0,0,1,1,1,0,
    0,1,1,0,1,0,
    1,1,0,0,1,0,
    1,1,1,1,1,1,
    0,0,0,0,1,0,
    0,0,0,0,1,0]

  const Digit5: GlyphBits := [
    1,1,1,1,1,1,
    1,1,0,0,0,0,
    1,1,1,1,1,0,
    0,0,0,0,1,1,
    0,0,0,0,1,1,
    1,1,0,0,1,1,
    0,1,1,1,1,0]

  const Digit6: GlyphBits := [
    0,1,1,1,1,0,
    1,1,0,0,0,0,
    1,1,0,0,0,0,
    1,1,1,1,1,0,
    1,1,0,0,1,1,
    1,1,0,0,1,1,
    0,1,1,1,1,0]

  const Digit7: GlyphBits := [
    1,1,1,1,1,1,
    0,0,0,0,1,1,
    0,0,0,1,1,0,
    0,0,0,1,1,0,
    0,0,1,1,0,0,
    0,0,1,1,0,0,
    0,0,1,1,0,0]

  const Digit8: GlyphBits := [
    0,1,1,1,1,0,
    1,1,0,0,1,1,
    1,1,0,0,1,1,
    0,1,1,1,1,0,
    1,1,0,0,1,1,
    1,1,0,0,1,1,
    0,1,1,1,1,0]

  const Digit9: GlyphBits := [
    0,1,1,1,1,0,
    1,1,0,0,1,1,
    1,1,0,0,1,1,
    0,1,1,1,1,1,
    0,0,0,0,1,1,
    0,0,0,0,1,1,
    0,1,1,1,1,0]

  /** A glyph table: `FONT_GLYPHS` and any other table of the same shape. */
  type Font = map<char, GlyphBits>

  /** `FONT_GLYPHS`: the ten decimal digits. */
  const FontGlyphs: Font := map[
    '0' := Digit0, '1' := Digit1, '2' := Digit2, '3' := Digit3, '4' := Digit4,
    '5' := Digit5, '6' := Digit6, '7' := Digit7, '8' := Digit8, '9' := Digit9]

  /** A character has a glyph exactly when it is a decimal digit. */
  lemma FontKeys()
    ensures forall c :: c in FontGlyphs <==> IsDigit(c)
  {
    forall c ensures c in FontGlyphs <==> IsDigit(c) {
      if IsDigit(c) {
        var d := DigitValue(c);
        assert c == DigitChar(d);
      }
    }
  }

  predicate Lit(g: GlyphBits, gx: int, gy: int)
    requires 0 <= gx < 6 && 0 <= gy < 7
  {
    g[gy * 6 + gx] != 0
  }

  /** `p` lies in the `ps` x `ps` block that cell (gx, gy) of a glyph drawn at
      (ox, oy) covers. */
  predicate InCell(p: Point, ox: int, oy: int, ps: nat, gx: int, gy: int) {
    && ox + gx * ps <= p.x < ox + gx * ps + ps
    && oy + gy * ps <= p.y < oy + gy * ps + ps
  }

  // The pixel writes of one glyph, generated in the nesting order of the
  // source's loops (gy, gx, sy, sx). The functions only list the writes; the
  // lemmas after them say which points the lists contain.

  function BlockRow(x: int, y: int, ps: nat, sx: nat): seq<Point>
    decreases ps - sx
  {
    if sx >= ps then [] else [Point(x + sx, y)] + BlockRow(x, y, ps, sx + 1)
  }

  function Block(x: int, y: int, ps: nat, sy: nat): seq<Point>
    decreases ps - sy
  {
    if sy >= ps then [] else BlockRow(x, y + sy, ps, 0) + Block(x, y, ps, sy + 1)
  }

  function GlyphRow(g: GlyphBits, ox: int, oy: int, ps: nat, gy: nat, gx: nat): seq<Point>
    requires gy < 7 && gx <= 6
    decreases 6 - gx
  {
    if gx == 6 then []
    else
      var here := if Lit(g, gx, gy) then Block(ox + gx * ps, oy + gy * ps, ps, 0) else [];
      here + GlyphRow(g, ox, oy, ps, gy, gx + 1)
  }

  /** All pixel writes of one glyph, rows `gy` to 6. */
  function GlyphPoints(g: GlyphBits, ox: int, oy: int, ps: nat, gy: nat): seq<Point>
    requires gy <= 7
    decreases 7 - gy
  {
    if gy == 7 then [] else GlyphRow(g, ox, oy, ps, gy, 0) + GlyphPoints(g, ox, oy, ps, gy + 1)
  }

  lemma {:induction false} BlockRowCovers(x: int, y: int, ps: nat, sx: nat)
    ensures forall p :: p in BlockRow(x, y, ps, sx) <==> p.y == y && x + sx <= p.x < x + ps
    decreases ps - sx
  {
    if sx < ps {
      BlockRowCovers(x, y, ps, sx + 1);
    }
  }

  /** The scaled block of one cell is the full `ps` x `ps` square. */
  lemma {:induction false} BlockCovers(x: int, y: int, ps: nat, sy: nat)
    ensures forall p :: p in Block(x, y, ps, sy) <==> x <= p.x < x + ps && y + sy <= p.y < y + ps
    decreases ps - sy
  {
    if sy < ps {
      BlockRowCovers(x, y + sy, ps, 0);
      BlockCovers(x, y, ps, sy + 1);
    }
  }

  /** Some lit cell of row `gy`, at column `gx` or later, covers `p`. */
  ghost predicate RowCovered(g: GlyphBits, ox: int, oy: int, ps: nat, p: Point, gy: nat, gx: nat)
    requires gy < 7
  {
    exists cx :: gx <= cx < 6 && Lit(g, cx, gy) && InCell(p, ox, oy, ps, cx, gy)
  }

  lemma {:induction false} GlyphRowCovers(g: GlyphBits, ox: int, oy: int, ps: nat, gy: nat, gx: nat)
    requires gy < 7 && gx <= 6
    ensures forall p :: p in GlyphRow(g, ox, oy, ps, gy, gx) <==> RowCovered(g, ox, oy, ps, p, gy, gx)
    decreases 6 - gx
  {
    if gx < 6 {
      GlyphRowCovers(g, ox, oy, ps, gy, gx + 1);
      BlockCovers(ox + gx * ps, oy + gy * ps, ps, 0);
      forall p ensures p in GlyphRow(g, ox, oy, ps, gy, gx) <==> RowCovered(g, ox, oy, ps, p, gy, gx) {
        if RowCovered(g, ox, oy, ps, p, gy, gx) {
          var cx :| gx <= cx < 6 && Lit(g, cx, gy) && InCell(p, ox, oy, ps, cx, gy);
          if cx > gx {
            assert RowCovered(g, ox, oy, ps, p, gy, gx + 1);
          }
        }
        if RowCovered(g, ox, oy, ps, p, gy, gx + 1) {
          var cx :| gx + 1 <= cx < 6 && Lit(g, cx, gy) && InCell(p, ox, oy, ps, cx, gy);
          assert RowCovered(g, ox, oy, ps, p, gy, gx);
        }
        if Lit(g, gx, gy) && InCell(p, ox, oy, ps, gx, gy) {
          assert RowCovered(g, ox, oy, ps, p, gy, gx);
        }
      }
    }
  }

  /** Some lit cell in rows `gy` and below covers `p`. */
  ghost predicate CoveredFrom(g: GlyphBits, ox: int, oy: int, ps: nat, p: Point, gy: nat) {
    exists cx, cy :: 0 <= cx < 6 && gy <= cy < 7 && Lit(g, cx, cy) && InCell(p, ox, oy, ps, cx, cy)
  }

  lemma CoveredFromStep(g: GlyphBits, ox: int, oy: int, ps: nat, p: Point, gy: nat)
    requires gy < 7
    ensures CoveredFrom(g, ox, oy, ps, p, gy) <==>
              RowCovered(g, ox, oy, ps, p, gy, 0) || CoveredFrom(g, ox, oy, ps, p, gy + 1)
  {
    if CoveredFrom(g, ox, oy, ps, p, gy) {
      var cx, cy :| 0 <= cx < 6 && gy <= cy < 7 && Lit(g, cx, cy) && InCell(p, ox, oy, ps, cx, cy);
      if cy > gy {
        assert CoveredFrom(g, ox, oy, ps, p, gy + 1);
      } else {
        assert RowCovered(g, ox, oy, ps, p, gy, 0);
      }
    }
    if RowCovered(g, ox, oy, ps, p, gy, 0) {
      var cx :| 0 <= cx < 6 && Lit(g, cx, gy) && InCell(p, ox, oy, ps, cx, gy);
      assert CoveredFrom(g, ox, oy, ps, p, gy);
    }
    if CoveredFrom(g, ox, oy, ps, p, gy + 1) {
      var cx, cy :| 0 <= cx < 6 && gy + 1 <= cy < 7 && Lit(g, cx, cy) && InCell(p, ox, oy, ps, cx, cy);
      assert CoveredFrom(g, ox, oy, ps, p, gy);
    }
  }

  /** A glyph writes exactly the blocks of its lit cells. */
  lemma {:induction false} GlyphPointsCover(g: GlyphBits, ox: int, oy: int, ps: nat, gy: nat)
    requires gy <= 7
    ensures forall p :: p in GlyphPoints(g, ox, oy, ps, gy) <==> CoveredFrom(g, ox, oy, ps, p, gy)
    decreases 7 - gy
  {
    if gy < 7 {
      GlyphRowCovers(g, ox, oy, ps, gy, 0);
      GlyphPointsCover(g, ox, oy, ps, gy + 1);
      forall p ensures p in GlyphPoints(g, ox, oy, ps, gy) <==> CoveredFrom(g, ox, oy, ps, p, gy) {
        CoveredFromStep(g, ox, oy, ps, p, gy);
      }
    }
  }

  /** Number of characters of `text` that have a glyph in `font`. */
  function GlyphCount(font: Font, text: string): (n: nat)
    ensures n <= |text|
  {
    if |text| == 0 then 0 else (if text[0] in font then 1 else 0) + GlyphCount(font, text[1..])
  }

  /** A glyph and the pen position it is drawn at. */
  datatype Placement = Placement(glyph: GlyphBits, x: int)

  /** The glyphs of `text` and their pen positions, starting at `penX`: a
      character without a glyph is skipped (`continue`) and does not move the
      pen; a drawn glyph moves it by (GLYPH_W + gap) * pixelScale. */
  function Placements(font: Font, text: string, penX: int, ps: nat): (r: seq<Placement>)
    ensures |r| == GlyphCount(font, text)
    decreases |text|
  {
    if |text| == 0 then []
    else if text[0] !in font then Placements(font, text[1..], penX, ps)
    else [Placement(font[text[0]], penX)] + Placements(font, text[1..], penX + 7 * ps, ps)
  }

  /** The pixel writes of the placed glyphs, in drawing order. */
  function Stamps(pl: seq<Placement>, oy: int, ps: nat): seq<Point>
    decreases |pl|
  {
    if |pl| == 0 then [] else GlyphPoints(pl[0].glyph, pl[0].x, oy, ps, 0) + Stamps(pl[1..], oy, ps)
  }

  /** Every pixel write of `text` drawn with the pen at `penX` and the top at `oy`. */
  function TextPoints(font: Font, text: string, penX: int, oy: int, ps: nat): seq<Point> {
    Stamps(Placements(font, text, penX, ps), oy, ps)
  }

  lemma {:induction false} GlyphCountSplit(font: Font, a: string, b: string)
    ensures GlyphCount(font, a + b) == GlyphCount(font, a) + GlyphCount(font, b)
    decreases |a|
  {
    if |a| > 0 {
      assert (a + b)[0] == a[0];
      assert (a + b)[1..] == a[1..] + b;
      GlyphCountSplit(font, a[1..], b);
    } else {
      assert a + b == b;
    }
  }

  lemma MulStep(k: int, j: int)
    ensures k * j == k * (j - 1) + k
  {
  }

  /** Glyph `j` is drawn at `penX + j * 7 * pixelScale`: the pen advances by the
      same amount for every glyph, whatever characters were skipped in between. */
  lemma {:induction false} PlacementsEvenlySpaced(font: Font, text: string, penX: int, ps: nat)
    ensures forall j | 0 <= j < GlyphCount(font, text) :: Placements(font, text, penX, ps)[j].x == penX + 7 * ps * j
    decreases |text|
  {
    if |text| > 0 {
      if text[0] !in font {
        PlacementsEvenlySpaced(font, text[1..], penX, ps);
        assert Placements(font, text, penX, ps) == Placements(font, text[1..], penX, ps);
      } else {
        PlacementsEvenlySpaced(font, text[1..], penX + 7 * ps, ps);
        var r := Placements(font, text, penX, ps);
        var rest := Placements(font, text[1..], penX + 7 * ps, ps);
        forall j | 1 <= j < |r| ensures r[j].x == penX + 7 * ps * j {
          assert r[j] == rest[j - 1];
          MulStep(7 * ps, j);
        }
      }
    }
  }

  /** Drawing a concatenation places the glyphs of the first part, then those
      of the second part with the pen advanced once per glyph of the first. */
  lemma {:induction false} PlacementsSplit(font: Font, a: string, b: string, x: int, ps: nat)
    ensures Placements(font, a + b, x, ps) ==
            Placements(font, a, x, ps) + Placements(font, b, x + 7 * ps * GlyphCount(font, a), ps)
    decreases |a|
  {
    if |a| == 0 {
      SplitEmpty(font, a, b, x, ps);
    } else if a[0] !in font {
      PlacementsSplit(font, a[1..], b, x, ps);
      SplitSkipping(font, a, b, x, ps);
    } else {
      PlacementsSplit(font, a[1..], b, x + 7 * ps, ps);
      SplitDrawing(font, a, b, x, ps);
    }
  }

  lemma SplitEmpty(font: Font, a: string, b: string, x: int, ps: nat)
    requires |a| == 0
    ensures Placements(font, a + b, x, ps) ==
            Placements(font, a, x, ps) + Placements(font, b, x + 7 * ps * GlyphCount(font, a), ps)
  {
    assert a + b == b;
  }

  /** The step of the split past a character without a glyph. */
  lemma SplitSkipping(font: Font, a: string, b: string, x: int, ps: nat)
    requires |a| > 0 && a[0] !in font
    requires Placements(font, a[1..] + b, x, ps) ==
             Placements(font, a[1..], x, ps) + Placements(font, b, x + 7 * ps * GlyphCount(font, a[1..]), ps)
    ensures Placements(font, a + b, x, ps) ==
            Placements(font, a, x, ps) + Placements(font, b, x + 7 * ps * GlyphCount(font, a), ps)
  {
    assert (a + b)[0] == a[0];
    assert (a + b)[1..] == a[1..] + b;
    assert GlyphCount(font, a) == GlyphCount(font, a[1..]);
  }

  /** The step of the split past a drawn glyph: the rest starts one advance
      further on. */
  lemma SplitDrawing(font: Font, a: string, b: string, x: int, ps: nat)
    requires |a| > 0 && a[0] in font
    requires Placements(font, a[1..] + b, x + 7 * ps, ps) ==
             Placements(font, a[1..], x + 7 * ps, ps)
             + Placements(font, b, x + 7 * ps + 7 * ps * GlyphCount(font, a[1..]), ps)
    ensures Placements(font, a + b, x, ps) ==
            Placements(font, a, x, ps) + Placements(font, b, x + 7 * ps * GlyphCount(font, a), ps)
  {
    var m := GlyphCount(font, a[1..]);
    var head := [Placement(font[a[0]], x)];
    var rest := Placements(font, a[1..], x + 7 * ps, ps);
    var tail := Placements(font, b, x + 7 * ps + 7 * ps * m, ps);
    assert (a + b)[1..] == a[1..] + b;
    assert Placements(font, a + b, x, ps) == head + (rest + tail);
    assert Placements(font, a, x, ps) == head + rest;
    assert GlyphCount(font, a) == 1 + m;
    Distribute(7 * ps, m);
    assert head + (rest + tail) == (head + rest) + tail;
  }

  lemma Distribute(k: int, m: int)
    ensures k * (1 + m) == k + k * m
  {
  }

  /** A character with no glyph draws nothing and leaves the pen where it was:
      removing it changes no glyph position and no pixel write. */
  lemma GlyphlessCharDrawsNothing(font: Font, text: string, i: nat, x: int, ps: nat)
    requires i < |text| && text[i] !in font
    ensures Placements(font, text[..i] + text[i + 1..], x, ps) == Placements(font, text, x, ps)
  {
    assert text == text[..i] + ([text[i]] + text[i + 1..]);
    RemoveGlyphless(font, text[..i], text[i], text[i + 1..], x, ps);
  }

  lemma RemoveGlyphless(font: Font, pre: string, c: char, post: string, x: int, ps: nat)
    requires c !in font
    ensures Placements(font, pre + post, x, ps) == Placements(font, pre + ([c] + post), x, ps)
  {
    SkipGlyphless(font, c, post, x + 7 * ps * GlyphCount(font, pre), ps);
    PlacementsSplit(font, pre, [c] + post, x, ps);
    PlacementsSplit(font, pre, post, x, ps);
  }

  lemma SkipGlyphless(font: Font, c: char, post: string, x: int, ps: nat)
    requires c !in font
    ensures Placements(font, [c] + post, x, ps) == Placements(font, post, x, ps)
  {
    assert ([c] + post)[1..] == post;
  }

  /** The glyph of a drawable character `i` is placed with the pen at
      7 * pixelScale times the number of glyphs before it. */
  lemma GlyphPosition(font: Font, text: string, i: nat, x: int, ps: nat)
    requires i < |text| && text[i] in font
    ensures var j := GlyphCount(font, text[..i]);
            && j < GlyphCount(font, text)
            && Placements(font, text, x, ps)[j] == Placement(font[text[i]], x + 7 * ps * j)
  {
    var pre, post := text[..i], text[i + 1..];
    assert text == pre + ([text[i]] + post);
    PlacementsSplit(font, pre, [text[i]] + post, x, ps);
    assert ([text[i]] + post)[1..] == post;
  }

  /** Some placed glyph has a lit cell covering `p`. */
  ghost predicate PlacedCovers(pl: seq<Placement>, oy: int, ps: nat, p: Point) {
    exists j :: 0 <= j < |pl| && CoveredFrom(pl[j].glyph, pl[j].x, oy, ps, p, 0)
  }

  lemma PlacedCoversStep(pl: seq<Placement>, oy: int, ps: nat, p: Point)
    requires |pl| > 0
    ensures PlacedCovers(pl, oy, ps, p) <==>
              CoveredFrom(pl[0].glyph, pl[0].x, oy, ps, p, 0) || PlacedCovers(pl[1..], oy, ps, p)
  {
    if PlacedCovers(pl, oy, ps, p) {
      var j :| 0 <= j < |pl| && CoveredFrom(pl[j].glyph, pl[j].x, oy, ps, p, 0);
      if j > 0 {
        assert pl[1..][j - 1] == pl[j];
      }
    }
    if PlacedCovers(pl[1..], oy, ps, p) {
      var j :| 0 <= j < |pl[1..]| && CoveredFrom(pl[1..][j].glyph, pl[1..][j].x, oy, ps, p, 0);
      assert pl[1..][j] == pl[j + 1];
    }
  }

  /** A point is written exactly when some placed glyph has a lit cell
      covering it. */
  lemma {:induction false} StampsCover(pl: seq<Placement>, oy: int, ps: nat)
    ensures forall p :: p in Stamps(pl, oy, ps) <==> PlacedCovers(pl, oy, ps, p)
    decreases |pl|
  {
    if |pl| > 0 {
      StampsCover(pl[1..], oy, ps);
      GlyphPointsCover(pl[0].glyph, pl[0].x, oy, ps, 0);
      forall p ensures p in Stamps(pl, oy, ps) <==> PlacedCovers(pl, oy, ps, p) {
        PlacedCoversStep(pl, oy, ps, p);
      }
    }
  }

  // Layout.

  function Min(a: int, b: int): int { if a <= b then a else b }
  function Max(a: int, b: int): int { if a >= b then a else b }

  /** `digits.length * GLYPH_W + (digits.length - 1) * gap`. */
  function RawWidth(n: nat): int {
    6 * n + (n - 1)
  }

  /** `floor(min(size * 0.92 / rawWidth, size * 0.92 / GLYPH_H))`, in exact
      rational arithmetic. */
  function FittedScale(size: nat, n: nat): int
    requires n >= 1
  {
    Min((92 * size) / (100 * RawWidth(n)), (92 * size) / (100 * 7))
  }

  /** `max(1, floor(...))`. For the empty text the width term is negative and
      the scale is 1. */
  function PixelScale(size: nat, n: nat): (ps: nat)
    ensures ps >= 1
    ensures n >= 1 ==> ps == Max(1, FittedScale(size, n))
  {
    if n == 0 then 1 else Max(1, FittedScale(size, n))
  }

  /** `Math.round(size / 2 - extent / 2)`: JavaScript rounds halves up. */
  function CentredStart(size: nat, extent: int): int {
    (size - extent + 1) / 2
  }

  datatype Layout = Layout(pixelScale: nat, totalW: int, totalH: int, startX: int, startY: int)

  function TextLayout(size: nat, n: nat): Layout {
    var ps := PixelScale(size, n);
    var w := RawWidth(n) * ps;
    var h := 7 * ps;
    Layout(ps, w, h, CentredStart(size, w), CentredStart(size, h))
  }

  /** `drawTextMaxSize`: every pixel of the canvas ends with the colour exactly
      when a lit cell of one of the text's glyphs covers it at the computed
      layout, and every other byte keeps its value. */
  function DrawTextMaxSize(data: Pixels, size: nat, text: string, color: Rgb): (r: Pixels)
    requires IsCanvas(data, size)
    ensures IsCanvas(r, size)
    ensures var l := TextLayout(size, |text|);
            var pl := Placements(FontGlyphs, text, l.startX, l.pixelScale);
            forall q, k | InBounds(size, q) && 0 <= k < 4 ::
              Px(r, size, q, k) ==
                if PlacedCovers(pl, l.startY, l.pixelScale, q) then Channel(color, k)
                else Px(data, size, q, k)
  {
    var l := TextLayout(size, |text|);
    StampsCover(Placements(FontGlyphs, text, l.startX, l.pixelScale), l.startY, l.pixelScale);
    PaintAll(data, size, TextPoints(FontGlyphs, text, l.startX, l.startY, l.pixelScale), color)
  }

  /** `generateScoreIcon`: `String(score)` on a transparent canvas. */
  function ScoreIconPixels(size: nat, score: int, color: Rgb): (r: Pixels)
    ensures IsCanvas(r, size)
  {
    DrawTextMaxSize(Blank(size), size, IntToString(score), color)
  }

  // Properties of the layout.

  lemma DivMulLeq(a: nat, b: nat)
    requires b > 0
    ensures (a / b) * b <= a
  {
  }

  /** When the fitted scale is at least 1 (so `max` does not force it), the
      rendered text is at most 92% of the canvas in each direction. */
  lemma FittedTextWithin92Percent(size: nat, n: nat)
    requires n >= 1 && FittedScale(size, n) >= 1
    ensures var l := TextLayout(size, n);
            100 * l.totalW <= 92 * size && 100 * l.totalH <= 92 * size
  {
    var ps := PixelScale(size, n);
    assert ps == FittedScale(size, n);
    var w := 100 * RawWidth(n);
    assert ps <= (92 * size) / w;
    MulLeq(ps, (92 * size) / w, w);
    DivMulLeq(92 * size, w);
    assert 100 * (RawWidth(n) * ps) == ps * w;
    assert ps <= (92 * size) / 700;
    MulLeq(ps, (92 * size) / 700, 700);
    DivMulLeq(92 * size, 700);
  }

  /** An extent that fits is centred entirely inside the canvas. */
  lemma CentredFits(size: nat, extent: int)
    requires 0 <= extent <= size
    ensures 0 <= CentredStart(size, extent) && CentredStart(size, extent) + extent <= size
  {
  }

  lemma CellInsideGlyph(p: Point, ox: int, oy: int, ps: nat, cx: int, cy: int)
    requires 0 <= cx < 6 && 0 <= cy < 7 && InCell(p, ox, oy, ps, cx, cy)
    ensures ox <= p.x < ox + 6 * ps && oy <= p.y < oy + 7 * ps
  {
    MulLeq(cx + 1, 6, ps);
    MulLeq(cy + 1, 7, ps);
    assert (cx + 1) * ps == cx * ps + ps;
    assert (cy + 1) * ps == cy * ps + ps;
  }

  lemma WidthArith(n: nat, ps: int)
    ensures RawWidth(n) * ps == 7 * ps * (n - 1) + 6 * ps
  {
    assert RawWidth(n) == 7 * (n - 1) + 6;
  }

  /** A point covered by evenly spaced glyphs lies in their joint box. */
  lemma PlacedInBox(pl: seq<Placement>, x: int, y: int, ps: nat, p: Point)
    requires forall j | 0 <= j < |pl| :: pl[j].x == x + 7 * ps * j
    requires PlacedCovers(pl, y, ps, p)
    ensures x <= p.x < x + RawWidth(|pl|) * ps && y <= p.y < y + 7 * ps
  {
    var j :| 0 <= j < |pl| && CoveredFrom(pl[j].glyph, pl[j].x, y, ps, p, 0);
    var cx, cy :| 0 <= cx < 6 && 0 <= cy < 7 && Lit(pl[j].glyph, cx, cy) && InCell(p, pl[j].x, y, ps, cx, cy);
    CellInsideGlyph(p, pl[j].x, y, ps, cx, cy);
    GlyphColumnInBox(x, j, |pl|, ps, p.x);
  }

  lemma GlyphColumnInBox(x: int, j: nat, n: nat, ps: nat, px: int)
    requires j < n && x + 7 * ps * j <= px < x + 7 * ps * j + 6 * ps
    ensures x <= px < x + RawWidth(n) * ps
  {
    MulLeq(j, n - 1, 7 * ps);
    WidthArith(n, ps);
  }

  /** Every write for `text` lies in the box of its glyphs: `7 * count - 1`
      scaled cells wide and 7 tall, starting at the pen. */
  lemma TextPointsInBox(font: Font, text: string, x: int, y: int, ps: nat)
    ensures forall p | p in TextPoints(font, text, x, y, ps) ::
              x <= p.x < x + RawWidth(GlyphCount(font, text)) * ps && y <= p.y < y + 7 * ps
  {
    var pl := Placements(font, text, x, ps);
    StampsCover(pl, y, ps);
    PlacementsEvenlySpaced(font, text, x, ps);
    forall p | p in Stamps(pl, y, ps)
      ensures x <= p.x < x + RawWidth(|pl|) * ps && y <= p.y < y + 7 * ps
    {
      PlacedInBox(pl, x, y, ps, p);
    }
  }

  /** When the fitted scale is at least 1, no write of the text is clipped:
      every pixel a glyph covers lies inside the canvas. */
  lemma FittedTextIsNotClipped(size: nat, text: string)
    requires |text| >= 1 && FittedScale(size, |text|) >= 1
    ensures var l := TextLayout(size, |text|);
            forall p | p in TextPoints(FontGlyphs, text, l.startX, l.startY, l.pixelScale) :: InBounds(size, p)
  {
    var l := TextLayout(size, |text|);
    var n := GlyphCount(FontGlyphs, text);
    FittedTextWithin92Percent(size, |text|);
    CentredFits(size, l.totalW);
    CentredFits(size, l.totalH);
    TextPointsInBox(FontGlyphs, text, l.startX, l.startY, l.pixelScale);
    if n >= 1 {
      MulLeq(RawWidth(n), RawWidth(|text|), l.pixelScale);
    }
  }

  /** `String(score)` of a non-negative score is all digits, so every character
      is drawn; a negative score's '-' is not drawn but still widens the layout. */
  lemma ScoreTextGlyphs(score: int)
    ensures score >= 0 ==> GlyphCount(FontGlyphs, IntToString(score)) == |IntToString(score)|
    ensures score < 0 ==> GlyphCount(FontGlyphs, IntToString(score)) == |IntToString(score)| - 1
  {
    FontKeys();
    var t := IntToString(score);
    if score >= 0 {
      AllDigitsAllDrawn(t);
    } else {
      assert t == [t[0]] + t[1..];
      GlyphCountSplit(FontGlyphs, [t[0]], t[1..]);
      AllDigitsAllDrawn(t[1..]);
    }
  }

  lemma {:induction false} AllDigitsAllDrawn(t: string)
    requires AllDigits(t)
    ensures GlyphCount(FontGlyphs, t) == |t|
    decreases |t|
  {
    if |t| > 0 {
      FontKeys();
      AllDigitsAllDrawn(t[1..]);
    }
  }
}

=== FILE: canvas.dfy ===
/** A square RGBA pixel buffer as the badge renderer fills it (the
    `Uint8ClampedArray` behind an `ImageData`, src/common/badge.ts): row-major,
    four bytes per pixel. Only the opaque single-colour write used by the
    bitmap text renderer is modelled; the alpha-blending primitives work in
    floating point and are not part of this model. */
module Canvas {

  datatype Rgb = Rgb(r: bv8, g: bv8, b: bv8)

  datatype Point = Point(x: int, y: int)

  type Pixels = seq<bv8>

  predicate IsCanvas(data: Pixels, size: nat) {
    |data| == size * size * 4
  }

  predicate InBounds(size: nat, p: Point) {
    0 <= p.x < size && 0 <= p.y < size
  }

  lemma MulLeq(a: int, b: int, c: int)
    requires 0 <= a <= b && 0 <= c
    ensures a * c <= b * c
  {
  }

  /** `(py * size + px) * 4`: the first byte of an in-bounds pixel. */
  function Offset(size: nat, p: Point): (o: nat)
    requires InBounds(size, p)
    ensures o + 3 < size * size * 4
  {
    MulLeq(p.y, size - 1, size);
    (p.y * size + p.x) * 4
  }

  /** Byte `k` (0 = red, 1 = green, 2 = blue, 3 = alpha) of pixel `p`. */
  function Px(data: Pixels, size: nat, p: Point, k: nat): bv8
    requires IsCanvas(data, size) && InBounds(size, p) && k < 4
  {
    data[Offset(size, p) + k]
  }

  /** Distinct pixels occupy disjoint four-byte groups. */
  lemma OffsetsDisjoint(size: nat, p: Point, q: Point)
    requires InBounds(size, p) && InBounds(size, q) && p != q
    ensures Offset(size, p) + 4 <= Offset(size, q) || Offset(size, q) + 4 <= Offset(size, p)
  {
    if p.y < q.y {
      RowOrder(size, p, q);
    } else if q.y < p.y {
      RowOrder(size, q, p);
    }
  }

  lemma RowOrder(size: nat, p: Point, q: Point)
    requires InBounds(size, p) && InBounds(size, q) && p.y < q.y
    ensures p.y * size + p.x < q.y * size + q.x
  {
    MulLeq(p.y + 1, q.y, size);
    assert (p.y + 1) * size == p.y * size + size;
  }

  /** Every byte of the buffer is byte `i % 4` of some in-bounds pixel, so a
      statement about all pixels and channels covers the whole buffer. */
  lemma EveryByteBelongsToAPixel(size: nat, i: nat)
    requires i < size * size * 4
    ensures var p := Point((i / 4) % size, (i / 4) / size);
            InBounds(size, p) && Offset(size, p) + i % 4 == i
  {
    var j := i / 4;
    assert j < size * size;
    assert size > 0;
    var p := Point(j % size, j / size);
    assert j == (j / size) * size + j % size;
    if j / size >= size {
      MulLeq(size, j / size, size);
      assert false;
    }
  }

  /** Byte `k` of colour `c` written with full opacity. */
  function Channel(c: Rgb, k: nat): bv8
    requires k < 4
  {
    if k == 0 then c.r else if k == 1 then c.g else if k == 2 then c.b else 255
  }

  /** `new Uint8ClampedArray(size * size * 4)`: fully transparent black. */
  function Blank(size: nat): (r: Pixels)
    ensures IsCanvas(r, size)
    ensures forall i :: 0 <= i < |r| ==> r[i] == 0
  {
    seq(size * size * 4, _ => 0)
  }

  /** The guarded write of the text renderer: a pixel inside the canvas gets
      the colour with alpha 255; a point outside is ignored. */
  function PaintPixel(data: Pixels, size: nat, p: Point, color: Rgb): (r: Pixels)
    requires IsCanvas(data, size)
    ensures IsCanvas(r, size)
    ensures forall q, k | InBounds(size, q) && 0 <= k < 4 ::
              Px(r, size, q, k) == if q == p then Channel(color, k) else Px(data, size, q, k)
  {
    if InBounds(size, p) then
      var o := Offset(size, p);
      var r := data[o := color.r][o + 1 := color.g][o + 2 := color.b][o + 3 := 255];
      assert forall q | InBounds(size, q) && q != p ::
        Offset(size, p) + 4 <= Offset(size, q) || Offset(size, q) + 4 <= Offset(size, p) by {
        forall q | InBounds(size, q) && q != p {
          OffsetsDisjoint(size, p, q);
        }
      }
      r
    else
      data
  }

  /** Writes the points in order. The result is independent of the order: a
      pixel ends with the colour exactly when one of the points is that pixel,
      and every other byte keeps its value. */
  function PaintAll(data: Pixels, size: nat, pts: seq<Point>, color: Rgb): (r: Pixels)
    requires IsCanvas(data, size)
    ensures IsCanvas(r, size)
    ensures forall q, k | InBounds(size, q) && 0 <= k < 4 ::
              Px(r, size, q, k) == if q in pts then Channel(color, k) else Px(data, size, q, k)
    decreases |pts|
  {
    if |pts| == 0 then data
    else
      var rest := PaintAll(PaintPixel(data, size, pts[0], color), size, pts[1..], color);
      assert forall q :: q in pts <==> q == pts[0] || q in pts[1..];
      rest
  }
}

=== FILE: content_bar.dfy ===
/** The content script's trust bar (src/content/index.ts) as a small state
    machine over the page: the bar hosts of this script that are attached to
    the document, with their styles, and the script's handle on its current
    bar. The page itself may detach a host at any time (`Detach`). The bar
    host and the bar element inside its shadow root are created, kept and
    dropped together, so one handle stands for both. */
module ContentBar {
  import opened Types
  import opened Strings
  import Background

  /** The style properties the script sets: the bar's colour and height, the
      host's `top` and `bottom`. */
  datatype BarStyle = BarStyle(color: string, height: string, top: string, bottom: string)

  datatype Page = Page(
    attached: map<nat, BarStyle>,   // this script's hosts in the document
    handle: Option<nat>,            // barHost / barElement
    nextHost: nat)

  const Initial: Page := Page(map[], None, 0)

  /** At most one bar in the document, and it is the one the script holds;
      host ids are fresh. */
  predicate Valid(p: Page) {
    && (forall h | h in p.attached :: p.handle == Some(h))
    && (forall h | h in p.attached :: h < p.nextHost)
    && (p.handle.Some? ==> p.handle.value < p.nextHost)
  }

  /** `COLORS[riskLevel] || COLORS.green`; every risk level has an entry, so
      the fallback is never taken. */
  function BarColor(level: RiskLevel): (c: string)
    ensures c in {"#22c55e", "#eab308", "#ef4444"}
    ensures c == "#22c55e" <==> level == Green
    ensures c == "#ef4444" <==> level == Red
  {
    match level
    case Green => "#22c55e"
    case Yellow => "#eab308"
    case Red => "#ef4444"
  }

  /** The style `updateBar` gives an enabled bar. */
  function StyleFor(data: TrustBarData): (s: BarStyle)
    ensures s.color == BarColor(data.riskLevel)
    ensures s.height == IntToString(data.size) + "px"
    ensures data.position == Top ==> s.top == "0" && s.bottom == "auto"
    ensures data.position == Bottom ==> s.top == "auto" && s.bottom == "0"
  {
    var placed := if data.position == Top then ("0", "auto") else ("auto", "0");
    BarStyle(BarColor(data.riskLevel), IntToString(data.size) + "px", placed.0, placed.1)
  }

  /** `removeBar`: detach the held bar if it is still attached, then drop the
      handle. */
  function RemoveBar(p: Page): (r: Page)
    ensures r.handle.None?
    ensures Valid(p) ==> Valid(r) && r.attached == map[]
    ensures forall h | h in r.attached :: h in p.attached && r.attached[h] == p.attached[h]
  {
    var kept := if p.handle.Some? && p.handle.value in p.attached then p.attached - {p.handle.value} else p.attached;
    Page(kept, None, p.nextHost)
  }

  /** `updateBar(data)`. */
  function UpdateBar(p: Page, data: Option<TrustBarData>): (r: Page)
    ensures data.None? || !data.value.enabled ==> r == RemoveBar(p)
    ensures Valid(p) ==> Valid(r)
    // An enabled bar: exactly one host attached, styled from the data.
    ensures Valid(p) && data.Some? && data.value.enabled ==>
              && r.handle.Some?
              && r.attached.Keys == {r.handle.value}
              && r.attached[r.handle.value] == StyleFor(data.value)
    // The held bar is reused while attached, replaced when it was detached.
    ensures data.Some? && data.value.enabled && p.handle.Some? && p.handle.value in p.attached ==>
              r.handle == p.handle && r.nextHost == p.nextHost
    ensures data.Some? && data.value.enabled && !(p.handle.Some? && p.handle.value in p.attached) ==>
              r.handle == Some(p.nextHost) && r.nextHost == p.nextHost + 1
  {
    if data.None? || !data.value.enabled then RemoveBar(p)
    else
      var style := StyleFor(data.value);
      if p.handle.Some? && p.handle.value in p.attached then
        p.(attached := p.attached[p.handle.value := style])
      else
        Page(p.attached[p.nextHost := style], Some(p.nextHost), p.nextHost + 1)
  }

  /** The page removes one of the script's hosts from the document. */
  function Detach(p: Page, host: nat): (r: Page)
    ensures host !in r.attached && r.handle == p.handle
    ensures Valid(p) ==> Valid(r)
  {
    p.(attached := p.attached - {host})
  }

  /** Messages from the background: only `UPDATE_BAR` is acted on. */
  datatype ContentMessage = UpdateBarMessage(data: Option<TrustBarData>) | OtherMessage

  function OnMessage(p: Page, msg: ContentMessage): (r: Page)
    ensures msg.OtherMessage? ==> r == p
    ensures msg.UpdateBarMessage? ==> r == UpdateBar(p, msg.data)
  {
    match msg
    case UpdateBarMessage(data) => UpdateBar(p, data)
    case OtherMessage => p
  }

  /** The `GET_BAR_DATA` request made on load: a rejected request (None) and
      a null answer leave the page alone; unlike an `UPDATE_BAR` with null
      data, which removes the bar. */
  function OnLoad(p: Page, answer: Option<Option<TrustBarData>>): (r: Page)
    ensures answer.None? || answer.value.None? ==> r == p
    ensures answer.Some? && answer.value.Some? ==> r == UpdateBar(p, answer.value)
  {
    if answer.Some? && answer.value.Some? then UpdateBar(p, answer.value) else p
  }

  /** Whatever sequence of updates and page detachments happens, there is
      never more than one bar in the document. */
  lemma {:induction false} AtMostOneBar(p: Page, events: seq<Event>)
    requires Valid(p)
    ensures Valid(Replay(p, events))
    ensures |Replay(p, events).attached| <= 1
    decreases |events|
  {
    if |events| > 0 {
      AtMostOneBar(Step(p, events[0]), events[1..]);
    } else {
      OneHeldBar(p);
    }
  }

  /** A valid page has at most the held bar attached. */
  lemma OneHeldBar(p: Page)
    requires Valid(p)
    ensures |p.attached| <= 1
  {
    if p.handle.Some? && p.handle.value in p.attached {
      assert p.attached.Keys == {p.handle.value};
    } else {
      assert p.attached.Keys == {};
    }
  }

  /** What can happen to the bar: a message, or the page removing a host. */
  datatype Event = Message(msg: ContentMessage) | PageRemoves(host: nat)

  function Step(p: Page, e: Event): (r: Page)
    ensures Valid(p) ==> Valid(r)
  {
    match e
    case Message(msg) => OnMessage(p, msg)
    case PageRemoves(host) => Detach(p, host)
  }

  /** The page after a run of events. */
  function Replay(p: Page, events: seq<Event>): Page
    decreases |events|
  {
    if |events| == 0 then p else Replay(Step(p, events[0]), events[1..])
  }

  /** From the background's lookup to the page: the bar shows exactly when
      the trust bar is enabled and the scan has a risk level, in that level's
      colour, at the configured height and edge. */
  lemma BarFollowsLookup(p: Page, data: LookupResponse, settings: ExtensionSettings)
    requires Valid(p)
    ensures var r := UpdateBar(p, Background.BuildBarData(data, settings));
            && (r.attached != map[] <==> settings.trustBarEnabled && data.scan.Some? && data.scan.value.riskLevel.Some?)
            && (r.attached != map[] ==>
                  && r.handle.Some?
                  && r.attached[r.handle.value].color == BarColor(data.scan.value.riskLevel.value)
                  && r.attached[r.handle.value].height == IntToString(settings.trustBarSize) + "px"
                  && (r.attached[r.handle.value].top == "0" <==> settings.trustBarPosition == Top))
  {
    var bar := Background.BuildBarData(data, settings);
    var r := UpdateBar(p, bar);
    if bar.Some? {
      assert r.handle.value in r.attached;
    }
  }
}

=== FILE: crc32.dfy ===
/** The CRC-32 of the build-time icon generator (build/generate-icons.js): the
    reflected CRC with polynomial 0xEDB88320, register preset to all ones and
    final complement, as section 3.4 of RFC 2083 (PNG) prescribes for chunk
    checksums, computed a byte at a time through a 256-entry table.

    JavaScript's `^` yields a signed 32-bit integer and `>>> 0` reinterprets it
    as unsigned; both views hold the same 32 bits, which is what `bv32` is. */
module Crc32 {

  /** One bit-step of the reflected register: shift right, folding the
      polynomial 0xEDB88320 back in when the bit shifted out was set. */
  function Round(c: bv32): bv32 {
    if c & 1 == 1 then 0xEDB8_8320 ^ (c >> 1) else c >> 1
  }

  /** `k` bit-steps. */
  function Rounds(c: bv32, k: nat): bv32 {
    if k == 0 then c else Round(Rounds(c, k - 1))
  }

  /** `crcTable[n]`: eight bit-steps from `n`. */
  function TableEntry(n: bv8): bv32 {
    Rounds(n as bv32, 8)
  }

  lemma RoundsNext(start: bv32, k: nat)
    ensures Rounds(start, k + 1) == Round(Rounds(start, k))
  {
  }

  /** The inner loop of the table initialiser: eight conditional shifts. */
  method ComputeEntry(n: bv8) returns (c: bv32)
    ensures c == TableEntry(n)
  {
    c := n as bv32;
    var k := 0;
    while k < 8
      invariant 0 <= k <= 8
      invariant c == Rounds(n as bv32, k)
    {
      RoundsNext(n as bv32, k);
      if c & 1 == 1 {
        c := 0xEDB8_8320 ^ (c >> 1);
      } else {
        c := c >> 1;
      }
      k := k + 1;
    }
  }

  /** The table initialiser: one entry for each `n` below 256. */
  method BuildCrcTable() returns (table: seq<bv32>)
    ensures |table| == 256
    ensures forall n | 0 <= n < 256 :: table[n] == TableEntry(n as bv8)
  {
    table := [];
    var n := 0;
    while n < 256
      invariant 0 <= n <= 256 && |table| == n
      invariant forall i | 0 <= i < n :: table[i] == TableEntry(i as bv8)
    {
      var c := ComputeEntry(n as bv8);
      table := table + [c];
      n := n + 1;
    }
  }

  /** A table as the initialiser leaves it. */
  predicate IsCrcTable(table: seq<bv32>) {
    |table| == 256 && forall n | 0 <= n < 256 :: table[n] == TableEntry(n as bv8)
  }

  /** `(c ^ buf[i]) & 0xff`: the table index for the next byte. */
  function Index(c: bv32, b: bv8): (i: nat)
    ensures i < 256
  {
    ((c ^ b as bv32) & 0xFF) as int
  }

  /** The register after one more byte. */
  function Update(c: bv32, b: bv8): bv32 {
    (c >> 8) ^ TableEntry(((c ^ b as bv32) & 0xFF) as bv8)
  }

  /** The register after the bytes `s`, starting from all ones. */
  function Register(s: seq<bv8>): bv32 {
    if |s| == 0 then 0xFFFF_FFFF else Update(Register(s[..|s| - 1]), s[|s| - 1])
  }

  /** `crc32(buf)`: the complemented register. */
  function Crc(s: seq<bv8>): bv32 {
    Register(s) ^ 0xFFFF_FFFF
  }


  /** The register update as the loop writes it, through a given table. */
  function UpdateWith(table: seq<bv32>, c: bv32, b: bv8): bv32
    requires |table| == 256
  {
    (c >> 8) ^ table[Index(c, b)]
  }

  function RegisterWith(table: seq<bv32>, s: seq<bv8>): bv32
    requires |table| == 256
  {
    if |s| == 0 then 0xFFFF_FFFF else UpdateWith(table, RegisterWith(table, s[..|s| - 1]), s[|s| - 1])
  }

  /** Through the initialiser's table, a lookup is the eight-step update. */
  lemma TableLookup(table: seq<bv32>, c: bv32, b: bv8)
    requires IsCrcTable(table)
    ensures UpdateWith(table, c, b) == Update(c, b)
  {
    var idx := ((c ^ b as bv32) & 0xFF) as bv8;
    assert idx as int == Index(c, b);
  }

  lemma {:induction false} RegisterWithTable(table: seq<bv32>, s: seq<bv8>)
    requires IsCrcTable(table)
    ensures RegisterWith(table, s) == Register(s)
  {
    if |s| > 0 {
      RegisterWithTable(table, s[..|s| - 1]);
      TableLookup(table, RegisterWith(table, s[..|s| - 1]), s[|s| - 1]);
    }
  }

  /** `crc32` as written: one table lookup per byte. */
  method Crc32Loop(table: seq<bv32>, buf: seq<bv8>) returns (crc: bv32)
    requires IsCrcTable(table)
    ensures crc == Crc(buf)
  {
    var c: bv32 := 0xFFFF_FFFF;
    var i := 0;
    while i < |buf|
      invariant 0 <= i <= |buf|
      invariant c == RegisterWith(table, buf[..i])
    {
      assert buf[..i + 1][..i] == buf[..i];
      c := UpdateWith(table, c, buf[i]);
      i := i + 1;
    }
    assert buf[..|buf|] == buf;
    RegisterWithTable(table, buf);
    crc := c ^ 0xFFFF_FFFF;
  }

  /** The CRC of no bytes is 0. */
  lemma EmptyCrc()
    ensures Crc([]) == 0
  {
  }

  /** Five entries of the standard CRC-32 table: the second, and the four the
      IEND checksum looks up. */
  lemma TableSamples()
    ensures TableEntry(1) == 0x7707_3096
    ensures TableEntry(0x03) == 0x9909_51BA
    ensures TableEntry(0x1D) == 0x6306_6CD9
    ensures TableEntry(0x31) == 0x51DE_003A
    ensures TableEntry(0xB6) == 0x2202_16B9
  {
    assert Rounds(0x1, 1) == 0xEDB8_8320;
    assert Rounds(0x1, 2) == 0x76DC_4190;
    assert Rounds(0x1, 3) == 0x3B6E_20C8;
    assert Rounds(0x1, 4) == 0x1DB7_1064;
    assert Rounds(0x1, 5) == 0x0EDB_8832;
    assert Rounds(0x1, 6) == 0x076D_C419;
    assert Rounds(0x1, 7) == 0xEE0E_612C;
    assert Rounds(0x1, 8) == 0x7707_3096;
    Entry03();
    Entry1D();
    Entry31();
    EntryB6();
  }

  // The four entries the IEND checksum below looks up.

  lemma EntryB6()
    ensures TableEntry(0xB6) == 0x2202_16B9
  {
    assert Rounds(0xb6, 1) == 0x0000_005B;
    assert Rounds(0xb6, 2) == 0xEDB8_830D;
    assert Rounds(0xb6, 3) == 0x9B64_C2A6;
    assert Rounds(0xb6, 4) == 0x4DB2_6153;
    assert Rounds(0xb6, 5) == 0xCB61_B389;
    assert Rounds(0xb6, 6) == 0x8808_5AE4;
    assert Rounds(0xb6, 7) == 0x4404_2D72;
    assert Rounds(0xb6, 8) == 0x2202_16B9;
  }

  lemma Entry03()
    ensures TableEntry(0x03) == 0x9909_51BA
  {
    assert Rounds(0x3, 1) == 0xEDB8_8321;
    assert Rounds(0x3, 2) == 0x9B64_C2B0;
    assert Rounds(0x3, 3) == 0x4DB2_6158;
    assert Rounds(0x3, 4) == 0x26D9_30AC;
    assert Rounds(0x3, 5) == 0x136C_9856;
    assert Rounds(0x3, 6) == 0x09B6_4C2B;
    assert Rounds(0x3, 7) == 0xE963_A535;
    assert Rounds(0x3, 8) == 0x9909_51BA;
  }

  lemma Entry1D()
    ensures TableEntry(0x1D) == 0x6306_6CD9
  {
    assert Rounds(0x1d, 1) == 0xEDB8_832E;
    assert Rounds(0x1d, 2) == 0x76DC_4197;
    assert Rounds(0x1d, 3) == 0xD6D6_A3EB;
    assert Rounds(0x1d, 4) == 0x86D3_D2D5;
    assert Rounds(0x1d, 5) == 0xAED1_6A4A;
    assert Rounds(0x1d, 6) == 0x5768_B525;
    assert Rounds(0x1d, 7) == 0xC60C_D9B2;
    assert Rounds(0x1d, 8) == 0x6306_6CD9;
  }

  lemma Entry31()
    ensures TableEntry(0x31) == 0x51DE_003A
  {
    assert Rounds(0x31, 1) == 0xEDB8_8338;
    assert Rounds(0x31, 2) == 0x76DC_419C;
    assert Rounds(0x31, 3) == 0x3B6E_20CE;
    assert Rounds(0x31, 4) == 0x1DB7_1067;
    assert Rounds(0x31, 5) == 0xE363_0B13;
    assert Rounds(0x31, 6) == 0x9C09_06A9;
    assert Rounds(0x31, 7) == 0xA3BC_0074;
    assert Rounds(0x31, 8) == 0x51DE_003A;
  }

  /** The CRC over the type field of the empty IEND chunk is AE 42 60 82, the
      four bytes every PNG file ends with. */
  lemma IendCrc()
    ensures Crc([0x49, 0x45, 0x4E, 0x44]) == 0xAE42_6082
  {
    var s: seq<bv8> := [0x49, 0x45, 0x4E, 0x44];
    assert s[..1][..0] == [] && s[..2][..1] == s[..1] && s[..3][..2] == s[..2] && s[..3] == s[..|s| - 1];
    EntryB6();
    assert Register(s[..1]) == 0x22FD_E946;
    Entry03();
    assert Register(s[..2]) == 0x992B_AC53;
    Entry1D();
    assert Register(s[..3]) == 0x639F_4775;
    Entry31();
    assert Register(s) == 0x51BD_9F7D;
  }
}

=== FILE: domain_utils.dfy ===
/** Which hostnames are never sent to the scoring API (src/common/domain-utils.ts):
    a fixed skip set, the private IPv4 ranges written as a prefix pattern, and
    IPv6 loopback, link-local and unique-local literals. */
module DomainUtils {
  import opened Strings

  const SkipDomains: set<string> := {"localhost", "127.0.0.1", "0.0.0.0", "10.0.2.2", "[::1]"}

  /** `/^(192\.168\.|10\.|172\.(1[6-9]|2\d|3[01])\.)/`, read character by character. */
  predicate PrivateIPv4Prefix(h: string) {
    || StartsWith(h, "192.168.")
    || StartsWith(h, "10.")
    || (&& StartsWith(h, "172.") && |h| >= 7 && h[6] == '.'
        && (|| (h[4] == '1' && '6' <= h[5] <= '9')
            || (h[4] == '2' && IsDigit(h[5]))
            || (h[4] == '3' && (h[5] == '0' || h[5] == '1'))))
  }

  /** `hostname.replace(/^\[|\]$/g, '')`: one leading `[` and one trailing `]`
      are dropped. */
  function StripBrackets(h: string): (r: string)
    ensures |r| <= |h|
  {
    var a := if |h| > 0 && h[0] == '[' then h[1..] else h;
    if |a| > 0 && a[|a| - 1] == ']' then a[..|a| - 1] else a
  }

  /** `isLocalDomain` of the shared module. */
  predicate IsLocalDomain(h: string) {
    || h in SkipDomains
    || PrivateIPv4Prefix(h)
    || h == "::1"
    || StartsWithIgnoringCase(StripBrackets(h), "fe80:")
    || StartsWithIgnoringCase(StripBrackets(h), "fc")
    || StartsWithIgnoringCase(StripBrackets(h), "fd")
  }

  // An independent description of the IPv4 pattern: the eighteen literal
  // prefixes it accepts.

  function SecondOctetPrefix(n: nat): string
    requires 16 <= n <= 31
  {
    "172." + NatToString(n) + "."
  }

  ghost predicate InPrivatePrefixList(h: string) {
    || StartsWith(h, "192.168.")
    || StartsWith(h, "10.")
    || exists n :: 16 <= n <= 31 && StartsWith(h, SecondOctetPrefix(n))
  }

  lemma TwoDigitString(n: nat)
    requires 10 <= n < 100
    ensures NatToString(n) == [DigitChar(n / 10), DigitChar(n % 10)]
  {
  }

  /** The prefix for N, character by character. */
  lemma SecondOctetChars(n: nat)
    requires 16 <= n <= 31
    ensures var p := SecondOctetPrefix(n);
            && |p| == 7 && p[..4] == "172." && p[6] == '.'
            && p[4] == DigitChar(n / 10) && p[5] == DigitChar(n % 10)
  {
    TwoDigitString(n);
  }

  /** The character-class pattern accepts exactly the hostnames that start with
      `192.168.`, `10.`, or `172.N.` for some N from 16 to 31. */
  lemma PrivatePatternIsPrefixList(h: string)
    ensures PrivateIPv4Prefix(h) <==> InPrivatePrefixList(h)
  {
    if PrivateIPv4Prefix(h) {
      PatternInList(h);
    }
    if InPrivatePrefixList(h) {
      ListInPattern(h);
    }
  }

  lemma PatternInList(h: string)
    requires PrivateIPv4Prefix(h)
    ensures InPrivatePrefixList(h)
  {
    if !StartsWith(h, "192.168.") && !StartsWith(h, "10.") {
      var n := 10 * DigitValue(h[4]) + DigitValue(h[5]);
      assert 16 <= n <= 31;
      SecondOctetChars(n);
      assert h[..7] == SecondOctetPrefix(n);
    }
  }

  lemma ListInPattern(h: string)
    requires InPrivatePrefixList(h)
    ensures PrivateIPv4Prefix(h)
  {
    if !StartsWith(h, "192.168.") && !StartsWith(h, "10.") {
      var n :| 16 <= n <= 31 && StartsWith(h, SecondOctetPrefix(n));
      var p := SecondOctetPrefix(n);
      SecondOctetChars(n);
      assert h[..7] == p;
      assert h[..4] == p[..4];
      assert h[4] == p[4] && h[5] == p[5] && h[6] == p[6];
    }
  }

  /** The five skip-set literals and bare `::1` are local. */
  lemma LoopbackLiteralsAreLocal()
    ensures forall h :: h in SkipDomains ==> IsLocalDomain(h)
    ensures IsLocalDomain("::1")
  {
  }

  /** A hostname that is not a skip literal, not bracketed and does not begin
      with `f` or `F` is local exactly when it matches the IPv4 pattern. */
  lemma {:induction false} OnlyIPv4PatternApplies(h: string)
    requires |h| > 0 && h[0] != '[' && LowerChar(h[0]) != 'f'
    requires h !in SkipDomains && h != "::1"
    ensures IsLocalDomain(h) <==> PrivateIPv4Prefix(h)
  {
    var b := StripBrackets(h);
    if |b| > 0 {
      assert b[0] == h[0];
      assert LowerAscii(b)[0] != 'f';
    }
  }

  /** The boundaries of the 172.16/12 range and the other private ranges. */
  lemma PrivateRangesAreLocal()
    ensures IsLocalDomain("172.16.0.1") && IsLocalDomain("172.31.255.255")
    ensures IsLocalDomain("192.168.1.5") && IsLocalDomain("10.0.0.1")
  {
    assert "172.16.0.1"[..4] == "172.";
    assert "172.31.255.255"[..4] == "172.";
  }

  /** Just outside 172.16/12 on either side is public. */
  lemma OutsideRangeIsPublic()
    ensures !IsLocalDomain("172.15.0.1") && !IsLocalDomain("172.32.0.1")
  {
    var a, b := "172.15.0.1", "172.32.0.1";
    assert a[0] == '1' && b[0] == '1' && |a| == 10 && |b| == 10;
    assert a !in SkipDomains && b !in SkipDomains;
    OnlyIPv4PatternApplies(a);
    OnlyIPv4PatternApplies(b);
    assert a[1] != "10."[1] && a[1] != "192.168."[1] && a[5] == '5';
    assert b[1] != "10."[1] && b[1] != "192.168."[1] && b[4] == '3' && b[5] == '2';
  }

  /** A public resolver address is not local. */
  lemma PublicAddressIsNotLocal()
    ensures !IsLocalDomain("8.8.8.8")
  {
    var c := "8.8.8.8";
    assert c[0] == '8' && |c| == 7;
    assert c !in SkipDomains;
    OnlyIPv4PatternApplies(c);
    assert c[0] != "10."[0] && c[0] != "172."[0] && c[0] != "192.168."[0];
  }

  /** IPv6 link-local literals are local with or without brackets and in
      either case; so is any stripped hostname beginning with `fc` or `fd`,
      which also catches ordinary names such as `fdic.gov`. */
  lemma Ipv6PrefixesAreLocal()
    ensures IsLocalDomain("fe80::1") && IsLocalDomain("[FE80::1]")
    ensures IsLocalDomain("[fd12::1]") && IsLocalDomain("FC00::")
    ensures IsLocalDomain("fdic.gov")
  {
    assert StripBrackets("[FE80::1]") == "FE80::1";
    assert LowerAscii("FE80::1")[..5] == "fe80:";
    assert StripBrackets("[fd12::1]") == "fd12::1";
    assert LowerAscii("FC00::")[..2] == "fc";
    assert LowerAscii("fdic.gov")[..2] == "fd";
    assert LowerAscii("fe80::1")[..5] == "fe80:";
  }
}

=== FILE: lookup_cache.dfy ===
/** The background service's in-memory lookup cache (src/background/index.ts):
    a map from domain to the last lookup response and the time it was stored.
    Entries expire lazily, on read; there is no size bound. The clock is a
    parameter. */
module LookupCache {
  import opened Types

  /** `CONFIG.CACHE_TTL_MS`: five minutes (src/common/config.ts). */
  const CacheTtlMs: int := 5 * 60 * 1000

  type Cache = map<string, CacheEntry>

  /** An entry is served while its age is at most the TTL. */
  predicate Fresh(entry: CacheEntry, now: int) {
    now - entry.timestamp <= CacheTtlMs
  }

  /** The answer of a read and the cache after it (a read may evict). */
  datatype Read = Read(data: Option<LookupResponse>, cache: Cache)

  /** `getCachedLookup`. */
  function Get(cache: Cache, domain: string, now: int): (r: Read)
    ensures r.data.Some? <==> domain in cache && Fresh(cache[domain], now)
    ensures r.data.Some? ==> r.data.value == cache[domain].data && r.cache == cache
    ensures r.data.None? ==> r.cache == cache - {domain}
  {
    if domain !in cache then Read(None, cache)
    else if now - cache[domain].timestamp > CacheTtlMs then Read(None, cache - {domain})
    else Read(Some(cache[domain].data), cache)
  }

  /** `cacheLookup`: overwrite with a fresh timestamp; no other key changes. */
  function Put(cache: Cache, domain: string, data: LookupResponse, now: int): (r: Cache)
    ensures r.Keys == cache.Keys + {domain}
    ensures r[domain] == CacheEntry(data, now)
    ensures forall d :: d in cache && d != domain ==> r[d] == cache[d]
  {
    cache[domain := CacheEntry(data, now)]
  }

  /** The INVALIDATE_CACHE message: only that domain goes. */
  function Invalidate(cache: Cache, domain: string): (r: Cache)
    ensures domain !in r
    ensures r.Keys == cache.Keys - {domain}
    ensures forall d :: d in r ==> r[d] == cache[d]
  {
    cache - {domain}
  }

  /** Logout empties the cache: no domain has an entry, so every read at any
      time misses. */
  function Clear(cache: Cache): (r: Cache)
    ensures forall d :: d !in r
    ensures forall d, now :: Get(r, d, now).data.None?
  {
    map[]
  }

  /** A stored response is served for exactly the TTL after it was stored,
      boundary included, and missed (and evicted) after that. */
  lemma PutThenGet(cache: Cache, domain: string, data: LookupResponse, storedAt: int, now: int)
    ensures var r := Get(Put(cache, domain, data, storedAt), domain, now);
            if now - storedAt <= CacheTtlMs then r.data == Some(data)
            else r.data == None && domain !in r.cache
  {
  }

  /** One millisecond either side of the TTL boundary. */
  lemma TtlBoundary(cache: Cache, domain: string, data: LookupResponse, t: int)
    ensures Get(Put(cache, domain, data, t), domain, t + CacheTtlMs - 1).data == Some(data)
    ensures Get(Put(cache, domain, data, t), domain, t + CacheTtlMs).data == Some(data)
    ensures Get(Put(cache, domain, data, t), domain, t + CacheTtlMs + 1).data == None
  {
  }

  /** Writing or invalidating one domain never changes what a read of another
      domain returns. */
  lemma OtherDomainsUnaffected(cache: Cache, domain: string, other: string, data: LookupResponse, t: int, now: int)
    requires other != domain
    ensures Get(Put(cache, domain, data, t), other, now).data == Get(cache, other, now).data
    ensures Get(Invalidate(cache, domain), other, now).data == Get(cache, other, now).data
  {
  }

  /** After invalidation the next read misses. */
  lemma InvalidateThenGet(cache: Cache, domain: string, now: int)
    ensures Get(Invalidate(cache, domain), domain, now).data == None
  {
  }
}

=== FILE: png.dfy ===
/** The PNG writer of the build-time icon generator (build/generate-icons.js):
    signature, IHDR (8-bit RGBA, no interlace), one IDAT holding the
    compressed scanlines, empty IEND, each chunk framed as section 3.2 of
    RFC 2083 describes (big-endian length, type, data, CRC over type and
    data). The compressor (`zlib.deflateSync`) is a parameter.

    Alongside the writer, a reader for exactly this layout: the round-trip
    lemmas below are stated against it. */
module Png {
  import opened Types
  import opened Crc32

  type Bytes = seq<bv8>

  /** The eight-byte PNG signature (section 3.1 of RFC 2083). */
  const Signature: Bytes := [137, 80, 78, 71, 13, 10, 26, 10]

  /** The largest value `writeUInt32BE` accepts, plus one. */
  const Two32: int := 0x1_0000_0000

  // Big-endian 32-bit fields.

  lemma SuccByte(b: bv8)
    requires b as int < 255
    ensures (b + 1) as int == b as int + 1
  {
  }

  lemma IntOfByte(b: bv8)
    ensures (b as int) as bv8 == b && b as int < 256
  {
  }

  /** A value below 256 as a byte, counted up from 0 (this keeps the solver
      away from converting an unbounded integer to a bit-vector). */
  function ByteOf(x: int): (b: bv8)
    requires 0 <= x < 256
    ensures b as int == x
  {
    if x == 0 then 0
    else
      var p := ByteOf(x - 1);
      SuccByte(p);
      p + 1
  }

  /** A byte's value. */
  function Val(b: bv8): (x: nat)
    ensures x < 256
  {
    IntOfByte(b);
    b as int
  }

  /** `writeUInt32BE(n)`: four bytes, most significant first. */
  function Be32(n: nat): (r: Bytes)
    requires n < 0x1_0000_0000
    ensures |r| == 4
  {
    Decompose(n);
    [ByteOf(n / 0x100_0000), ByteOf((n / 0x1_0000) % 0x100), ByteOf((n / 0x100) % 0x100), ByteOf(n % 0x100)]
  }

  /** `readUInt32BE`: the value of four bytes, most significant first. */
  function ReadBe32(s: Bytes): (n: nat)
    requires |s| >= 4
    ensures n < 0x1_0000_0000
  {
    Val(s[0]) * 0x100_0000 + Val(s[1]) * 0x1_0000 + Val(s[2]) * 0x100 + Val(s[3])
  }

  lemma Decompose(n: nat)
    requires n < 0x1_0000_0000
    ensures n / 0x100_0000 < 0x100
    ensures n == (n / 0x100_0000) * 0x100_0000 + ((n / 0x1_0000) % 0x100) * 0x1_0000
                 + ((n / 0x100) % 0x100) * 0x100 + n % 0x100
  {
    assert n / 0x1_0000 == (n / 0x100_0000) * 0x100 + (n / 0x1_0000) % 0x100;
    assert n / 0x100 == (n / 0x1_0000) * 0x100 + (n / 0x100) % 0x100;
    assert n == (n / 0x100) * 0x100 + n % 0x100;
  }

  lemma Compose(a: nat, b: nat, c: nat, d: nat)
    requires a < 0x100 && b < 0x100 && c < 0x100 && d < 0x100
    ensures var n := a * 0x100_0000 + b * 0x1_0000 + c * 0x100 + d;
            && n / 0x100_0000 == a && (n / 0x1_0000) % 0x100 == b
            && (n / 0x100) % 0x100 == c && n % 0x100 == d
  {
    var n := a * 0x100_0000 + b * 0x1_0000 + c * 0x100 + d;
    assert n / 0x100 == a * 0x1_0000 + b * 0x100 + c;
    assert n / 0x1_0000 == a * 0x100 + b;
  }

  /** Writing then reading a 32-bit field gives the value back. */
  lemma Be32RoundTrip(n: nat)
    requires n < 0x1_0000_0000
    ensures ReadBe32(Be32(n)) == n
  {
    Decompose(n);
  }

  /** `writeUInt32BE` of a 32-bit word such as a CRC: its bits, most
      significant byte first. */
  function WordBytes(w: bv32): (r: Bytes)
    ensures |r| == 4
  {
    [(w >> 24) as bv8, ((w >> 16) & 0xFF) as bv8, ((w >> 8) & 0xFF) as bv8, (w & 0xFF) as bv8]
  }

  /** The CRC field of a chunk. */
  function CrcBytes(s: Bytes): (r: Bytes)
    ensures |r| == 4
  {
    WordBytes(Crc(s))
  }

  // Chunks.

  datatype ChunkType = IHDR | IDAT | IEND

  /** `Buffer.from(type)`: the four ASCII letters of the type. */
  function TypeCode(t: ChunkType): (r: Bytes)
    ensures |r| == 4
  {
    match t
    case IHDR => [0x49, 0x48, 0x44, 0x52]
    case IDAT => [0x49, 0x44, 0x41, 0x54]
    case IEND => [0x49, 0x45, 0x4E, 0x44]
  }

  /** The type a four-byte code names, if any of the three. */
  function TypeOf(code: Bytes): (r: Option<ChunkType>)
    ensures r.Some? ==> TypeCode(r.value) == code
    ensures forall t :: TypeCode(t) == code ==> r == Some(t)
  {
    if code == TypeCode(IHDR) then Some(IHDR)
    else if code == TypeCode(IDAT) then Some(IDAT)
    else if code == TypeCode(IEND) then Some(IEND)
    else None
  }

  /** `createChunk`: length, type, data, CRC over type and data. `None` where
      `writeUInt32BE` throws: data of 2^32 bytes or more. */
  function CreateChunk(t: ChunkType, data: Bytes): (r: Option<Bytes>)
    ensures r.Some? <==> |data| < Two32
    ensures r.Some? ==> |r.value| == 12 + |data|
  {
    if |data| >= 0x1_0000_0000 then None
    else Some(Be32(|data|) + TypeCode(t) + data + CrcBytes(TypeCode(t) + data))
  }

  datatype Chunk = Chunk(kind: ChunkType, data: Bytes)

  datatype Split = Split(chunk: Chunk, rest: Bytes)

  /** Reads one chunk off the front: the length must fit, the type must be
      one of the three and the CRC must match. */
  function ParseChunk(s: Bytes): (r: Option<Split>)
    ensures r.Some? ==> |r.value.rest| < |s|
  {
    if |s| < 12 then None
    else
      var n := ReadBe32(s[..4]);
      if |s| < 12 + n then None
      else
        var code := s[4..8];
        var data := s[8..8 + n];
        match TypeOf(code)
        case None => None
        case Some(t) =>
          if s[8 + n..12 + n] != CrcBytes(code + data) then None
          else Some(Split(Chunk(t, data), s[12 + n..]))
  }

  /** The fields of a chunk laid end to end, sliced apart again. */
  lemma FrameSlices<T>(len: seq<T>, code: seq<T>, data: seq<T>, crc: seq<T>, rest: seq<T>)
    requires |len| == 4 && |code| == 4 && |crc| == 4
    ensures var s := len + code + data + crc + rest;
            && s[..4] == len && s[4..8] == code && s[8..8 + |data|] == data
            && s[8 + |data|..12 + |data|] == crc && s[12 + |data|..] == rest
  {
  }

  /** A written chunk reads back as itself, whatever follows it. */
  lemma ChunkRoundTrip(t: ChunkType, data: Bytes, rest: Bytes)
    requires |data| < Two32
    ensures ParseChunk(CreateChunk(t, data).value + rest) == Some(Split(Chunk(t, data), rest))
  {
    FrameSlices(Be32(|data|), TypeCode(t), data, CrcBytes(TypeCode(t) + data), rest);
    Be32RoundTrip(|data|);
  }

  /** A chunk whose stored CRC does not match its type and data is refused. */
  lemma CorruptChunkRejected(t: ChunkType, data: Bytes, crc: Bytes, rest: Bytes)
    requires |data| < Two32 && |crc| == 4 && crc != CrcBytes(TypeCode(t) + data)
    ensures ParseChunk(Be32(|data|) + TypeCode(t) + data + crc + rest).None?
  {
    FrameSlices(Be32(|data|), TypeCode(t), data, crc, rest);
    Be32RoundTrip(|data|);
  }

  /** The IEND chunk is the fixed twelve bytes that end every PNG file. */
  lemma IendChunkBytes()
    ensures CreateChunk(IEND, []) == Some([0, 0, 0, 0, 0x49, 0x45, 0x4E, 0x44, 0xAE, 0x42, 0x60, 0x82])
  {
    IendCrc();
    assert TypeCode(IEND) + [] == [0x49, 0x45, 0x4E, 0x44];
    assert WordBytes(0xAE42_6082) == [0xAE, 0x42, 0x60, 0x82];
    assert CrcBytes(TypeCode(IEND) + []) == [0xAE, 0x42, 0x60, 0x82];
    assert ByteOf(0) == 0;
    assert Be32(0) == [0, 0, 0, 0];
    assert Be32(0) + TypeCode(IEND) + [] + CrcBytes(TypeCode(IEND) + [])
        == [0, 0, 0, 0, 0x49, 0x45, 0x4E, 0x44, 0xAE, 0x42, 0x60, 0x82];
  }

  // Header.

  /** The 13 IHDR bytes: width, height, bit depth 8, colour type 6 (RGBA),
      compression 0, filter 0, interlace 0. */
  function IhdrData(width: nat, height: nat): (r: Bytes)
    requires width < Two32 && height < Two32
    ensures |r| == 13
  {
    Be32(width) + Be32(height) + [8, 6, 0, 0, 0]
  }

  datatype Header = Header(width: nat, height: nat)

  /** Reads an IHDR payload this writer produces: 8-bit RGBA, no interlace. */
  function ParseIhdr(data: Bytes): (r: Option<Header>)
  {
    if |data| != 13 || data[8..] != [8, 6, 0, 0, 0] then None
    else Some(Header(ReadBe32(data[..4]), ReadBe32(data[4..8])))
  }

  lemma IhdrRoundTrip(width: nat, height: nat)
    requires width < Two32 && height < Two32
    ensures ParseIhdr(IhdrData(width, height)) == Some(Header(width, height))
  {
    var d := IhdrData(width, height);
    assert d[..4] == Be32(width) && d[4..8] == Be32(height) && d[8..] == [8, 6, 0, 0, 0];
    Be32RoundTrip(width);
    Be32RoundTrip(height);
  }

  // Scanlines.

  /** Bytes per scanline: the filter-type byte, then four per pixel. */
  function Stride(width: nat): nat {
    1 + 4 * width
  }

  /** `h + 1` rows of `len` bytes are `h` rows and one more. */
  lemma RowStep(h: nat, len: nat)
    ensures (h + 1) * len == h * len + len
  {
  }

  lemma MulMono(a: nat, b: nat, c: nat)
    requires a <= b
    ensures a * c <= b * c
  {
  }

  /** Row `y` of the pixel buffer: `4 * width` bytes. */
  function PixelRow(width: nat, pixels: Bytes, y: nat): (r: Bytes)
    requires (y + 1) * (4 * width) <= |pixels|
    ensures |r| == 4 * width
  {
    RowStep(y, 4 * width);
    pixels[y * (4 * width)..(y + 1) * (4 * width)]
  }

  /** `rawData`: each row behind a filter byte 0 ("None"). */
  function Scanlines(width: nat, height: nat, pixels: Bytes): (r: Bytes)
    requires |pixels| == height * (4 * width)
    ensures |r| == height * Stride(width)
  {
    if height == 0 then []
    else
      RowStep(height - 1, 4 * width);
      RowStep(height - 1, Stride(width));
      Scanlines(width, height - 1, pixels[..(height - 1) * (4 * width)])
        + [0] + PixelRow(width, pixels, height - 1)
  }

  /** The inverse: drop each row's filter byte. */
  function Unfilter(width: nat, height: nat, raw: Bytes): (r: Bytes)
    requires |raw| == height * Stride(width)
    ensures |r| == height * (4 * width)
  {
    if height == 0 then []
    else
      RowStep(height - 1, 4 * width);
      RowStep(height - 1, Stride(width));
      var last := (height - 1) * Stride(width);
      Unfilter(width, height - 1, raw[..last]) + raw[last + 1..]
  }

  /** The last scanline and the ones before it. */
  lemma ScanlinesLast(width: nat, height: nat, pixels: Bytes)
    requires |pixels| == height * (4 * width) && height > 0
    ensures (height - 1) * (4 * width) <= |pixels|
    ensures (height - 1) * Stride(width) + Stride(width) == height * Stride(width)
    ensures var last := (height - 1) * Stride(width);
            var raw := Scanlines(width, height, pixels);
            && raw[..last] == Scanlines(width, height - 1, pixels[..(height - 1) * (4 * width)])
            && raw[last + 1..] == PixelRow(width, pixels, height - 1)
  {
    RowStep(height - 1, 4 * width);
    RowStep(height - 1, Stride(width));
  }

  /** The pixels before the last row, then the last row. */
  lemma PixelsLast(width: nat, height: nat, pixels: Bytes)
    requires |pixels| == height * (4 * width) && height > 0
    ensures (height - 1) * (4 * width) <= |pixels|
    ensures pixels[..(height - 1) * (4 * width)] + PixelRow(width, pixels, height - 1) == pixels
  {
    RowStep(height - 1, 4 * width);
  }

  /** Unfiltering the scanlines gives back the pixels. */
  lemma {:induction false} UnfilterScanlines(width: nat, height: nat, pixels: Bytes)
    requires |pixels| == height * (4 * width)
    ensures Unfilter(width, height, Scanlines(width, height, pixels)) == pixels
  {
    if height > 0 {
      ScanlinesLast(width, height, pixels);
      PixelsLast(width, height, pixels);
      UnfilterScanlines(width, height - 1, pixels[..(height - 1) * (4 * width)]);
    }
  }

  /** Every scanline starts with filter type 0. */
  lemma {:induction false} FilterBytesAreZero(width: nat, height: nat, pixels: Bytes, y: nat)
    requires |pixels| == height * (4 * width) && y < height
    ensures y * Stride(width) < |Scanlines(width, height, pixels)|
    ensures Scanlines(width, height, pixels)[y * Stride(width)] == 0
  {
    RowStep(height - 1, 4 * width);
    RowStep(height - 1, Stride(width));
    MulMono(y, height - 1, Stride(width));
    if y < height - 1 {
      FilterBytesAreZero(width, height - 1, pixels[..(height - 1) * (4 * width)], y);
    }
  }

  /** The copy loop of `createPNG`, row by row: a filter byte, then the row's
      pixels four bytes at a time. */
  method BuildScanlines(width: nat, height: nat, pixels: Bytes) returns (raw: Bytes)
    requires |pixels| == height * (4 * width)
    ensures raw == Scanlines(width, height, pixels)
  {
    raw := [];
    var y := 0;
    while y < height
      invariant 0 <= y <= height
      invariant y * (4 * width) <= |pixels|
      invariant raw == Scanlines(width, y, pixels[..y * (4 * width)])
    {
      MulMono(y + 1, height, 4 * width);
      RowStep(y, 4 * width);
      var start := y * (4 * width);
      var row := [0];
      var x := 0;
      while x < width
        invariant 0 <= x <= width
        invariant row == [0] + pixels[start..start + 4 * x]
      {
        var pi := start + 4 * x;
        row := row + [pixels[pi], pixels[pi + 1], pixels[pi + 2], pixels[pi + 3]];
        x := x + 1;
      }
      NextRow(width, y, pixels, raw, row);
      raw := raw + row;
      y := y + 1;
    }
    assert pixels[..height * (4 * width)] == pixels;
  }

  /** Appending the next row's scanline extends the scanlines of the rows
      before it. */
  lemma NextRow(width: nat, y: nat, pixels: Bytes, raw: Bytes, row: Bytes)
    requires (y + 1) * (4 * width) <= |pixels|
    requires raw == Scanlines(width, y, pixels[..y * (4 * width)])
    requires row == [0] + pixels[y * (4 * width)..y * (4 * width) + 4 * width]
    ensures raw + row == Scanlines(width, y + 1, pixels[..(y + 1) * (4 * width)])
  {
    RowStep(y, 4 * width);
    var prefix := pixels[..(y + 1) * (4 * width)];
    assert prefix[..y * (4 * width)] == pixels[..y * (4 * width)];
    assert PixelRow(width, prefix, y) == row[1..];
  }

  // The file.

  /** `createPNG`: `None` where a `writeUInt32BE` would throw (a dimension or
      the compressed size of 2^32 or more). */
  function CreatePng(width: nat, height: nat, pixels: Bytes, deflate: Bytes -> Bytes): (r: Option<Bytes>)
    requires |pixels| == height * (4 * width)
    ensures r.Some? <==> width < Two32 && height < Two32 && |deflate(Scanlines(width, height, pixels))| < Two32
    ensures r.Some? ==> |r.value| >= 8 && r.value[..8] == Signature
    ensures r.Some? ==> |r.value| == 8 + 25 + (12 + |deflate(Scanlines(width, height, pixels))|) + 12
  {
    if width >= 0x1_0000_0000 || height >= 0x1_0000_0000 then None
    else
      var compressed := deflate(Scanlines(width, height, pixels));
      if |compressed| >= 0x1_0000_0000 then None
      else
        var ihdr := CreateChunk(IHDR, IhdrData(width, height)).value;
        var idat := CreateChunk(IDAT, compressed).value;
        var iend := CreateChunk(IEND, []).value;
        Some(Signature + ihdr + (idat + iend))
  }

  datatype Image = Image(header: Header, compressed: Bytes)

  /** Reads a file of this writer's shape: signature, IHDR, one IDAT, IEND,
      nothing after. */
  function ParsePng(s: Bytes): (r: Option<Image>)
  {
    if |s| < 8 || s[..8] != Signature then None else ParseChunks(s[8..])
  }

  /** The chunks after the signature. */
  function ParseChunks(s: Bytes): (r: Option<Image>)
  {
    var first := ParseChunk(s);
    if first.None? || first.value.chunk.kind != IHDR then None
    else
      var header := ParseIhdr(first.value.chunk.data);
      var compressed := ParseImageData(first.value.rest);
      if header.None? || compressed.None? then None
      else Some(Image(header.value, compressed.value))
  }

  /** The IDAT chunk and the end of the file after the header. */
  function ParseImageData(s: Bytes): (r: Option<Bytes>)
  {
    match ParseChunk(s)
    case None => None
    case Some(Split(c, rest)) =>
      if c.kind == IDAT && AtEnd(rest) then Some(c.data) else None
  }

  /** An empty IEND chunk and nothing after it. */
  predicate AtEnd(s: Bytes) {
    match ParseChunk(s)
    case None => false
    case Some(Split(c, rest)) => c == Chunk(IEND, []) && rest == []
  }

  lemma EndRoundTrip()
    ensures AtEnd(CreateChunk(IEND, []).value)
  {
    ChunkRoundTrip(IEND, [], []);
    assert CreateChunk(IEND, []).value + [] == CreateChunk(IEND, []).value;
  }

  lemma ImageDataRoundTrip(compressed: Bytes)
    requires |compressed| < Two32
    ensures ParseImageData(CreateChunk(IDAT, compressed).value + CreateChunk(IEND, []).value) == Some(compressed)
  {
    ChunkRoundTrip(IDAT, compressed, CreateChunk(IEND, []).value);
    EndRoundTrip();
  }

  /** A written file reads back with its dimensions and exactly the
      compressor's output as image data. */
  lemma PngRoundTrip(width: nat, height: nat, pixels: Bytes, deflate: Bytes -> Bytes)
    requires |pixels| == height * (4 * width)
    requires width < Two32 && height < Two32 && |deflate(Scanlines(width, height, pixels))| < Two32
    ensures ParsePng(CreatePng(width, height, pixels, deflate).value)
            == Some(Image(Header(width, height), deflate(Scanlines(width, height, pixels))))
  {
    var compressed := deflate(Scanlines(width, height, pixels));
    var tail := CreateChunk(IDAT, compressed).value + CreateChunk(IEND, []).value;
    assert CreatePng(width, height, pixels, deflate).value == Signature + CreateChunk(IHDR, IhdrData(width, height)).value + tail;
    IhdrRoundTrip(width, height);
    ImageDataRoundTrip(compressed);
    ParseFile(IhdrData(width, height), tail);
  }

  /** A file made of the signature, an IHDR chunk and a tail reads as the
      header and image data read from those parts. */
  lemma ParseFile(ihdrData: Bytes, tail: Bytes)
    requires |ihdrData| < Two32
    requires ParseIhdr(ihdrData).Some? && ParseImageData(tail).Some?
    ensures ParsePng(Signature + CreateChunk(IHDR, ihdrData).value + tail)
            == Some(Image(ParseIhdr(ihdrData).value, ParseImageData(tail).value))
  {
    ChunkRoundTrip(IHDR, ihdrData, tail);
    ParseAfterSignature(CreateChunk(IHDR, ihdrData).value, ihdrData, tail);
  }

  lemma ParseAfterSignature(ihdr: Bytes, ihdrData: Bytes, tail: Bytes)
    requires ParseChunk(ihdr + tail) == Some(Split(Chunk(IHDR, ihdrData), tail))
    requires ParseIhdr(ihdrData).Some? && ParseImageData(tail).Some?
    ensures ParsePng(Signature + ihdr + tail)
            == Some(Image(ParseIhdr(ihdrData).value, ParseImageData(tail).value))
  {
    assert Signature + ihdr + tail == Signature + (ihdr + tail);
    SignatureThen(ihdr + tail);
  }

  /** The signature is read off and the rest parsed as chunks. */
  lemma SignatureThen(rest: Bytes)
    ensures ParsePng(Signature + rest) == ParseChunks(rest)
  {
    var s := Signature + rest;
    assert s[..8] == Signature;
    assert s[8..] == rest;
  }

  /** With a lossless compressor, the pixels are recovered from the file. */
  lemma PixelsRecoverable(width: nat, height: nat, pixels: Bytes, deflate: Bytes -> Bytes, inflate: Bytes -> Bytes)
    requires |pixels| == height * (4 * width)
    requires width < Two32 && height < Two32 && |deflate(Scanlines(width, height, pixels))| < Two32
    requires forall raw :: inflate(deflate(raw)) == raw
    ensures var parsed := ParsePng(CreatePng(width, height, pixels, deflate).value);
            && parsed.Some?
            && var img := parsed.value;
            && img.header == Header(width, height)
            && |inflate(img.compressed)| == height * Stride(width)
            && Unfilter(width, height, inflate(img.compressed)) == pixels
  {
    PngRoundTrip(width, height, pixels, deflate);
    UnfilterScanlines(width, height, pixels);
  }
}

=== FILE: popup_app.dfy ===
/** The popup's view state (src/popup/components/App.tsx): which screen shows,
    the credentials and lookup it shows them for, the scan it is waiting on,
    and the 3-second pollers it has started. Each handler is a function from
    the state before to the state after, with the replies of the background
    service, the active tab's URL and the URL parser as parameters. */
module PopupApp {
  import opened Types
  import opened Strings
  import Settings
  import Background

  datatype View = Loading | Login | Score | NotScanned | Progress

  datatype Popup = Popup(
    view: View,
    auth: Option<StoredAuth>,
    lookup: Option<LookupResponse>,
    domain: string,
    runningScan: Option<RunningScan>,
    error: string,
    settings: ExtensionSettings,
    polls: map<nat, string>,   // live poll intervals: id -> polled domain
    nextPoll: nat)

  /** The state before `init` runs. */
  const Initial: Popup :=
    Popup(Loading, None, None, "", None, "", ExtensionSettings(Symbols, true, Top, 2), map[], 0)

  /** The popup's own starting preferences are the stored defaults. */
  lemma InitialSettingsAreDefaults()
    ensures Initial.settings == Settings.DefaultSettings
    ensures Valid(Initial)
  {
  }

  /** The progress screen always has a scan to show, and interval ids are
      fresh. */
  predicate Valid(p: Popup) {
    && (p.view == Progress ==> p.runningScan.Some?)
    && (forall id | id in p.polls :: id < p.nextPoll)
  }

  /** `startPolling(domain, scanId)`: a new interval for `domain`; the scan id
      is not used by the tick. Earlier intervals keep running. */
  function StartPolling(p: Popup, domain: string): (r: Popup)
    ensures r.nextPoll == p.nextPoll + 1
    ensures p.nextPoll in r.polls && r.polls[p.nextPoll] == domain
    ensures forall id | id in p.polls && id != p.nextPoll :: id in r.polls && r.polls[id] == p.polls[id]
    ensures Valid(p) ==> p.nextPoll !in p.polls && r.polls.Keys == p.polls.Keys + {p.nextPoll}
    ensures r.(polls := p.polls, nextPoll := p.nextPoll) == p
  {
    p.(polls := p.polls[p.nextPoll := domain], nextPoll := p.nextPoll + 1)
  }

  /** `fetchLookup(domain)` with the background's reply. */
  function FetchLookup(p: Popup, domain: string, reply: LookupReply): (r: Popup)
    ensures Valid(p) ==> Valid(r)
    ensures !reply.success && reply.error == Some("Session expired") ==>
              r == p.(auth := None, view := Login)
    ensures !reply.success && reply.error != Some("Session expired") ==>
              && r.view == NotScanned
              && r.error == (if Truthy(reply.error) then reply.error.value else "Lookup failed")
              && r.polls == p.polls && r.auth == p.auth
    ensures reply.success ==>
              && r.lookup == Some(reply.Response())
              && (r.view == Progress <==> reply.runningScan.Some?)
              && (r.view == Score <==> reply.runningScan.None? && reply.scan.Some?)
              && (r.view == NotScanned <==> reply.runningScan.None? && reply.scan.None?)
    ensures reply.success && reply.runningScan.Some? ==>
              && r.runningScan == reply.runningScan
              && r.polls.Keys == p.polls.Keys + {p.nextPoll} && r.polls[p.nextPoll] == domain
    ensures reply.runningScan.None? ==> r.polls == p.polls
  {
    if !reply.success then
      if reply.error == Some("Session expired") then p.(auth := None, view := Login)
      else p.(error := if Truthy(reply.error) then reply.error.value else "Lookup failed", view := NotScanned)
    else
      var q := p.(lookup := Some(reply.Response()));
      if reply.runningScan.Some? then
        StartPolling(q.(runningScan := reply.runningScan, view := Progress), domain)
      else if reply.scan.Some? then q.(view := Score)
      else q.(view := NotScanned)
  }

  /** The settings part of `init`: a reply replaces the popup's preferences
      (every field of a settings object is truthy or defined). */
  function LoadSettings(p: Popup, reply: Option<ExtensionSettings>): (r: Popup)
    ensures reply.Some? ==> r.settings == reply.value
    ensures reply.None? ==> r.settings == p.settings
    ensures r.(settings := p.settings) == p
  {
    if reply.Some? then p.(settings := reply.value) else p
  }

  /** `init`: settings, then credentials, then the active tab. */
  function Init(p: Popup, settingsReply: Option<ExtensionSettings>, authReply: Option<StoredAuth>,
                tabUrl: Option<string>, parse: UrlParser, lookupReply: LookupReply): (r: Popup)
    ensures Valid(p) ==> Valid(r)
    ensures authReply.None? ==> r.view == Login && r.auth == p.auth
    ensures authReply.Some? && !Truthy(tabUrl) ==> r.view == NotScanned && r.auth == authReply
    ensures authReply.Some? && Truthy(tabUrl) && parse(tabUrl.value).None? ==>
              r.view == NotScanned && r.domain == p.domain
    ensures authReply.Some? && Truthy(tabUrl) && parse(tabUrl.value).Some?
            && !StartsWith(parse(tabUrl.value).value.protocol, "http") ==>
              var host := parse(tabUrl.value).value.hostname;
              r.view == NotScanned && r.domain == (if host != "" then host else "N/A")
    ensures authReply.Some? && Truthy(tabUrl) && parse(tabUrl.value).Some?
            && StartsWith(parse(tabUrl.value).value.protocol, "http") ==>
              var host := parse(tabUrl.value).value.hostname;
              r == FetchLookup(LoadSettings(p, settingsReply).(auth := authReply, domain := host), host, lookupReply)
    ensures settingsReply.Some? ==> r.settings == settingsReply.value
  {
    var p1 := LoadSettings(p, settingsReply);
    if authReply.None? then p1.(view := Login)
    else
      var p2 := p1.(auth := authReply);
      if !Truthy(tabUrl) then p2.(view := NotScanned)
      else match parse(tabUrl.value)
        case None => p2.(view := NotScanned)
        case Some(url) =>
          if !StartsWith(url.protocol, "http") then
            p2.(domain := if url.hostname != "" then url.hostname else "N/A", view := NotScanned)
          else
            FetchLookup(p2.(domain := url.hostname), url.hostname, lookupReply)
  }

  /** The reply to the popup's `LOGIN` message. */
  datatype LoginReply = LoginReply(success: bool, error: Option<string>, auth: StoredAuth)

  /** `handleLogin`: on success the credentials are kept and the active tab
      looked up as in `init`, except that a tab that is not an http page or
      fails to parse just shows the not-scanned screen. */
  function HandleLogin(p: Popup, reply: LoginReply, tabUrl: Option<string>, parse: UrlParser,
                       lookupReply: LookupReply): (r: Popup)
    ensures Valid(p) ==> Valid(r)
    ensures !reply.success ==>
              r == p.(error := if Truthy(reply.error) then reply.error.value else "Login failed")
    ensures reply.success && Truthy(tabUrl) && parse(tabUrl.value).Some?
            && StartsWith(parse(tabUrl.value).value.protocol, "http") ==>
              var host := parse(tabUrl.value).value.hostname;
              r == FetchLookup(p.(error := "", auth := Some(reply.auth), domain := host), host, lookupReply)
    ensures reply.success && !(Truthy(tabUrl) && parse(tabUrl.value).Some?
                               && StartsWith(parse(tabUrl.value).value.protocol, "http")) ==>
              r == p.(error := "", auth := Some(reply.auth), view := NotScanned)
  {
    var p1 := p.(error := "");
    if !reply.success then
      p1.(error := if Truthy(reply.error) then reply.error.value else "Login failed")
    else
      var p2 := p1.(auth := Some(reply.auth));
      if Truthy(tabUrl) && parse(tabUrl.value).Some? && StartsWith(parse(tabUrl.value).value.protocol, "http") then
        var host := parse(tabUrl.value).value.hostname;
        FetchLookup(p2.(domain := host), host, lookupReply)
      else p2.(view := NotScanned)
  }

  /** `handleLogout`: always the login screen with no credentials and no
      lookup. The pollers and the running scan are left as they were. */
  function HandleLogout(p: Popup): (r: Popup)
    ensures r.view == Login && r.auth.None? && r.lookup.None?
    ensures r.polls == p.polls && r.runningScan == p.runningScan && r.domain == p.domain
    ensures Valid(p) ==> Valid(r)
  {
    p.(auth := None, lookup := None, view := Login)
  }

  /** The reply to `TRIGGER_SCAN` / `TRIGGER_RESCAN`: `scan` is the id inside
      an optional `scan` object. */
  datatype TriggerReply = TriggerReply(success: bool, scan: Option<string>, scanId: Option<string>, error: Option<string>)

  /** `result.scan?.id || result.scanId`. */
  function ScanIdOf(reply: TriggerReply): (r: Option<string>)
    ensures Truthy(reply.scan) ==> r == reply.scan
    ensures !Truthy(reply.scan) ==> r == reply.scanId
  {
    if Truthy(reply.scan) then reply.scan else reply.scanId
  }

  datatype ScanKind = FirstScan | Rescan

  function StartFailedMessage(kind: ScanKind): string {
    match kind
    case FirstScan => "Failed to start scan"
    case Rescan => "Failed to start rescan"
  }

  /** `handleScan` / `handleRescan`: a successful reply with a non-empty id
      shows the progress screen for a queued scan and starts a poller on the
      popup's domain; anything else shows an error and changes nothing else. */
  function StartScan(p: Popup, kind: ScanKind, reply: TriggerReply, createdAt: string): (r: Popup)
    ensures Valid(p) ==> Valid(r)
    ensures reply.success && Truthy(ScanIdOf(reply)) ==>
              && r.view == Progress && r.error == ""
              && r.runningScan == Some(RunningScan(ScanIdOf(reply).value, Queued, createdAt))
              && r.polls.Keys == p.polls.Keys + {p.nextPoll} && r.polls[p.nextPoll] == p.domain
    ensures !(reply.success && Truthy(ScanIdOf(reply))) ==>
              && r == p.(error := r.error)
              && r.error == (if Truthy(reply.error) then reply.error.value else StartFailedMessage(kind))
              && r.error != ""
  {
    var p1 := p.(error := "");
    var id := ScanIdOf(reply);
    if reply.success && Truthy(id) then
      StartPolling(p1.(runningScan := Some(RunningScan(id.value, Queued, createdAt)), view := Progress), p.domain)
    else
      p1.(error := if Truthy(reply.error) then reply.error.value else StartFailedMessage(kind))
  }

  /** One firing of poll interval `id`: an unsuccessful reply is ignored; a
      complete scan clears the interval and shows the score; a running scan
      only updates the scan shown. */
  function PollTick(p: Popup, id: nat, reply: LookupReply): (r: Popup)
    requires id in p.polls
    ensures Valid(p) ==> Valid(r)
    ensures !reply.success ==> r == p
    ensures (id in r.polls) <==> !(reply.success && ScanComplete(reply.Response()))
    ensures reply.success ==> r.lookup == Some(reply.Response())
    ensures reply.success && ScanComplete(reply.Response()) ==>
              r.view == Score && r.runningScan.None? && r.polls == p.polls - {id}
    ensures reply.success && !ScanComplete(reply.Response()) ==>
              && r.view == p.view && r.polls == p.polls
              && r.runningScan == (if reply.runningScan.Some? then reply.runningScan else p.runningScan)
  {
    if !reply.success then p
    else
      var q := p.(lookup := Some(reply.Response()));
      if ScanComplete(reply.Response()) then
        q.(polls := p.polls - {id}, runningScan := None, view := Score)
      else if reply.runningScan.Some? then q.(runningScan := reply.runningScan)
      else q
  }

  /** A scan started from the popup is followed by its own poller until a
      successful complete lookup: that tick removes exactly the new interval
      and shows the score. */
  lemma StartedScanEndsOnCompletion(p: Popup, kind: ScanKind, reply: TriggerReply, createdAt: string,
                                    answer: LookupReply)
    requires Valid(p)
    requires reply.success && Truthy(ScanIdOf(reply))
    requires answer.success && ScanComplete(answer.Response())
    ensures var started := StartScan(p, kind, reply, createdAt);
            && p.nextPoll in started.polls
            && var done := PollTick(started, p.nextPoll, answer);
            && done.view == Score && done.polls == p.polls && done.runningScan.None?
  {
    var started := StartScan(p, kind, reply, createdAt);
    assert started.polls - {p.nextPoll} == p.polls;
  }

  /** How a background answer to `GET_LOOKUP` reaches the popup: the
      response itself, or `{success: false, error}` when it threw. */
  function AsReply(answer: Background.Outcome<LookupResponse>): (r: LookupReply)
    ensures answer.Threw? ==> !r.success && r.error == Some(answer.message)
    ensures answer.Ok? ==> r.Response() == answer.value && r.error.None?
  {
    match answer
    case Ok(data) => LookupReply(data.success, None, data.scan, data.runningScan)
    case Threw(message) => LookupReply(false, Some(message), None, None)
  }

  /** A background lookup that failed with 'Session expired' sends the popup
      to the login screen without credentials. */
  lemma ExpiredSessionShowsLogin(p: Popup, domain: string)
    ensures var r := FetchLookup(p, domain, AsReply(Background.Threw("Session expired")));
            r.view == Login && r.auth.None?
  {
  }

  /** The popup's poller and the background's poller for a domain stop on the
      same answers whenever the answer says `success: true`, and both keep
      running when the lookup throws. */
  lemma StopRulesAgree(p: Popup, id: nat, w: Background.World, t: nat, now: int,
                       answer: Background.Outcome<LookupResponse>, parse: UrlParser, tabs: seq<Background.Tab>, icons: Background.IconCalls)
    requires id in p.polls
    requires Background.WorldValid(w) && t in w.pollIntervals
    requires answer.Threw? || answer.value.success
    ensures (id in PollTick(p, id, AsReply(answer)).polls)
            == (t in Background.PollTick(w, t, now, answer, parse, tabs, icons).world.pollIntervals)
  {
    Background.PollerStopsOnlyOnCompletion(w, t, now, answer, parse, tabs, icons);
  }

  /** Where they differ: an answer with `success: false` but a completed scan
      and nothing running stops the background poller, while the popup
      ignores it and keeps polling. */
  lemma StopRulesDifferOnUnsuccessfulAnswer(p: Popup, id: nat, scan: ScanSummary)
    requires id in p.polls
    ensures var answer := LookupResponse(false, Some(scan), None);
            && ScanComplete(answer)
            && id in PollTick(p, id, AsReply(Background.Ok(answer))).polls
  {
  }
}

=== FILE: score_view.dfy ===
/** The score screen's derived state (src/popup/components/ScoreView.tsx): the
    colour class, label and score text of a scan, the re-scan flags computed
    from the eligibility answer, and the cooldown countdown text. */
module ScoreView {
  import opened Types
  import opened Strings
  import ApiClient

  const HourMs: int := 3_600_000
  const MinuteMs: int := 60_000

  /** `scan.riskLevel || 'green'`. */
  function RiskClass(level: Option<RiskLevel>): (r: string)
    ensures level.Some? ==> r == RiskName(level.value)
    ensures level.None? ==> r == "green"
    ensures r in {"green", "yellow", "red"}
  {
    if level.Some? then RiskName(level.value) else "green"
  }

  /** The label under the score: none without a risk level. */
  function RiskLabel(level: Option<RiskLevel>): (r: Option<string>)
    ensures r.Some? <==> level.Some?
    ensures r.Some? ==> r.value in {"Trusted", "Use Caution", "High Risk"}
  {
    match level
    case None => None
    case Some(Green) => Some("Trusted")
    case Some(Yellow) => Some("Use Caution")
    case Some(Red) => Some("High Risk")
  }

  /** Different risk levels get different labels, and a missing level renders
      with the same colour as green but with no label. */
  lemma LabelsDistinguishLevels(a: RiskLevel, b: RiskLevel)
    ensures RiskLabel(Some(a)) == RiskLabel(Some(b)) <==> a == b
    ensures RiskClass(None) == RiskClass(Some(Green)) && RiskLabel(None) != RiskLabel(Some(Green))
  {
  }

  /** `scan.trustScore ?? '?'`: only a missing score shows `?`; 0 shows `0`. */
  function ScoreText(score: Option<int>): (r: string)
    ensures r == "?" <==> score.None?
    ensures score.Some? && score.value >= 0 ==> AllDigits(r) && ParseNat(r) == score.value
  {
    match score
    case None => "?"
    case Some(n) =>
      if n >= 0 then
        ParseNatToString(n);
        NatToString(n)
      else
        assert IntToString(n)[0] == '-';
        IntToString(n)
  }

  /** The whole hours and the whole minutes left over in a positive span of
      milliseconds: the span truncated to the minute. */
  function SplitDuration(diff: int): (hm: (nat, nat))
    requires diff > 0
    ensures hm.1 < 60
    ensures hm.0 * HourMs + hm.1 * MinuteMs <= diff < hm.0 * HourMs + (hm.1 + 1) * MinuteMs
  {
    var hours := diff / HourMs;
    var rest := diff % HourMs;
    var minutes := rest / MinuteMs;
    assert diff == hours * HourMs + rest;
    assert rest == minutes * MinuteMs + rest % MinuteMs;
    (hours, minutes)
  }

  /** The split is the only one with those bounds. */
  lemma SplitDurationUnique(diff: int, h: nat, m: nat)
    requires diff > 0 && m < 60
    requires h * HourMs + m * MinuteMs <= diff < h * HourMs + (m + 1) * MinuteMs
    ensures SplitDuration(diff) == (h, m)
  {
  }

  /** `formatTimeRemaining`: `target` is the parsed `nextAvailableAt` in
      milliseconds (None when the date string does not parse: then every
      comparison with NaN is false and the text is `NaNm`). */
  function FormatTimeRemaining(target: Option<int>, now: int): (r: string)
    ensures target.Some? && target.value - now <= 0 ==> r == "now"
    ensures target.None? ==> r == "NaNm"
    ensures target.Some? && target.value - now > 0 ==>
              var (h, m) := SplitDuration(target.value - now);
              && (h > 0 ==> r == NatToString(h) + "h " + NatToString(m) + "m")
              && (h == 0 ==> r == NatToString(m) + "m")
  {
    match target
    case None => "NaNm"
    case Some(t) =>
      var diff := t - now;
      if diff <= 0 then "now"
      else
        var hours := diff / HourMs;
        var minutes := (diff % HourMs) / MinuteMs;
        if hours > 0 then IntToString(hours) + "h " + IntToString(minutes) + "m"
        else IntToString(minutes) + "m"
  }

  /** Ninety-one minutes and a few seconds read `1h 31m`; fifty-nine seconds
      read `0m`. */
  lemma FormatTimeSamples(now: int)
    ensures FormatTimeRemaining(Some(now + 5_465_000), now) == "1h 31m"
    ensures FormatTimeRemaining(Some(now + 59_000), now) == "0m"
  {
    SplitDurationUnique(5_465_000, 1, 31);
    SplitDurationUnique(59_000, 0, 0);
  }

  /** The derived flags of the screen. */
  datatype Flags = Flags(rescanDisabled: bool, showCooldown: bool, showLastScanned: bool, buttonDisabled: bool)

  function ComputeFlags(eligibility: Option<RescanEligibility>, scan: ScanSummary, loading: bool): (f: Flags)
    ensures f.rescanDisabled <==> eligibility.Some? && !eligibility.value.eligible
    ensures f.showCooldown <==> f.rescanDisabled && Truthy(eligibility.value.nextAvailableAt)
    ensures f.showLastScanned <==> scan.stale && !f.rescanDisabled && Truthy(scan.completedAt)
    ensures f.buttonDisabled <==> loading || f.rescanDisabled
  {
    var disabled := eligibility.Some? && !eligibility.value.eligible;
    Flags(disabled,
          disabled && Truthy(eligibility.value.nextAvailableAt),
          scan.stale && !disabled && Truthy(scan.completedAt),
          loading || disabled)
  }

  /** The cooldown hint and the "last scanned" label never show together; the
      hint only shows on a disabled button; with no eligibility answer yet
      the re-scan is allowed. */
  lemma FlagsConsistent(eligibility: Option<RescanEligibility>, scan: ScanSummary, loading: bool)
    ensures var f := ComputeFlags(eligibility, scan, loading);
            && !(f.showCooldown && f.showLastScanned)
            && (f.showCooldown ==> f.buttonDisabled)
            && (eligibility.None? ==> (f.buttonDisabled <==> loading))
  {
  }

  /** The button text: `Starting...` while the re-scan request is out, else
      the last-scanned date (its formatting is not modelled) or `Re-scan`. */
  datatype ButtonLabel = Starting | RescanSince(completedAt: string) | PlainRescan

  function RescanButtonLabel(eligibility: Option<RescanEligibility>, scan: ScanSummary, loading: bool): (r: ButtonLabel)
    ensures r.Starting? <==> loading
    ensures r.RescanSince? <==> !loading && ComputeFlags(eligibility, scan, loading).showLastScanned
    ensures r.RescanSince? ==> Some(r.completedAt) == scan.completedAt && r.completedAt != ""
  {
    if loading then Starting
    else if ComputeFlags(eligibility, scan, loading).showLastScanned then RescanSince(scan.completedAt.value)
    else PlainRescan
  }

  /** The eligibility state of a mounted score screen. Each change of scan id
      starts a new request and marks earlier ones stale; a stale answer is
      dropped. The previous answer stays until a fresh one arrives. */
  datatype Screen = Screen(scanId: string, epoch: nat, eligibility: Option<RescanEligibility>)

  function ShowScan(s: Screen, scanId: string): (r: Screen)
    ensures r.scanId == scanId && r.eligibility == s.eligibility
    ensures scanId != s.scanId ==> r.epoch > s.epoch
    ensures scanId == s.scanId ==> r == s
  {
    if scanId == s.scanId then s else s.(scanId := scanId, epoch := s.epoch + 1)
  }

  /** The answer to the request made in `epoch`; None when the message
      threw. */
  function ReceiveEligibility(s: Screen, epoch: nat, answer: Option<RescanEligibility>): (r: Screen)
    ensures r.scanId == s.scanId && r.epoch == s.epoch
    ensures r.eligibility != s.eligibility ==> epoch == s.epoch && answer.Some? && r.eligibility == answer
    ensures epoch == s.epoch && answer.Some? ==> r.eligibility == answer
  {
    if epoch == s.epoch && answer.Some? then s.(eligibility := answer) else s
  }

  /** An answer requested before the screen moved to another scan is never
      applied to it. */
  lemma StaleAnswerIgnored(s: Screen, scanId: string, answer: Option<RescanEligibility>)
    requires scanId != s.scanId
    ensures var moved := ShowScan(s, scanId);
            ReceiveEligibility(moved, s.epoch, answer) == moved
  {
  }

  /** `handleCheckRescan` in the background: a failed check answers
      "eligible, no cooldown". */
  function CheckRescanAnswer(result: ApiClient.Result<RescanEligibility>): (r: RescanEligibility)
    ensures result.Success? ==> r == result.value
    ensures result.Failure? ==> r.eligible && r.nextAvailableAt.None?
  {
    match result
    case Success(e) => e
    case Failure(_) => RescanEligibility(true, None)
  }

  /** So a failed eligibility check never disables the re-scan button. */
  lemma FailedCheckAllowsRescan(error: ApiClient.ApiError, scan: ScanSummary, loading: bool)
    ensures var f := ComputeFlags(Some(CheckRescanAnswer(ApiClient.Failure(error))), scan, loading);
            !f.rescanDisabled && !f.showCooldown && (f.buttonDisabled <==> loading)
  {
  }
}

=== FILE: settings.dfy ===
/** User preferences (src/common/settings.ts): one storage key holding an
    object that is spread over the defaults when read. */
module Settings {
  import opened Types
  import opened Storage
  import Auth

  const SettingsKey: string := "extensionSettings"

  const DefaultSettings: ExtensionSettings := ExtensionSettings(Symbols, true, Top, 2)

  function OrElse<T>(o: Option<T>, fallback: T): T {
    if o.Some? then o.value else fallback
  }

  /** `{ ...base, ...stored }`: a field present in `stored` wins, whatever its
      value (`false` and `0` included); a missing one keeps `base`. */
  function Merge(base: ExtensionSettings, stored: StoredSettings): ExtensionSettings {
    ExtensionSettings(
      OrElse(stored.iconDisplayMode, base.iconDisplayMode),
      OrElse(stored.trustBarEnabled, base.trustBarEnabled),
      OrElse(stored.trustBarPosition, base.trustBarPosition),
      OrElse(stored.trustBarSize, base.trustBarSize))
  }

  /** The stored form of a complete settings object. */
  function Complete(s: ExtensionSettings): StoredSettings {
    StoredSettings(Some(s.iconDisplayMode), Some(s.trustBarEnabled), Some(s.trustBarPosition), Some(s.trustBarSize))
  }

  /** `getSettings`. */
  function GetSettings(store: Store): (r: ExtensionSettings)
    ensures SettingsKey !in store ==> r == DefaultSettings
    ensures SettingsKey in store && store[SettingsKey].SettingsRecord? ==>
              var p := store[SettingsKey].settings;
              && (p.iconDisplayMode.Some? ==> r.iconDisplayMode == p.iconDisplayMode.value)
              && (p.iconDisplayMode.None? ==> r.iconDisplayMode == Symbols)
              && (p.trustBarEnabled.Some? ==> r.trustBarEnabled == p.trustBarEnabled.value)
              && (p.trustBarEnabled.None? ==> r.trustBarEnabled == true)
              && (p.trustBarPosition.Some? ==> r.trustBarPosition == p.trustBarPosition.value)
              && (p.trustBarPosition.None? ==> r.trustBarPosition == Top)
              && (p.trustBarSize.Some? ==> r.trustBarSize == p.trustBarSize.value)
              && (p.trustBarSize.None? ==> r.trustBarSize == 2)
  {
    if SettingsKey in store && store[SettingsKey].SettingsRecord? then
      Merge(DefaultSettings, store[SettingsKey].settings)
    else
      DefaultSettings
  }

  /** `saveSettings`: a single write of the settings key. */
  function SaveSettings(store: Store, s: ExtensionSettings): (r: Store)
    ensures r.Keys == store.Keys + {SettingsKey}
    ensures forall k :: k in store && k != SettingsKey ==> r[k] == store[k]
  {
    store[SettingsKey := SettingsRecord(Complete(s))]
  }

  /** Saving a complete object and reading it back returns it. */
  lemma SaveThenGet(store: Store, s: ExtensionSettings)
    ensures GetSettings(SaveSettings(store, s)) == s
  {
  }

  /** Settings and credentials live under disjoint keys: saving settings does
      not change what `getStoredAuth` reads, and clearing credentials does not
      change what `getSettings` reads. */
  lemma SettingsAndAuthIndependent(store: Store, s: ExtensionSettings)
    ensures Auth.GetStoredAuth(SaveSettings(store, s)) == Auth.GetStoredAuth(store)
    ensures GetSettings(Auth.ClearAuth(store)) == GetSettings(store)
  {
    var saved := SaveSettings(store, s);
    assert SettingsKey !in Auth.AuthKeys;
    assert Auth.HasAuth(saved) == Auth.HasAuth(store);
  }
}

=== FILE: storage.dfy ===
/** The extension's persistent key-value store (`browser.storage.local`), shared
    by the auth and settings modules. Only the value shapes those modules write
    are represented. */
module Storage {
  import opened Types

  datatype StoredValue =
    | Text(text: string)
    | UserRecord(user: User)
    | SettingsRecord(settings: StoredSettings)

  type Store = map<string, StoredValue>

  /** JavaScript truthiness of a stored value: the empty string is falsy,
      objects are truthy. */
  predicate TruthyValue(v: StoredValue) {
    !(v.Text? && v.text == "")
  }

  /** `storage.local.get(key)` followed by a truthiness test. */
  predicate Present(store: Store, key: string) {
    key in store && TruthyValue(store[key])
  }
}

=== FILE: strings.dfy ===
/** String helpers shared by the model: prefix and substring tests, ASCII case
    folding as a case-insensitive regular expression applies it, and the decimal
    rendering of integers that JavaScript's `String(n)` and template literals
    produce, together with its inverse. */
module Strings {

  predicate StartsWith(s: string, prefix: string) {
    |prefix| <= |s| && s[..|prefix|] == prefix
  }

  /** `s.includes(sub)`: `sub` occurs somewhere in `s`. */
  predicate Contains(s: string, sub: string)
    decreases |s|
  {
    StartsWith(s, sub) || (|s| > 0 && Contains(s[1..], sub))
  }

  lemma {:induction false} ContainsAfterPrefix(p: string, s: string, sub: string)
    requires Contains(s, sub)
    ensures Contains(p + s, sub)
    decreases |p|
  {
    if |p| > 0 {
      assert (p + s)[1..] == p[1..] + s;
      ContainsAfterPrefix(p[1..], s, sub);
    } else {
      assert p + s == s;
    }
  }

  /** The ASCII upper-case letters map to lower case; every other character is
      left alone (a regular expression without the `u` flag never folds a
      non-ASCII character onto an ASCII one). */
  function LowerChar(c: char): (r: char)
    ensures 'A' <= c <= 'Z' ==> 'a' <= r <= 'z'
    ensures !('A' <= c <= 'Z') ==> r == c
  {
    if 'A' <= c <= 'Z' then (c as int + 32) as char else c
  }

  function LowerAscii(s: string): (r: string)
    ensures |r| == |s|
    ensures forall i :: 0 <= i < |s| ==> r[i] == LowerChar(s[i])
  {
    seq(|s|, i requires 0 <= i < |s| => LowerChar(s[i]))
  }

  /** A case-insensitive anchored match of a lower-case literal `prefix`. */
  predicate StartsWithIgnoringCase(s: string, prefix: string) {
    StartsWith(LowerAscii(s), prefix)
  }

  predicate IsDigit(c: char) {
    '0' <= c <= '9'
  }

  predicate AllDigits(s: string) {
    forall i :: 0 <= i < |s| ==> IsDigit(s[i])
  }

  function DigitChar(d: nat): (c: char)
    requires d < 10
    ensures IsDigit(c)
  {
    (48 + d) as char
  }

  function DigitValue(c: char): (d: nat)
    requires IsDigit(c)
    ensures d < 10
  {
    c as int - 48
  }

  /** Decimal digits of `n`, most significant first, without leading zeros. */
  function NatToString(n: nat): (r: string)
    ensures |r| >= 1
    ensures AllDigits(r)
    ensures r[0] == '0' <==> n == 0
    decreases n
  {
    if n < 10 then [DigitChar(n)] else NatToString(n / 10) + [DigitChar(n % 10)]
  }

  /** `String(n)` for an integer-valued number. */
  function IntToString(n: int): (r: string)
    ensures n >= 0 ==> AllDigits(r)
    ensures n < 0 ==> |r| >= 2 && r[0] == '-' && AllDigits(r[1..])
  {
    if n < 0 then "-" + NatToString(-n) else NatToString(n)
  }

  /** Reads a run of decimal digits back as a number. */
  function ParseNat(s: string): nat
    requires AllDigits(s)
    decreases |s|
  {
    if |s| == 0 then 0 else ParseNat(s[..|s| - 1]) * 10 + DigitValue(s[|s| - 1])
  }

  /** Reading back the decimal rendering of `n` yields `n`. */
  lemma {:induction false} ParseNatToString(n: nat)
    ensures ParseNat(NatToString(n)) == n
    decreases n
  {
    var r := NatToString(n);
    if n >= 10 {
      ParseNatToString(n / 10);
      assert r[..|r| - 1] == NatToString(n / 10);
      assert r[|r| - 1] == DigitChar(n % 10);
    }
  }

  /** Different numbers have different decimal renderings. */
  lemma NatToStringInjective(a: nat, b: nat)
    requires NatToString(a) == NatToString(b)
    ensures a == b
  {
    ParseNatToString(a);
    ParseNatToString(b);
  }
}

=== FILE: types.dfy ===
/** The records exchanged between the extension's background service, popup
    and content script, and returned by the remote API (src/common/types.ts).
    JavaScript's `T | null` is `Option<T>`; string-literal unions are enums. */
module Types {

  datatype Option<+T> = None | Some(value: T)

  datatype RiskLevel = Green | Yellow | Red

  /** The lower-case name the API and the style sheets use for a risk level. */
  function RiskName(level: RiskLevel): string {
    match level
    case Green => "green"
    case Yellow => "yellow"
    case Red => "red"
  }

  datatype ScanStatus = Queued | Running

  datatype ScanSummary = ScanSummary(
    id: string,
    normalizedDomain: string,
    trustScore: Option<int>,
    riskLevel: Option<RiskLevel>,
    verdict: Option<string>,
    websiteType: Option<string>,
    faviconUrl: Option<string>,
    cachedUntil: Option<string>,
    completedAt: Option<string>,
    stale: bool)

  datatype RunningScan = RunningScan(scanId: string, status: ScanStatus, createdAt: string)

  datatype LookupResponse = LookupResponse(
    success: bool,
    scan: Option<ScanSummary>,
    runningScan: Option<RunningScan>)

  /** A lookup is finished when a completed scan is present and nothing is
      running; both pollers (background and popup) stop on exactly this. */
  predicate ScanComplete(data: LookupResponse) {
    data.scan.Some? && data.runningScan.None?
  }

  /** The GET_LOOKUP message reply: a LookupResponse, or `{success: false, error}`
      when the background handler caught an exception. */
  datatype LookupReply = LookupReply(
    success: bool,
    error: Option<string>,
    scan: Option<ScanSummary>,
    runningScan: Option<RunningScan>)
  {
    function Response(): LookupResponse {
      LookupResponse(success, scan, runningScan)
    }
  }

  datatype RescanEligibility = RescanEligibility(eligible: bool, nextAvailableAt: Option<string>)

  datatype IconDisplayMode = Numbers | Symbols

  datatype TrustBarPosition = Top | Bottom

  datatype ExtensionSettings = ExtensionSettings(
    iconDisplayMode: IconDisplayMode,
    trustBarEnabled: bool,
    trustBarPosition: TrustBarPosition,
    trustBarSize: int)

  /** A settings object as found in storage: any field may be missing. */
  datatype StoredSettings = StoredSettings(
    iconDisplayMode: Option<IconDisplayMode>,
    trustBarEnabled: Option<bool>,
    trustBarPosition: Option<TrustBarPosition>,
    trustBarSize: Option<int>)

  datatype TrustBarData = TrustBarData(
    enabled: bool,
    riskLevel: RiskLevel,
    position: TrustBarPosition,
    size: int)

  datatype User = User(id: string, email: string, tier: string, isAdmin: bool)

  datatype Tokens = Tokens(accessToken: string, refreshToken: string)

  datatype StoredAuth = StoredAuth(accessToken: string, refreshToken: string, user: User)

  datatype CacheEntry = CacheEntry(data: LookupResponse, timestamp: int)

  /** The two parts of a parsed URL the extension reads. */
  datatype Url = Url(protocol: string, hostname: string)

  /** `new URL(s)`: None when the constructor throws. The parser itself is not
      part of this model; operations take it as a parameter. */
  type UrlParser = string -> Option<Url>

  /** JavaScript truthiness of an optional string: present and non-empty. */
  predicate Truthy(s: Option<string>) {
    s.Some? && s.value != ""
  }
}
